=== FILE: README.md ===
# netflow core, modelled in Dafny

This project models the core of netflow, an Electron packet-capture desktop app with a plugin
system. It covers two parts.

**The docking layout engine** (`renderer/docking.js`):

- a tree of splits and tab panels;
- the `DockManager` with its item registry, active panel, tab-id counter and drag state;
- the tab drag protocol: press, threshold, zone classification, and a drop that moves, splits
  or floats a tab, then collapses emptied panels.

**The pure helpers of the bundled plugins:**

- the packet visualizer's `hexDump` and virtual-scroll window;
- the Python sniffer's IPv4 header reading, protocol names and printed line;
- the sniffer's Node wrapper, which cuts standard output into lines and parses each `Packet:`
  line with a regular expression;
- the traffic grapher's filtering, per-second bucketing, gap filling, scale and tooltip index;
- the network reporter's protocol filter, last-N selection, tallies, top-N lists and protocol
  table.

Every operation is a pure function, or a method with loops, on immutable values. The files are:

| file | module | models |
|---|---|---|
| `wrappers.dfy` | `Wrappers` | `Option` |
| `seqs.dfy` | `Seqs` | sequence helpers: `indexOf`, removal of one value, `slice` |
| `text.dfy` | `Text` | JavaScript `trim`, ASCII case mapping, `includes`, numbers in base 10 and 16 |
| `dock_layout.dfy` | `DockLayout` | `DockSplit.addChild/replaceChild/removeChild`, `findFirstPanel`, `findPanelByElement` |
| `dock_panel.dfy` | `DockPanels` | `DockPanel.addTab/removeTab/activate` |
| `dock_manager.dfy` | `DockManager` | `openTab`, `closeTab`, `activateTab`, `removePanel`, `floatPlugin` and the manager invariant |
| `dock_drag.dfy` | `DockDrag` | `onTabMouseDown`, `onMouseMove`, the zone logic of `handleDragOver`, `onMouseUp`, `handleDrop` |
| `dock_scenario.dfy` | `DockScenario` | a worked open-drag-drop-close sequence, evaluated step by step |
| `hex_dump.dfy` | `HexDump` | `hexDump` |
| `virtual_scroll.dfy` | `VirtualScroll` | the index and padding arithmetic of `renderVirtual` |
| `sniffer.dfy` | `Sniffer` | `get_protocol_name`, `get_high_level_protocol`, the header reading of `_sniff_loop` and its printed line |
| `packet_line.dfy` | `PacketLine` | the `Packet:` regular expression, as a backtracking matcher would run it |
| `feed.dfy` | `Feed` | the standard-output `data` handler, and the print-then-parse round trip |
| `grapher.dfy` | `Grapher` | the data side of the traffic grapher's `drawGraph`, and its tooltip index |
| `reporter.dfy` | `Reporter` | the statistics of the network reporter's report button |

## How the engine is represented

- **The tree.** It is `Layout = Leaf(panel) | Split(orientation, children)`.
  - A panel's tabs and active tab live in a store `panels: map<PanelId, Panel>`.
  - Panels keep their identity and tabs after they leave the tree, as the JavaScript objects do
    while the registry still points at them.
  - Parent pointers are not stored. For a node in the tree, the parent is the split that lists
    it, and "has a parent" means "is not the root". A panel that left the tree keeps a stale
    parent that no longer lists it.
- **Tab ids.** `TabId(n)` stands for the string `'tab-' + n`.
- **Outside inputs.** DOM hit testing (`elementFromPoint`, `closest`, the bounding rectangle)
  and `isConnected` become inputs: an optional hit panel with its rectangle, and reachability
  from the root.
- **Exceptions.** A JavaScript exception thrown part-way through a handler is modelled as the
  state reached at the throw. For example, a drag whose tab was closed meanwhile throws in
  `onMouseUp`, and the final `dragState = null` then never runs.

## Quirks of the code the model keeps

The model follows the code in each case.

- **Collapse is one level only.** `replaceChild` does not collapse again, and a split without a
  parent never collapses. Emptying one side of a root split therefore leaves a root split with
  one child, not the surviving panel (`DockScenario.RootKeepsSplit`).
- **A drop outside every panel floats the tab.** The tab is closed and its title is handed to
  the window host (`floatPlugin`). No item of mode `'float'` is ever created.
- **A drop can lose the dragged tab.** This happens on an edge drop of a panel's only tab onto
  that same panel, when the panel is not the root. The emptied panel leaves the tree first, so
  the new split is attached nowhere. The tab stays registered but no panel in the tree shows it
  (`DockDrag.LostTab`).
- **A drop can leave an empty panel in the tree.** On the root panel, the same edge drop keeps
  the emptied root panel beside the new one (`DockDrag.EmptyPanelInTree`).
- **The manager invariant is conditional.** `Consistent` is kept by every operation. "Every
  registered tab is in the tree" (`Docked`) is kept by every operation except that lost-tab drop.

## Model

| member | source | states |
|---|---|---|
| DockPanels.Activate | renderer/docking.js:126-139 | activating a tab of the panel makes it the active tab and focuses the panel; an unknown id changes nothing; the tab list never changes and the panel invariant is kept |
| DockPanels.AddTab | renderer/docking.js:76-101 | an id already present changes nothing; a new id is appended last, and becomes active exactly when `activate` is set or no tab was active, otherwise the active tab is kept |
| DockPanels.RemoveTab | renderer/docking.js:103-119 | an unknown id changes nothing; otherwise exactly that id leaves the panel; a removed active tab hands the focus to the first remaining tab, or to none when the panel empties |
| DockPanels.RemoveTabKeepsOrder | renderer/docking.js:113-119 | removal splices the id out, keeping the other tabs in their order, and keeps the panel invariant (no duplicates, active tab present exactly when the panel has tabs) |
| DockPanels.AddRemoveRoundTrip | renderer/docking.js:76-119 | adding a new tab without activation and removing it again gives back the original panel |
| DockPanels.AddActivatedRemoveFocusesFirst | renderer/docking.js:98-117 | after adding a tab with activation and removing it, the focus goes to the first tab, not back to the tab that was active before |
| DockLayout.RemoveLeafAbsent | renderer/docking.js:38-40 | removing a panel that is not in the tree leaves the tree unchanged |
| DockLayout.RemoveLeafShrinks | renderer/docking.js:38-48 | removing a panel never adds a panel to the tree, whatever its shape |
| DockLayout.RemoveLeafRemoves | renderer/docking.js:38-48 | in a duplicate-free tree, removing a panel in a split removes exactly that panel; the tree stays duplicate-free and keeps its well-formed shape |
| DockLayout.CollapseKeepsIndex | renderer/docking.js:44-45 | a non-root split left with one child is replaced by that survivor at the same index of its parent |
| DockLayout.RootSplitSurvives | renderer/docking.js:44 | the parentless root split is never collapsed: it stays a split of the same orientation, possibly with one or no child |
| DockLayout.ReplaceChildLeafAbsent | renderer/docking.js:30-31 | replacing a panel that is not in the tree changes nothing |
| DockLayout.ReplaceChildLeafReplaces | renderer/docking.js:29-36 | replacing a panel by a subtree with fresh panels swaps exactly that panel for the subtree's panels, keeping the tree duplicate-free and well formed |
| DockLayout.ReplaceChildLeafPlaces | renderer/docking.js:29-36 | replacing a panel of a split puts the new node into the tree |
| DockLayout.SplitThenRemove | renderer/docking.js:29-48 | replacing a panel by a two-child split with a fresh panel and then removing that fresh panel collapses the split back and gives the original tree |
| DockLayout.FindFirstPanel | renderer/docking.js:229-235 | a panel found is a panel of the tree |
| DockLayout.FindFirstPanelNone | renderer/docking.js:229-235 | in a well-formed tree the search finds nothing exactly when the tree has no panel, which is only a root split left with no children |
| DockLayout.FindPanelByElementFinds | renderer/docking.js:440-449 | the depth-first search returns the panel exactly when it is reachable from the node searched, and never another panel |
| DockManager.RemovePanel | renderer/docking.js:237-242 | the root panel and a panel outside the tree are never removed; otherwise exactly that panel leaves the tree, which stays duplicate-free and well formed |
| DockManager.RemoveTabInEffect | renderer/docking.js:103-124 | `removeTab` on a panel changes only that panel's tabs and, when the panel empties and has a parent, takes the panel out of the tree; the structure is kept |
| DockManager.TabTarget | renderer/docking.js:190-199 | `openTab` uses the active panel if it is connected, else the first panel of the tree, else a new root panel; the chosen panel is always connected |
| DockManager.OpenTab | renderer/docking.js:187-204 | the new id is `'tab-' + (counter + 1)`; it is added to the chosen panel and registered there in mode dock; the active panel becomes that panel when the tab is activated there, and otherwise stays as it was |
| DockManager.NextTabFresh | renderer/docking.js:188 | the id `openTab` hands out is in no panel and not registered |
| DockManager.OpenTabPlaces | renderer/docking.js:187-204 | after `openTab` every registered tab, the new one too, is docked in the panel its entry names |
| DockManager.OpenTabCovers | renderer/docking.js:187-204 | after `openTab` every tab of every panel is registered |
| DockManager.OpenTabConsistent | renderer/docking.js:187-204 | `openTab` keeps the manager invariant and keeps every registered tab in the tree |
| DockManager.CloseTab | renderer/docking.js:206-217 | an unknown id changes nothing; a docked id is unregistered and the rest is exactly `removeTab` on the panel its entry names, emptied-panel collapse and active-panel change included; an id in another mode is only unregistered |
| DockManager.CloseTabConsistent | renderer/docking.js:206-217 | `closeTab` keeps the manager invariant and keeps every registered tab in the tree |
| DockManager.ActivateTab | renderer/docking.js:219-227 | an unknown id, or one not in dock mode, changes nothing; a docked tab is activated in its panel, which keeps its tabs; every other panel, the tree, the registry and the set of panels stay unchanged |
| DockManager.ActivateTabConsistent | renderer/docking.js:219-227 | `activateTab` keeps the manager invariant |
| DockManager.FloatPlugin | renderer/docking.js:244-251 | a plugin name is sent to the window host exactly for a registered tab, and it is that tab's title; the tab leaves the registry, an unknown id changes nothing, and the manager invariant is kept |
| DockManager.InitialConsistent | renderer/docking.js:162-168 | the fresh manager (one empty root panel) satisfies the invariant |
| DockDrag.ClassifyZone | renderer/docking.js:340-346 | the zone is left exactly when x < 0.25 w, right exactly when not left and x > 0.75 w, then top and bottom by y in the same way, and center otherwise |
| DockDrag.ClassifyZoneMirror | renderer/docking.js:340-346 | mirroring the point across the panel's vertical or horizontal axis mirrors the zone |
| DockDrag.IndicatorFor | renderer/docking.js:355-368 | the indicator is drawn at 0.2 opacity exactly for the center zone and at 0.5 for an edge |
| DockDrag.IndicatorShowsLanding | renderer/docking.js:355-368 | an edge indicator covers the half of the panel where the new panel will land; the center indicator covers the whole panel |
| DockDrag.MouseDown | renderer/docking.js:255-268 | a press with any button but the primary one changes nothing; a primary press activates the tab in its panel and starts a not-yet-dragging drag state |
| DockDrag.MouseMove | renderer/docking.js:298-323 | a drag starts exactly when the pointer moved more than 5 px on an axis, so a move of exactly 5 does not start one; once dragging, a move records the drop target under the pointer |
| DockDrag.SplitAt | renderer/docking.js:416-436 | the new split is horizontal for left and right and vertical for top and bottom, with the new panel first for left and top; it becomes the root when the target is the root panel, otherwise it replaces the target in place, so a root split keeps its orientation and number of children, and removing the new panel again collapses it back into the target's place, giving the old tree; a target that left the tree changes nothing |
| DockDrag.HandleDrop | renderer/docking.js:394-438 | a target outside the tree, or the center of the source, changes nothing; otherwise the tab leaves its source panel first; a center drop appends it to the target panel and activates it, keeping the layout; an edge drop puts it alone in a new active panel split beside the target by `SplitAt`; no other panel changes, the registry entry follows the tab, and every other registry entry stays as it was |
| DockDrag.MouseUp | renderer/docking.js:374-392 | a release ends the drag; a recorded target gets exactly `HandleDrop`, and no target closes the tab and hands its title to the window host; the drag state survives only when the handler throws |
| DockDrag.ClosedTabDropIsNoop | renderer/docking.js:394-404 | dropping a tab that was closed during the drag changes nothing: no panel holds it, and reading its missing entry throws before anything is added |
| DockDrag.DropConsistent | renderer/docking.js:394-438 | every drop keeps the manager invariant |
| DockDrag.DropDocked | renderer/docking.js:394-438 | apart from the lost-tab case, a drop keeps every registered tab in a panel of the tree |
| DockDrag.LostTab | renderer/docking.js:408-427 | an edge drop of a non-root panel's only tab onto that panel leaves the tab registered to a new panel that is not in the tree, and no panel of the tree shows it |
| DockDrag.EmptyPanelInTree | renderer/docking.js:403-427 | the same drop on the root panel leaves the emptied root panel in the tree beside the new panel |
| DockDrag.ClosedTabDragIsStuck | renderer/docking.js:374-398 | a drag whose tab was closed meanwhile throws on a release at a live target and keeps its drag state |
| DockDrag.MouseDownConsistent | renderer/docking.js:255-268 | a press keeps the manager invariant and starts a drag state that names a tab of its source panel |
| DockDrag.MouseMoveConsistent | renderer/docking.js:298-323 | a move keeps the manager invariant |
| DockDrag.MouseUpConsistent | renderer/docking.js:374-392 | a release keeps the invariant and, apart from the lost-tab case, keeps every registered tab in the tree |
| DockScenario.DropRight | renderer/docking.js:374-438 | releasing a dragged second tab over the right edge of the root panel splits it side by side, with the tab alone in the new right panel |
| DockScenario.RootKeepsSplit | renderer/docking.js:38-48 | emptying the left panel of that root split leaves the root split with only the right panel |
| DockScenario.CloseLeft | renderer/docking.js:206-217 | closing the left panel's only tab gives the expected final state |
| HexDump.HexDumpLoop | plugins/packet-visualizer/renderer.js:66-90 | the two nested loops compute the dump line by line; an empty hex string gives the empty dump |
| HexDump.DumpLines | plugins/packet-visualizer/renderer.js:69-87 | the dump has one newline-terminated line per started run of 32 hex characters |
| HexDump.OffsetRoundTrip | plugins/packet-visualizer/renderer.js:71 | the offset column of line k has at least 4 digits and reads back in hex as 16 k |
| HexDump.AsciiCharShows | plugins/packet-visualizer/renderer.js:80-81 | the character shown for a byte through `parseInt` is the byte itself when it is in 32..126, and `.` otherwise |
| HexDump.HexColumnSlots | plugins/packet-visualizer/renderer.js:76-85 | a short final chunk of whole bytes fills 3 characters per slot for all 16 slots, the missing bytes as spaces |
| HexDump.HexColumnFull | plugins/packet-visualizer/renderer.js:76-79 | a full chunk shows each byte's two hex digits followed by a space in its slot |
| VirtualScroll.Render | plugins/packet-visualizer/renderer.js:116-132 | the window starts at the larger of 0 and 10 rows above the first visible row and ends at the smaller of the packet count and 10 rows below the last; it holds those rows; the top spacer is 45 px per row above the window and the bottom spacer 45 px per row below it, so spacers and rows span the whole list |
| VirtualScroll.VisibleRendered | plugins/packet-visualizer/renderer.js:123-129 | every row the viewport shows is rendered, and the top spacer plus the rows before it put it at pixel `45 i`, its own position |
| VirtualScroll.WindowBounded | plugins/packet-visualizer/renderer.js:123-129 | the window holds at most the rows the viewport touches plus two buffers of 10 |
| VirtualScroll.ScrolledPast | plugins/packet-visualizer/renderer.js:123-132 | a viewport scrolled past the end of a shrunk list renders no row, with an empty bottom spacer |
| Sniffer.ProtocolName | plugins/python-sniffer/sniffer.py:32-39 | 1, 2, 6 and 17 are named ICMP, IGMP, TCP and UDP; every other number gets `Unknown(n)` with n in decimal |
| Sniffer.ProtocolNameInjective | plugins/python-sniffer/sniffer.py:32-39 | distinct protocol numbers get distinct names |
| Sniffer.HighLevelProtocol | plugins/python-sniffer/sniffer.py:41-56 | for each name, exactly when it is returned: HTTP for TCP on port 80 or 443, DNS for UDP on port 53 before DHCP for 67 or 68, ICMP for 1, the plain name otherwise |
| Sniffer.ParseHeader | plugins/python-sniffer/sniffer.py:103-119 | a packet is skipped exactly when it is shorter than 20 octets, not version 4, or shorter than its header; the protocol is octet 9 and the addresses are octets 12-15 and 16-19 in dotted decimal; ports are read exactly for TCP and UDP with 8 octets after the header, as the two big-endian words right after the header |
| Sniffer.ParseIpv4Packet | plugins/python-sniffer/sniffer.py:103-119 | reading a packet laid out as in RFC 791 gives back its protocol, addresses and, for TCP and UDP, the big-endian ports |
| Sniffer.DottedInjective | plugins/python-sniffer/sniffer.py:113-114 | distinct addresses are printed differently |
| Sniffer.HexByteValue | plugins/python-sniffer/sniffer.py:122 | the two hex digits printed for an octet read back as its value |
| Sniffer.PrintLine | plugins/python-sniffer/sniffer.py:122 | a line is printed exactly for the packets that are not skipped |
| PacketLine.SearchUp | plugins/python-sniffer/index.js:42 | a lazy group's end is the least candidate in its range that lets the rest match, or there is none |
| PacketLine.SearchDown | plugins/python-sniffer/index.js:42 | a greedy group's end is the greatest candidate in its range that lets the rest match, or there is none |
| PacketLine.FindSound | plugins/python-sniffer/index.js:42 | a match found satisfies the pattern |
| PacketLine.FindFirst | plugins/python-sniffer/index.js:42 | the match found comes first, in the backtracking order, among all matches |
| PacketLine.MatchLine | plugins/python-sniffer/index.js:42-43 | the line matches exactly when some placement of the groups fits the pattern, and the groups returned are those of the first placement in backtracking order |
| PacketLine.MatchLineDigits | plugins/python-sniffer/index.js:42-50 | the length group of a match is all decimal digits |
| PacketLine.ParseRendered | plugins/python-sniffer/index.js:42-52 | a line built from fields without commas or line breaks, with a decimal length, matches with exactly those fields as groups |
| Feed.JoinSplit | plugins/python-sniffer/index.js:29-31 | splitting on newlines and joining again gives back the text, and no piece holds a newline |
| Feed.SplitJoin | plugins/python-sniffer/index.js:29-31 | splitting the join of newline-free pieces gives back the pieces |
| Feed.Cut | plugins/python-sniffer/index.js:27-31 | the complete lines, each followed by a newline, then the rest, make up the text; no line and not the rest holds a newline |
| Feed.CutUnique | plugins/python-sniffer/index.js:27-31 | that decomposition is the only one |
| Feed.OnData | plugins/python-sniffer/index.js:25-63 | the new buffer is a newline-free suffix of the old buffer plus the chunk; a batch is sent only when non-empty; a chunk without a newline only grows the buffer |
| Feed.CollectAppend | plugins/python-sniffer/index.js:36-56 | records keep line order: the records of two runs of lines are those of the first then those of the second |
| Feed.FeedTwice | plugins/python-sniffer/index.js:25-63 | cutting the output into two chunks leaves the same buffer and sends the same packets in the same order as one chunk |
| Feed.LineRecord | plugins/python-sniffer/index.js:36-52 | the line the sniffer prints for a packet reads back as its addresses, protocol, length and hex data |
| Feed.ReadPrinted | plugins/python-sniffer/index.js:25-63 | end to end: the printed line, fed to the handler, sends a batch of exactly that packet's record and leaves an empty buffer |
| Grapher.Filter | plugins/traffic-grapher/renderer.js:67-76 | a packet is kept exactly when it matches: a non-empty protocol containing the filter in lower case, or a non-empty source or destination containing it as typed |
| Grapher.FilterKeepsOrder | plugins/traffic-grapher/renderer.js:71-76 | `filter` keeps every matching packet, duplicates included, in capture order: filtering a concatenation filters each part, and a single packet is kept exactly when it matches |
| Grapher.FilterBlank | plugins/traffic-grapher/renderer.js:67-72 | a blank filter keeps every packet, in order |
| Grapher.ProtocolCaseBlind | plugins/traffic-grapher/renderer.js:67-73 | the protocol match ignores case: upper-casing a matching protocol still matches |
| Grapher.BucketsAgree | plugins/traffic-grapher/renderer.js:96-117 | a bucket exists exactly for the seconds that hold a timed packet; its count is their number and its bytes the sum of their lengths |
| Grapher.CountedWhole | plugins/traffic-grapher/renderer.js:102 | every bucket key is a whole second |
| Grapher.RangeSpans | plugins/traffic-grapher/renderer.js:93-122 | there is a time range exactly when some packet is timed; its ends are bucket seconds, and every timed packet lies between them |
| Grapher.FillGaps | plugins/traffic-grapher/renderer.js:124-129 | the points are the consecutive seconds from the least to the greatest, (max − min)/1000 + 1 of them; each holds its bucket's bytes, or 0 for a missing second |
| Grapher.NoBytesLost | plugins/traffic-grapher/renderer.js:96-129 | the points' values add up to the bytes of all timed packets |
| Grapher.MaxValue | plugins/traffic-grapher/renderer.js:139-145 | the scale is positive and bounds every value; it is 100 when every value is 0, and otherwise the largest value |
| Grapher.LabelsFew | plugins/traffic-grapher/renderer.js:209-212 | the label step is at least 1, and the labels start at point 0, stay inside the points and are at most 5 |
| Grapher.Draw | plugins/traffic-grapher/renderer.js:49-222 | a chart is drawn exactly when there are packets, some kept by the filter and timed; it runs from the least to the greatest second, holds one point per second carrying that second's bucket of bytes, or zero, keeps every byte, is scaled to `MaxValue` of its points and labelled every `LabelStep` points |
| Grapher.HoverNearest | plugins/traffic-grapher/renderer.js:243-253 | a pointer inside the plot area always selects a point index within bounds, and it is the point nearest the pointer |
| Reporter.WithProtocol | plugins/network_reporter/renderer.js:71 | a packet is kept exactly when its upper-cased protocol contains the upper-cased filter |
| Reporter.WithProtocolKeepsOrder | plugins/network_reporter/renderer.js:71 | `filter` keeps every packet of the selected protocol, duplicates included, in capture order: selecting from a concatenation selects from each part, and a single packet is kept exactly when its protocol contains the selection |
| Reporter.SelectKeepsAll | plugins/network_reporter/renderer.js:69-72 | the filter `all`, and the empty filter, keep every packet in order |
| Reporter.Included | plugins/network_reporter/renderer.js:79-80 | the report covers a suffix of the packets: all of them for `all` or a limit of 0, and the last min(limit, n) ones for a positive limit |
| Reporter.TallyCounts | plugins/network_reporter/renderer.js:98-112 | each tally lists every label of a packet once, with a positive count equal to its number of packets and bytes equal to their lengths; the counts add up to the packet count, and the bytes to the total |
| Reporter.SortPermutes | plugins/network_reporter/renderer.js:114-123 | sorting by count keeps the same rows |
| Reporter.SortSorted | plugins/network_reporter/renderer.js:114-123 | sorting by count puts the rows in non-increasing count order and keeps keys unique |
| Reporter.SortStable | plugins/network_reporter/renderer.js:114-123 | the sort is stable: for every count, the rows of that count come out in the order they went in (with the count order this fixes the output completely) |
| Reporter.InsertWithCount | plugins/network_reporter/renderer.js:114-123 | placing a row into sorted rows puts it after every row of equal count and leaves the rows of other counts as they were |
| Reporter.TopNSorted | plugins/network_reporter/renderer.js:114-116 | the top-n list has min(n, rows) rows in non-increasing count order |
| Reporter.TopNBest | plugins/network_reporter/renderer.js:114-116 | the top-n list and the rows left out together are the original rows, and no row left out counts more than a row taken |
| Reporter.MakeReport | plugins/network_reporter/renderer.js:66-100 | there is a report exactly when the filter keeps a packet; it counts the matched packets, covers exactly `Included(kept, limit)`, the `slice(-limit)` of them (the last `limit`, or all of them for a zero limit), and its total is the sum of their lengths |
| Reporter.TallyTop | plugins/network_reporter/renderer.js:102-119 | a top list has exactly min(n, number of distinct labels) rows, in non-increasing order, with distinct labels, each with its true packet count; a list shorter than n holds every label |
| Reporter.TallyTopBest | plugins/network_reporter/renderer.js:102-119 | a label left out of a top list never has more packets than a label in it |
| Reporter.TopLists | plugins/network_reporter/renderer.js:102-119 | the report's top sources and destinations are such top-5 lists over the included packets: five rows each, or every label when there are fewer |
| Reporter.ProtocolTable | plugins/network_reporter/renderer.js:107-129 | the protocol table has one row per distinct protocol of the included packets, in non-increasing count order, with true counts and bytes that add up to the packet count and the total |

## Left out

- DOM work of the engine: element creation, `innerHTML`, classes, the drag image and overlay
  styling. Panels are ids, and the hit test is an input.
- `onDragOverExternal` and `onDropExternal`: external drags from detached windows are JSON
  parsing and calls into the window host. The `'external'` drag kind is therefore never present.
- `floatPlugin`'s call to `detachPlugin` is asynchronous IPC. The model returns the plugin name
  it would send.
- DockDrag.MouseUp: the float branch passes pointer coordinates that `floatPlugin` ignores, so
  they are not modelled.
- Window bootstrap, settings, IPC, plugin instantiation and the sniffer's receive loop and
  socket setup are outside the model.
- Runtime-evaluated filters (`evaluateFilter` with `new Function`, and the sniffer's
  `evaluate_filter` with `eval`) are not modelled. `Sniffer.PrintLine` is the line printed with
  no filter set.
- Sniffer.ParseHeader: `socket.recv` with its 65565-octet cap is not modelled. The packet is
  the octet sequence received.
- Floating point: pointer positions, rectangles, scroll offsets and ratios are `real`, so
  rounding error is not modelled. `Math.round` is `floor(x + 0.5)`.
- Time: packet time stamps (`new Date()` in the wrapper) and the grapher's `parseTime` are not
  modelled. A grapher packet carries its time as an optional integer of milliseconds, with a
  missing or unparsable time as absent. `Date` formatting of axis labels and the tooltip is not
  modelled.
- Formatting: `formatBytes`, the reporter's percentages and KB columns, the PDF layout
  (jsPDF/autoTable), canvas drawing and animation timers are not modelled.
- Feed.Record: the receive-time field the wrapper adds to each record is not modelled.
- Feed.OnData: sending is unconditional. The `context.sender` presence check is left out, and
  the chunk is taken as already-decoded text, so a UTF-8 sequence split across chunks is not
  modelled.
- Text.Lower: `toLowerCase` and `toUpperCase` are modelled for ASCII letters only, so other
  scripts keep their case.
- Reporter.Packet: lengths are natural numbers. `parseInt(length) || 0` of a malformed length
  is taken as already 0, and `parseInt` beyond 2^53 is not modelled.
- Reporter.Included: the limit is the parsed select value (`Every` for `'all'`). A limit that
  does not parse (NaN) is not modelled.
- Reporter.Tally: `Object.entries` order is modelled as insertion order. JavaScript lists keys
  that look like array indices first, which a label such as `"80"` could trigger. This affects
  only the order of equal counts.
- Reporter.Tally: labels range over all strings, but the tallies are plain `{}` objects, so a
  label naming an `Object.prototype` member (`constructor`, `__proto__`, `toString`, ...) does
  not count as modelled: JavaScript concatenates onto the inherited value, drops the entry, or
  leaves it out of `Object.entries`. The sniffer never produces such labels, because its
  addresses are dotted quads and its protocol names come from a fixed set.
- Reporter.Tally: the source and destination tallies carry a bytes column the reporter does
  not keep. It is ignored by the top lists.
- Grapher.HoverNearest: the tooltip text and position are not modelled, only the index
  selected.
- Grapher.Draw: a non-numeric `length` (the `|| 0` case) is taken as 0 in the packet.
- Grapher.Draw: `None` stands for every path that plots no new chart. The canvas, the messages
  and the stale chart and `dataPoints` left up when no filtered packet has a time stamp are not
  modelled.
- VirtualScroll.Render: a negative `scrollTop` (never reported by the browser) is allowed but
  only bounded by the general contract.
- HexDump.HexColumnSlots: covers chunks of whole bytes only. An odd-length hex string, which
  `packet.hex()` never yields, ends in a slot of its lone digit and a space, one character
  short. `HexDump.HexDumpLoop` still models that case exactly.
- HexDump.HexDumpLoop: `hexDump` of `null` or `undefined` also returns `''`. Only the empty
  string stands for these.

=== FILE: dock_drag.dfy ===
/**
  Tab drag and drop of `DockManager` (renderer/docking.js:253-438): the press, the moves that turn
  a press into a drag and pick a drop zone, and the release that moves, splits or floats the tab.

  Pointer positions and panel rectangles are reals. A JavaScript exception thrown half-way through
  a handler is modelled as the state reached at the throw: the rest of the handler, including the
  final reset of the drag state, does not happen.
*/
module DockDrag {
  import opened Wrappers
  import opened DockLayout
  import opened DockPanels
  import opened DockManager

  /** A press turns into a drag once the pointer is this many pixels away on either axis. */
  const DragThreshold: real := 5.0

  /** Each edge zone is this fraction of the panel's width or height. */
  const EdgeFraction: real := 0.25

  /** The panel under the pointer (`closest('.dock-panel')`) and its bounding rectangle. */
  datatype Hit = Hit(panel: PanelId, left: real, top: real, width: real, height: real)

  /** A rectangle in percent of the panel it is drawn over. */
  datatype Rect = Rect(left: int, top: int, width: int, height: int)

  /** The drop indicator: the highlighted rectangle and its opacity. */
  datatype Indicator = Indicator(rect: Rect, opacity: real)

  function Abs(x: real): real
  {
    if x < 0.0 then -x else x
  }

  /**
    The zone of a point at (x, y) inside a w-by-h panel (renderer/docking.js:340-346): the left and
    right quarters win over the top and bottom quarters, and the middle is the center.
  */
  function ClassifyZone(x: real, y: real, w: real, h: real): (z: Zone)
    ensures z == Left <==> x < w * EdgeFraction
    ensures z == Right <==> w * EdgeFraction <= x && w * (1.0 - EdgeFraction) < x
    ensures z == Top <==>
      w * EdgeFraction <= x <= w * (1.0 - EdgeFraction) && y < h * EdgeFraction
    ensures z == Bottom <==>
      w * EdgeFraction <= x <= w * (1.0 - EdgeFraction)
      && h * EdgeFraction <= y && h * (1.0 - EdgeFraction) < y
    ensures z == Center <==>
      w * EdgeFraction <= x <= w * (1.0 - EdgeFraction)
      && h * EdgeFraction <= y <= h * (1.0 - EdgeFraction)
  {
    if x < w * EdgeFraction then Left
    else if x > w * (1.0 - EdgeFraction) then Right
    else if y < h * EdgeFraction then Top
    else if y > h * (1.0 - EdgeFraction) then Bottom
    else Center
  }

  /** The zone seen in a left-right mirror image. */
  function MirrorX(z: Zone): Zone
  {
    match z
    case Left => Right
    case Right => Left
    case _ => z
  }

  /** The zone seen in a top-bottom mirror image. */
  function MirrorY(z: Zone): Zone
  {
    match z
    case Top => Bottom
    case Bottom => Top
    case _ => z
  }

  /** The zones are symmetric: mirroring the point mirrors the zone. */
  lemma ClassifyZoneMirror(x: real, y: real, w: real, h: real)
    requires w >= 0.0 && h >= 0.0
    ensures ClassifyZone(w - x, y, w, h) == MirrorX(ClassifyZone(x, y, w, h))
    ensures ClassifyZone(x, h - y, w, h) == MirrorY(ClassifyZone(x, y, w, h))
  {
  }

  /**
    The indicator drawn for a zone (renderer/docking.js:355-368): the half of the panel on the
    zone's side at half strength, or the whole panel, faintly, for the center.
  */
  function IndicatorFor(z: Zone): (r: Indicator)
    ensures z == Center <==> r.opacity == 0.2
    ensures z != Center <==> r.opacity == 0.5
  {
    if z == Center then Indicator(Rect(0, 0, 100, 100), 0.2)
    else
      var left := if z == Right then 50 else 0;
      var top := if z == Bottom then 50 else 0;
      var width := if z == Left || z == Right then 50 else 100;
      var height := if z == Top || z == Bottom then 50 else 100;
      Indicator(Rect(left, top, width, height), 0.5)
  }

  /** The split a drop on an edge creates: side by side for left and right, stacked otherwise. */
  function EdgeOrientation(z: Zone): Orientation
  {
    if z == Left || z == Right then Horizontal else Vertical
  }

  /** The new panel comes first in the split for the left and top zones. */
  predicate NewPanelFirst(z: Zone)
  {
    z == Left || z == Top
  }

  /** The rectangle of one child of a two-child split drawn with equal halves. */
  function SlotRect(o: Orientation, first: bool): Rect
  {
    match o
    case Horizontal => Rect(if first then 0 else 50, 0, 50, 100)
    case Vertical => Rect(0, if first then 0 else 50, 100, 50)
  }

  /**
    The indicator shows where the dropped tab will land: for an edge zone, the slot of the new
    panel in the split the drop creates; for the center, the whole target panel.
  */
  lemma IndicatorShowsLanding(z: Zone)
    ensures z != Center ==> IndicatorFor(z).rect == SlotRect(EdgeOrientation(z), NewPanelFirst(z))
    ensures z == Center ==> IndicatorFor(z).rect == Rect(0, 0, 100, 100)
  {
  }

  /** The drop target a move over `hit` records (renderer/docking.js:325-372). */
  function DropTargetAt(x: real, y: real, hit: Option<Hit>): (r: Option<DropTarget>)
    ensures r.Some? <==> hit.Some?
    ensures hit.Some? ==> r.value.panel == hit.value.panel
  {
    match hit
    case None => None
    case Some(b) => Some(DropTarget(b.panel, ClassifyZone(x - b.left, y - b.top, b.width, b.height)))
  }

  /**
    `onTabMouseDown` (renderer/docking.js:255-268): a press with any button but the primary one is
    ignored; otherwise the tab is activated in its panel and a new drag state records the press.
  */
  function MouseDown(m: Manager, button: int, t: TabId, p: PanelId, x: real, y: real): (r: Manager)
    requires p in m.panels
    ensures button != 0 ==> r == m
    ensures button == 0 ==> r.drag == Some(DragState(t, p, x, y, false, false, None))
    ensures r.layout == m.layout && r.items == m.items && r.panels.Keys == m.panels.Keys
    ensures button == 0 && t in m.panels[p].tabs ==>
      r.activePanel == p && r.panels[p].active == Some(t) && r.panels[p].tabs == m.panels[p].tabs
  {
    if button != 0 then m
    else ActivateIn(m, p, t).(drag := Some(DragState(t, p, x, y, false, false, None)))
  }

  /**
    `onMouseMove` for a tab drag (renderer/docking.js:298-323). Before the threshold is passed the
    move only checks the distance; passing it starts the drag and creates the drag image, which
    needs the tab's registry entry (a missing entry throws before the image is attached). Once
    dragging, a move without a drag image throws; otherwise it records the drop target.
  */
  function MouseMove(m: Manager, x: real, y: real, hit: Option<Hit>): (r: Manager)
    ensures r == m.(drag := r.drag)
    ensures m.drag.None? ==> r.drag.None?
    ensures m.drag.Some? ==>
      && r.drag.Some?
      && r.drag.value.(dragging := false, dragImage := false, target := None)
         == m.drag.value.(dragging := false, dragImage := false, target := None)
    ensures m.drag.Some? && !m.drag.value.dragging ==>
      && (r.drag.value.dragging <==>
            Abs(x - m.drag.value.startX) > DragThreshold || Abs(y - m.drag.value.startY) > DragThreshold)
      && (r.drag.value.dragging ==> (r.drag.value.dragImage <==> m.drag.value.tab in m.items))
      && r.drag.value.target == m.drag.value.target
    ensures m.drag.Some? && m.drag.value.dragging ==>
      && r.drag.value.dragging && r.drag.value.dragImage == m.drag.value.dragImage
      && r.drag.value.target ==
           (if m.drag.value.dragImage then DropTargetAt(x, y, hit) else m.drag.value.target)
  {
    match m.drag
    case None => m
    case Some(d) =>
      if !d.dragging then
        if Abs(x - d.startX) > DragThreshold || Abs(y - d.startY) > DragThreshold then
          m.(drag := Some(d.(dragging := true, dragImage := d.tab in m.items)))
        else m
      else if !d.dragImage then m
      else m.(drag := Some(d.(target := DropTargetAt(x, y, hit))))
  }

  /**
    Where an edge drop puts the split of the target panel `tp` and the new panel `n`
    (renderer/docking.js:416-436): side by side for the left and right zones, stacked otherwise,
    with the new panel first for the left and top zones; the split takes the place of `tp` in the
    split that lists it, or becomes the new root when `tp` is the root panel. When `tp` has already
    left the tree, its stale parent no longer lists it and the split is attached nowhere.
  */
  function SplitAt(l: Layout, tp: PanelId, n: PanelId, z: Zone): (r: Layout)
    ensures var x := PairSplit(EdgeOrientation(z), tp, n, NewPanelFirst(z));
      && (l == Leaf(tp) ==> r == x)
      && (tp !in Leaves(l) ==> r == l)
      && (tp in Leaves(l) ==> Within(x, r))
    ensures l.Split? && n !in Leaves(l) ==> RemoveLeaf(r, n, true) == l
    ensures l.Split? ==> r.Split? && r.orientation == l.orientation && |r.children| == |l.children|
    ensures Unique(l) && Shape(l, true) && n !in Leaves(l) && n != tp ==>
      && Unique(r) && Shape(r, true)
      && (tp in Leaves(l) ==> Leaves(r) == Leaves(l) + {n})
  {
    var x := PairSplit(EdgeOrientation(z), tp, n, NewPanelFirst(z));
    SplitAtPlaces(l, tp, n, z);
    SplitAtKeepsShape(l, tp, n, z);
    if l == Leaf(tp) then x else ReplaceChildLeaf(l, tp, x)
  }

  /** Where `SplitAt` puts the new split, and that removing the new panel again undoes it. */
  lemma SplitAtPlaces(l: Layout, tp: PanelId, n: PanelId, z: Zone)
    ensures var x := PairSplit(EdgeOrientation(z), tp, n, NewPanelFirst(z));
      tp !in Leaves(l) ==> (if l == Leaf(tp) then x else ReplaceChildLeaf(l, tp, x)) == l
    ensures var x := PairSplit(EdgeOrientation(z), tp, n, NewPanelFirst(z));
      tp in Leaves(l) ==> Within(x, if l == Leaf(tp) then x else ReplaceChildLeaf(l, tp, x))
    ensures var x := PairSplit(EdgeOrientation(z), tp, n, NewPanelFirst(z));
      l.Split? && n !in Leaves(l) ==> RemoveLeaf(ReplaceChildLeaf(l, tp, x), n, true) == l
    ensures var x := PairSplit(EdgeOrientation(z), tp, n, NewPanelFirst(z));
      var r := ReplaceChildLeaf(l, tp, x);
      l.Split? ==> r.Split? && r.orientation == l.orientation && |r.children| == |l.children|
  {
    var x := PairSplit(EdgeOrientation(z), tp, n, NewPanelFirst(z));
    if l != Leaf(tp) {
      if tp !in Leaves(l) {
        ReplaceChildLeafAbsent(l, tp, x);
      } else {
        ReplaceChildLeafPlaces(l, tp, x);
      }
      if l.Split? && n !in Leaves(l) {
        SplitThenRemove(l, tp, n, EdgeOrientation(z), NewPanelFirst(z), true);
      }
    }
  }

  /** `SplitAt` keeps a well-formed tree well formed and adds exactly the new panel to it. */
  lemma SplitAtKeepsShape(l: Layout, tp: PanelId, n: PanelId, z: Zone)
    ensures var x := PairSplit(EdgeOrientation(z), tp, n, NewPanelFirst(z));
      var r := if l == Leaf(tp) then x else ReplaceChildLeaf(l, tp, x);
      Unique(l) && Shape(l, true) && n !in Leaves(l) && n != tp ==>
        && Unique(r) && Shape(r, true)
        && (tp in Leaves(l) ==> Leaves(r) == Leaves(l) + {n})
  {
    var x := PairSplit(EdgeOrientation(z), tp, n, NewPanelFirst(z));
    assert Shape(x, false);
    assert Leaves(x) == {n, tp} by {
      LeavesOfChild(x.orientation, x.children, 0);
      LeavesOfChild(x.orientation, x.children, 1);
    }
    if Unique(l) && Shape(l, true) && n !in Leaves(l) && n != tp && l != Leaf(tp) {
      if tp !in Leaves(l) {
        ReplaceChildLeafAbsent(l, tp, x);
      } else {
        ReplaceChildLeafReplaces(l, tp, x, true);
      }
    }
  }


  /** The panel `findPanelByElement` resolves a drop target to: the panel itself while it is in the tree. */
  function DropPanel(m: Manager, target: DropTarget): (r: Option<PanelId>)
    ensures r.Some? <==> target.panel in Leaves(m.layout)
    ensures r.Some? ==> r.value == target.panel
  {
    FindPanelByElementFinds(m.layout, target.panel, 0);
    FindPanelByElement(m.layout, target.panel)
  }

  /** The drop does nothing at all: the target left the tree, or it is the center of the source. */
  predicate DropIgnored(m: Manager, source: PanelId, target: DropTarget)
  {
    DropPanel(m, target).None? || (target.zone == Center && target.panel == source)
  }

  /**
    `handleDrop` (renderer/docking.js:394-438). A target that left the tree, or the center of the
    source panel, changes nothing. Otherwise the tab leaves its source panel (which may collapse);
    a center drop appends it to the target panel, and an edge drop puts it alone in a new panel that
    shares a new split with the target. Either way the tab becomes active and its panel the active
    panel, and the registry entry follows the tab.
  */
  function HandleDrop(m: Manager, t: TabId, source: PanelId, target: DropTarget): (r: Manager)
    requires Resolved(m) && source in m.panels
    ensures DropIgnored(m, source, target) ==> r == m
    ensures !DropIgnored(m, source, target) && t !in m.items ==> r == RemoveTabIn(m, source, t)
    ensures r.items.Keys == m.items.Keys && r.counter == m.counter && r.drag == m.drag
    ensures !DropIgnored(m, source, target) && t in m.items && target.zone == Center ==>
      && target.panel in r.panels && t in r.panels[target.panel].tabs
      && r.items[t] == m.items[t].(panel := target.panel)
      && r.nextPanel == m.nextPanel
      && (t !in m.panels[target.panel].tabs ==> r.activePanel == target.panel)
    ensures !DropIgnored(m, source, target) && t in m.items && target.zone != Center ==>
      && m.nextPanel in r.panels && r.panels[m.nextPanel] == Panel([t], Some(t))
      && r.items[t] == m.items[t].(panel := m.nextPanel)
      && r.activePanel == m.nextPanel && r.nextPanel == m.nextPanel + 1
    ensures !DropIgnored(m, source, target) && t in m.items && target.zone == Center ==>
      var m1 := RemoveTabIn(m, source, t);
      && r.layout == m1.layout
      && r.panels == m1.panels[target.panel := AddTab(m1.panels[target.panel], t, true).panel]
      && (t !in m1.panels[target.panel].tabs ==>
            && r.panels[target.panel].tabs == m1.panels[target.panel].tabs + [t]
            && r.panels[target.panel].active == Some(t))
    ensures !DropIgnored(m, source, target) && t in m.items && target.zone != Center ==>
      var m1 := RemoveTabIn(m, source, t);
      && r.layout == SplitAt(m1.layout, target.panel, m.nextPanel, target.zone)
      && r.panels == m1.panels[m.nextPanel := Panel([t], Some(t))]
    ensures !DropIgnored(m, source, target) ==>
      forall u :: u in m.items && u != t ==> r.items[u] == m.items[u]
    ensures !DropIgnored(m, source, target) ==>
      forall q :: q in m.panels && q != source && q != target.panel && q != m.nextPanel ==>
        q in r.panels && r.panels[q] == m.panels[q]
  {
    match DropPanel(m, target)
    case None => m
    case Some(tp) =>
      if target.zone == Center && tp == source then m
      else
        var m1 := RemoveTabIn(m, source, t);
        if t !in m1.items then m1
        else if target.zone == Center then MoveInto(m1, t, tp)
        else MoveIntoNew(m1, t).(layout := SplitAt(m1.layout, tp, m1.nextPanel, target.zone))
  }

  /** A center drop's move: the tab is appended to panel `tp` and activated, and its entry follows it. */
  function MoveInto(m: Manager, t: TabId, tp: PanelId): (r: Manager)
    requires tp in m.panels && t in m.items
    ensures r.layout == m.layout && r.counter == m.counter && r.nextPanel == m.nextPanel && r.drag == m.drag
    ensures r.items == m.items[t := m.items[t].(panel := tp)]
    ensures r.panels == m.panels[tp := AddTab(m.panels[tp], t, true).panel]
    ensures t !in m.panels[tp].tabs ==> r.activePanel == tp
  {
    var m2 := AddTabIn(m, tp, t, true);
    m2.(items := m2.items[t := m2.items[t].(panel := tp)])
  }

  /** An edge drop's new panel: a fresh panel holding only the tab, active, and the entry follows it. */
  function MoveIntoNew(m: Manager, t: TabId): (r: Manager)
    requires t in m.items
    ensures r.layout == m.layout && r.counter == m.counter && r.drag == m.drag
    ensures r.nextPanel == m.nextPanel + 1
    ensures r.items == m.items[t := m.items[t].(panel := m.nextPanel)]
    ensures r.panels == m.panels[m.nextPanel := Panel([t], Some(t))]
    ensures r.activePanel == m.nextPanel
  {
    var n := m.nextPanel;
    assert AddTab(Empty, t, true).panel == Panel([t], Some(t)) by {
      assert [] + [t] == [t];
    }
    MoveInto(m.(panels := m.panels[n := Empty], nextPanel := n + 1), t, n)
  }

  /**
    `onMouseUp` (renderer/docking.js:374-392): without a drag state nothing happens. A press that
    never became a drag just ends. A drag whose image was never created throws when removing it,
    and so does a drop that throws, and the drag state then survives. Otherwise a recorded target
    gets the drop, no target floats the tab out, and the drag state is cleared. The result carries
    the plugin name sent to the window host when the tab is floated.
  */
  function MouseUp(m: Manager): (r: Floated)
    requires Resolved(m)
    ensures m.drag.None? ==> r == Floated(m, None)
    ensures m.drag.Some? && !m.drag.value.dragging ==> r == Floated(m.(drag := None), None)
    ensures m.drag.Some? && m.drag.value.dragging && !m.drag.value.dragImage ==> r == Floated(m, None)
    ensures r.detach.Some? ==>
      && m.drag.Some? && m.drag.value.target.None? && m.drag.value.tab in m.items
      && r.detach.value == m.items[m.drag.value.tab].title
      && m.drag.value.tab !in r.m.items
    ensures r.m.drag.Some? ==> r.m.drag == m.drag
    ensures m.drag.Some? && m.drag.value.dragging && m.drag.value.dragImage ==>
      (r.m.drag.Some? <==>
        m.drag.value.target.Some? && !DropIgnored(m, m.drag.value.source, m.drag.value.target.value)
        && m.drag.value.tab !in m.items)
    ensures m.drag.Some? && m.drag.value.dragging && m.drag.value.dragImage && m.drag.value.target.Some? ==>
      && r.detach.None?
      && r.m.(drag := m.drag) == HandleDrop(m, m.drag.value.tab, m.drag.value.source, m.drag.value.target.value)
    ensures m.drag.Some? && m.drag.value.dragging && m.drag.value.dragImage && m.drag.value.target.None? ==>
      && r.m.drag.None?
      && r.m.(drag := m.drag) == CloseTab(m, m.drag.value.tab)
      && (m.drag.value.tab in m.items ==>
            r.detach == Some(m.items[m.drag.value.tab].title) && m.drag.value.tab !in r.m.items)
      && (m.drag.value.tab !in m.items ==> r == Floated(m.(drag := None), None))
  {
    match m.drag
    case None => Floated(m, None)
    case Some(d) =>
      if !d.dragging then Floated(m.(drag := None), None)
      else if !d.dragImage then Floated(m, None)
      else
        match d.target
        case Some(target) =>
          var r := HandleDrop(m, d.tab, d.source, target);
          if !DropIgnored(m, d.source, target) && d.tab !in m.items then Floated(r, None)
          else Floated(r.(drag := None), None)
        case None =>
          var f := FloatPlugin(m, d.tab);
          Floated(f.m.(drag := None), f.detach)
  }

  // ---------------------------------------------------------------------------------------------
  // Invariant preservation

  /**
    The drag state names a tab id the counter has handed out, and while that tab is registered it
    is still in the panel the drag started from.
  */
  ghost predicate DragOk(m: Manager)
  {
    m.drag.Some? ==>
      && m.drag.value.tab.serial <= m.counter
      && (m.drag.value.tab in m.items ==>
            m.drag.value.source in m.panels && m.drag.value.tab in m.panels[m.drag.value.source].tabs)
  }

  /** A tab in a panel is registered to that panel, and no other panel holds it. */
  lemma TabOnlyIn(m: Manager, t: TabId, p: PanelId)
    requires Consistent(m) && p in m.panels && t in m.panels[p].tabs
    ensures t in m.items && m.items[t].panel == p
    ensures forall q :: q in m.panels && q != p ==> t !in m.panels[q].tabs
  {
  }

  /** The registry agrees with the panels except that the registered tab `t` is in no panel. */
  ghost predicate Detached(m: Manager, t: TabId)
    requires Resolved(m)
  {
    && t in m.items && m.items[t].mode == Dock
    && (forall q :: q in m.panels ==> t !in m.panels[q].tabs)
    && (forall u :: u in m.items && u != t ==> m.items[u].mode == Dock && u in m.panels[m.items[u].panel].tabs)
    && (forall q, u :: q in m.panels && u in m.panels[q].tabs ==> u in m.items)
    && (forall u :: u in m.items ==> u.serial <= m.counter)
  }

  /** Taking a registered tab out of its panel leaves it detached (renderer/docking.js:403, 408). */
  lemma TakeOut(m: Manager, t: TabId, source: PanelId)
    requires Consistent(m) && source in m.panels && t in m.panels[source].tabs
    ensures Structural(RemoveTabIn(m, source, t)) && Detached(RemoveTabIn(m, source, t), t)
  {
    TabOnlyIn(m, t, source);
    var m1 := RemoveTabIn(m, source, t);
    var left := RemoveTab(m.panels[source], t).panel;
    assert Structural(m1) && m1.items == m.items && m1.counter == m.counter
      && m1.panels == m.panels[source := left] by {
      RemoveTabInEffect(m, source, t);
    }
    forall q | q in m1.panels
      ensures t !in m1.panels[q].tabs
    {
    }
    forall u | u in m1.items && u != t
      ensures m1.items[u].mode == Dock && u in m1.panels[m1.items[u].panel].tabs
    {
      assert u in m.panels[m.items[u].panel].tabs;
    }
    forall q, u | q in m1.panels && u in m1.panels[q].tabs
      ensures u in m1.items
    {
      assert u in m.panels[q].tabs;
    }
  }

  /** Putting a detached tab into a panel keeps the structure (renderer/docking.js:404-405). */
  lemma PutInStructural(m: Manager, t: TabId, tp: PanelId)
    requires Structural(m) && Detached(m, t) && tp in m.panels
    ensures Structural(MoveInto(m, t, tp))
  {
    var it := m.items[t].(panel := tp);
    AddRegisteredStructural(m, t, it, true, m.counter);
    var m2 := AddTabIn(m, tp, t, true);
    assert MoveInto(m, t, tp) == m2.(items := m2.items[t := it], counter := m.counter);
  }

  /** Putting a detached tab into a panel restores the invariant (renderer/docking.js:404-405). */
  lemma PutIn(m: Manager, t: TabId, tp: PanelId)
    requires Structural(m) && Detached(m, t) && tp in m.panels
    ensures Consistent(MoveInto(m, t, tp))
  {
    PutInStructural(m, t, tp);
    var r := MoveInto(m, t, tp);
    forall u | u in r.items
      ensures r.items[u].mode == Dock && u in r.panels[r.items[u].panel].tabs
    {
      if u != t {
        assert u in m.panels[m.items[u].panel].tabs;
      }
    }
    forall q, u | q in r.panels && u in r.panels[q].tabs
      ensures u in r.items
    {
      if u != t {
        assert u in m.panels[q].tabs;
      }
    }
  }

  /** Putting a detached tab into a fresh panel restores the invariant (renderer/docking.js:411-413). */
  lemma PutInNew(m: Manager, t: TabId)
    requires Structural(m) && Detached(m, t)
    ensures Consistent(MoveIntoNew(m, t))
  {
    var n := m.nextPanel;
    var me := m.(panels := m.panels[n := Empty], nextPanel := n + 1);
    assert Structural(me);
    assert Detached(me, t);
    PutIn(me, t, n);
  }

  /** An edge drop keeps the invariant, the drops that misplace the tab included. */
  lemma EdgeDropConsistent(m: Manager, t: TabId, source: PanelId, tp: PanelId, z: Zone)
    requires Consistent(m) && source in m.panels && tp in Leaves(m.layout)
    requires t in m.panels[source].tabs
    ensures var m1 := RemoveTabIn(m, source, t);
      Consistent(MoveIntoNew(m1, t).(layout := SplitAt(m1.layout, tp, m1.nextPanel, z)))
  {
    TakeOut(m, t, source);
    var m1 := RemoveTabIn(m, source, t);
    RemoveTabInEffect(m, source, t);
    PutInNew(m1, t);
    var r := MoveIntoNew(m1, t);
    var l := SplitAt(m1.layout, tp, m1.nextPanel, z);
    assert Leaves(l) <= r.panels.Keys;
    LayoutStructural(r, l);
  }

  /** A drop of a tab that was closed during the drag leaves the state exactly as it was. */
  lemma ClosedTabDropIsNoop(m: Manager, t: TabId, source: PanelId, target: DropTarget)
    requires Consistent(m) && source in m.panels && t !in m.items
    ensures HandleDrop(m, t, source, target) == m
  {
    assert t !in m.panels[source].tabs;
  }

  /** `handleDrop` keeps the invariant when the dragged tab, if registered, is in its source panel. */
  lemma DropConsistent(m: Manager, t: TabId, source: PanelId, target: DropTarget)
    requires Consistent(m) && source in m.panels
    requires t in m.items ==> t in m.panels[source].tabs
    ensures Consistent(HandleDrop(m, t, source, target))
  {
    if t !in m.items {
      ClosedTabDropIsNoop(m, t, source, target);
    } else if !DropIgnored(m, source, target) {
      assert t in m.panels[source].tabs;
      if target.zone == Center {
        TakeOut(m, t, source);
        PutIn(RemoveTabIn(m, source, t), t, target.panel);
      } else {
        EdgeDropConsistent(m, t, source, target.panel, target.zone);
      }
    }
  }

  /**
    The drop that loses its tab: an edge drop of a panel's only tab onto that same panel, when the
    panel is not the root panel.
  */
  predicate LosesTab(m: Manager, t: TabId, source: PanelId, target: DropTarget)
  {
    && target.zone != Center && target.panel == source
    && source in m.panels && m.panels[source].tabs == [t] && HasParent(m, source)
  }

  /** Taking a tab out of a panel that holds another one leaves the panel non-empty. */
  lemma RemoveOneOfMany(p: Panel, t: TabId)
    requires DockPanels.Valid(p) && t in p.tabs && p.tabs != [t]
    ensures |RemoveTab(p, t).panel.tabs| > 0
  {
    var u :| u in p.tabs && u != t by {
      if p.tabs[0] == t {
        assert |p.tabs| != 1;
        assert p.tabs[1] != t;
        assert p.tabs[1] in p.tabs;
      } else {
        assert p.tabs[0] in p.tabs;
      }
    }
    assert u in RemoveTab(p, t).panel.tabs;
  }

  /**
    Taking a tab out of its panel keeps every other registered tab in the tree, and keeps the
    tree itself unless the panel empties below the root.
  */
  lemma TakeOutDocked(m: Manager, t: TabId, source: PanelId)
    requires Consistent(m) && Docked(m) && source in m.panels && t in m.panels[source].tabs
    ensures var m1 := RemoveTabIn(m, source, t);
      && (forall u :: u in m1.items && u != t ==> m1.items[u].panel in Leaves(m1.layout))
      && Leaves(m.layout) - {source} <= Leaves(m1.layout)
      && (m.panels[source].tabs != [t] || !HasParent(m, source) ==> m1.layout == m.layout)
  {
    RemoveTabInEffect(m, source, t);
    var m1 := RemoveTabIn(m, source, t);
    if m.panels[source].tabs != [t] {
      RemoveOneOfMany(m.panels[source], t);
    }
    forall u | u in m1.items && u != t
      ensures m1.items[u].panel in Leaves(m1.layout)
    {
      if m.items[u].panel == source {
        assert u in m1.panels[source].tabs;
      }
    }
  }

  /**
    Apart from the lost-tab case, a drop keeps every registered tab in a panel of the tree
    (renderer/docking.js:394-438).
  */
  lemma DropDocked(m: Manager, t: TabId, source: PanelId, target: DropTarget)
    requires Consistent(m) && Docked(m) && source in m.panels
    requires t in m.items ==> t in m.panels[source].tabs
    requires !LosesTab(m, t, source, target)
    ensures Docked(HandleDrop(m, t, source, target))
  {
    if t !in m.items {
      ClosedTabDropIsNoop(m, t, source, target);
    } else if !DropIgnored(m, source, target) {
      var tp := target.panel;
      assert t in m.panels[source].tabs;
      TakeOutDocked(m, t, source);
      RemoveTabInEffect(m, source, t);
      var m1 := RemoveTabIn(m, source, t);
      assert tp in Leaves(m1.layout);
      if target.zone == Center {
        MoveIntoDocked(m1, t, tp);
      } else {
        MoveIntoNewDocked(m1, t, tp, target.zone);
      }
    }
  }

  /** A center drop onto a panel of the tree keeps every registered tab in the tree. */
  lemma MoveIntoDocked(m: Manager, t: TabId, tp: PanelId)
    requires t in m.items && tp in m.panels && tp in Leaves(m.layout)
    requires forall u :: u in m.items && u != t ==> m.items[u].panel in Leaves(m.layout)
    ensures Docked(MoveInto(m, t, tp))
  {
  }

  /** An edge drop on a panel of the tree keeps every registered tab in the tree. */
  lemma MoveIntoNewDocked(m: Manager, t: TabId, tp: PanelId, z: Zone)
    requires Structural(m) && t in m.items && tp in Leaves(m.layout)
    requires forall u :: u in m.items && u != t ==> m.items[u].panel in Leaves(m.layout)
    ensures Docked(MoveIntoNew(m, t).(layout := SplitAt(m.layout, tp, m.nextPanel, z)))
  {
    var l := SplitAt(m.layout, tp, m.nextPanel, z);
    assert Leaves(l) == Leaves(m.layout) + {m.nextPanel};
  }

  /**
    The lost-tab case (renderer/docking.js:408-427): the emptied target leaves the tree before the
    split is placed, its stale parent no longer lists it, and the new split holding the tab is
    attached nowhere. The tab stays registered, but no panel of the tree shows it.
  */
  lemma LostTab(m: Manager, t: TabId, source: PanelId, z: Zone)
    requires Consistent(m) && source in Leaves(m.layout) && z != Center
    requires m.panels[source].tabs == [t] && HasParent(m, source)
    ensures var r := HandleDrop(m, t, source, DropTarget(source, z));
      && t in r.items && r.items[t].panel == m.nextPanel
      && r.items[t].panel !in Leaves(r.layout)
      && r.layout == RemoveLeaf(m.layout, source, true)
      && (forall q :: q in Leaves(r.layout) ==> t !in r.panels[q].tabs)
  {
    assert t in m.panels[source].tabs;
    TabOnlyIn(m, t, source);
    RemoveTabInEffect(m, source, t);
    var r := HandleDrop(m, t, source, DropTarget(source, z));
    EdgeDropConsistent(m, t, source, source, z);
    forall q | q in Leaves(r.layout)
      ensures t !in r.panels[q].tabs
    {
      assert q != m.nextPanel;
    }
  }

  /**
    An edge drop of the root panel's only tab onto the root panel empties the root panel but keeps
    it in the tree, beside the new panel: the tree then shows an empty panel
    (renderer/docking.js:121-123, 237-238, 422-427).
  */
  lemma EmptyPanelInTree(m: Manager, t: TabId, p: PanelId, z: Zone)
    requires Consistent(m) && m.layout == Leaf(p) && m.panels[p].tabs == [t] && z != Center
    ensures var r := HandleDrop(m, t, p, DropTarget(p, z));
      var n := m.nextPanel;
      && r.layout == PairSplit(EdgeOrientation(z), p, n, NewPanelFirst(z))
      && r.panels[p] == Empty
      && r.panels[n] == Panel([t], Some(t))
  {
    assert t in m.panels[p].tabs;
    TabOnlyIn(m, t, p);
    RemoveTabKeepsOrder(m.panels[p], t);
    assert p in Leaves(m.layout);
  }

  /**
    A tab closed during the drag leaves the manager stuck: a release while the drag still points at
    a live target throws and keeps the drag state.
  */
  lemma ClosedTabDragIsStuck(m: Manager)
    requires Consistent(m) && m.drag.Some? && m.drag.value.dragging && m.drag.value.tab !in m.items
    requires m.drag.value.target.Some? && !DropIgnored(m, m.drag.value.source, m.drag.value.target.value)
    ensures MouseUp(m) == Floated(m, None)
  {
    var d := m.drag.value;
    if d.dragImage {
      ClosedTabDropIsNoop(m, d.tab, d.source, d.target.value);
    }
  }

  /** A press on a tab of an existing panel keeps the invariant and starts a sound drag state. */
  lemma MouseDownConsistent(m: Manager, button: int, t: TabId, p: PanelId, x: real, y: real)
    requires Consistent(m) && DragOk(m) && p in m.panels && t in m.panels[p].tabs
    ensures Consistent(MouseDown(m, button, t, p, x, y)) && DragOk(MouseDown(m, button, t, p, x, y))
    ensures Docked(m) ==> Docked(MouseDown(m, button, t, p, x, y))
  {
    if button == 0 {
      var m1 := ActivateIn(m, p, t);
      assert Consistent(m1);
      DragStructural(m1, Some(DragState(t, p, x, y, false, false, None)));
    }
  }

  /** A move keeps the invariant. */
  lemma MouseMoveConsistent(m: Manager, x: real, y: real, hit: Option<Hit>)
    requires Consistent(m) && DragOk(m)
    ensures Consistent(MouseMove(m, x, y, hit)) && DragOk(MouseMove(m, x, y, hit))
    ensures Docked(m) ==> Docked(MouseMove(m, x, y, hit))
  {
    if m.drag.Some? {
      DragStructural(m, MouseMove(m, x, y, hit).drag);
    }
  }

  /** A release keeps the invariant; outside the lost-tab case it keeps every tab in the tree. */
  lemma MouseUpConsistent(m: Manager)
    requires Consistent(m) && DragOk(m)
    ensures Consistent(MouseUp(m).m) && DragOk(MouseUp(m).m)
    ensures Docked(m) && (m.drag.Some? && m.drag.value.target.Some? ==>
      !LosesTab(m, m.drag.value.tab, m.drag.value.source, m.drag.value.target.value)) ==>
      Docked(MouseUp(m).m)
  {
    match m.drag
    case None =>
    case Some(d) =>
      if !d.dragging {
        DragStructural(m, None);
      } else if d.dragImage {
        match d.target
        case Some(target) =>
          DropConsistent(m, d.tab, d.source, target);
          var r := HandleDrop(m, d.tab, d.source, target);
          DragStructural(r, None);
          if Docked(m) && !LosesTab(m, d.tab, d.source, target) {
            DropDocked(m, d.tab, d.source, target);
          }
          if !DropIgnored(m, d.source, target) && d.tab !in m.items {
            ClosedTabDropIsNoop(m, d.tab, d.source, target);
          }
        case None =>
          CloseTabConsistent(m, d.tab);
          DragStructural(CloseTab(m, d.tab), None);
      }
  }
}

=== FILE: dock_layout.dfy ===
/**
  The layout tree of the docking engine (renderer/docking.js, classes DockNode, DockSplit and the
  tree walks of DockManager).

  A `DockSplit` becomes `Split(orientation, children)`; a `DockPanel` becomes a `Leaf` naming the
  panel by its identity, the panel's tabs living in the manager's panel store (module DockManager).
  A node's `parent` back-reference is not stored: for a node that is in the tree it is always the
  split that lists it, and the root has none, so "has a parent" reads "is not the root".
*/
module DockLayout {
  import opened Wrappers
  import opened Seqs

  /** Identity of a `DockPanel` object. */
  type PanelId = nat

  /** 'horizontal' (children side by side) or 'vertical' (children stacked). */
  datatype Orientation = Horizontal | Vertical

  datatype Layout =
    | Leaf(panel: PanelId)
    | Split(orientation: Orientation, children: seq<Layout>)

  /** The panels reachable from `l`. */
  function Leaves(l: Layout): set<PanelId>
  {
    match l
    case Leaf(p) => {p}
    case Split(_, cs) => set k, q | 0 <= k < |cs| && q in Leaves(cs[k]) :: q
  }

  /** No panel occurs twice: every child is itself duplicate-free and siblings share no panel. */
  predicate Unique(l: Layout)
  {
    match l
    case Leaf(_) => true
    case Split(_, cs) =>
      && (forall k :: 0 <= k < |cs| ==> Unique(cs[k]))
      && (forall i, j :: 0 <= i < j < |cs| ==> Leaves(cs[i]) !! Leaves(cs[j]))
  }

  /**
    The shapes the engine produces: a split below the root always has exactly two children; the
    parentless root split may be left with one or none, because it is never collapsed.
  */
  predicate Shape(l: Layout, isRoot: bool)
  {
    match l
    case Leaf(_) => true
    case Split(_, cs) =>
      && (if isRoot then |cs| <= 2 else |cs| == 2)
      && (forall k :: 0 <= k < |cs| ==> Shape(cs[k], false))
  }

  /** The panels of a split are the panels of its children. */
  lemma LeavesOfChild(o: Orientation, cs: seq<Layout>, k: nat)
    requires k < |cs|
    ensures Leaves(cs[k]) <= Leaves(Split(o, cs))
  {
    forall q | q in Leaves(cs[k])
      ensures q in Leaves(Split(o, cs))
    {
    }
  }

  /** Replacing one child of a split swaps that child's panels for the new child's. */
  lemma LeavesOfUpdate(o: Orientation, cs: seq<Layout>, i: nat, x: Layout)
    requires i < |cs|
    requires forall k :: 0 <= k < |cs| && k != i ==> Leaves(cs[k]) !! Leaves(cs[i])
    ensures Leaves(Split(o, cs[i := x])) == (Leaves(Split(o, cs)) - Leaves(cs[i])) + Leaves(x)
  {
    var after := cs[i := x];
    forall q | q in Leaves(Split(o, after))
      ensures q in (Leaves(Split(o, cs)) - Leaves(cs[i])) + Leaves(x)
    {
      var k :| 0 <= k < |after| && q in Leaves(after[k]);
      if k != i {
        LeavesOfChild(o, cs, k);
      }
    }
    forall q | q in (Leaves(Split(o, cs)) - Leaves(cs[i])) + Leaves(x)
      ensures q in Leaves(Split(o, after))
    {
      if q in Leaves(x) {
        LeavesOfChild(o, after, i);
      } else {
        var k :| 0 <= k < |cs| && q in Leaves(cs[k]);
        LeavesOfChild(o, after, k);
      }
    }
  }

  /** Splicing one child out of a split removes exactly that child's panels. */
  lemma LeavesOfSplice(o: Orientation, cs: seq<Layout>, i: nat)
    requires i < |cs|
    requires forall k :: 0 <= k < |cs| && k != i ==> Leaves(cs[k]) !! Leaves(cs[i])
    ensures Leaves(Split(o, cs[..i] + cs[i + 1..])) == Leaves(Split(o, cs)) - Leaves(cs[i])
  {
    var rest := cs[..i] + cs[i + 1..];
    forall q | q in Leaves(Split(o, rest))
      ensures q in Leaves(Split(o, cs)) - Leaves(cs[i])
    {
      var k :| 0 <= k < |rest| && q in Leaves(rest[k]);
      var k' := if k < i then k else k + 1;
      assert rest[k] == cs[k'];
      LeavesOfChild(o, cs, k');
    }
    forall q | q in Leaves(Split(o, cs)) - Leaves(cs[i])
      ensures q in Leaves(Split(o, rest))
    {
      var k :| 0 <= k < |cs| && q in Leaves(cs[k]);
      var k' := if k < i then k else k - 1;
      assert rest[k'] == cs[k];
      LeavesOfChild(o, rest, k');
    }
  }

  /** A split with a single child holds exactly that child's panels. */
  lemma LeavesOfSingle(o: Orientation, c: Layout)
    ensures Leaves(Split(o, [c])) == Leaves(c)
  {
    LeavesOfChild(o, [c], 0);
  }

  /**
    `DockSplit.removeChild` applied to the split that lists the panel `p`
    (renderer/docking.js:38-48): the leaf is spliced out, and a split left with exactly one child
    that has a parent is replaced, at its own index in that parent, by the survivor. `isRoot` says
    that `l` has no parent. The replacement does not recurse: collapse is one level deep.
  */
  function RemoveLeaf(l: Layout, p: PanelId, isRoot: bool): Layout
  {
    match l
    case Leaf(_) => l
    case Split(o, cs) =>
      if Leaf(p) in cs then
        var i := IndexOf(cs, Leaf(p));
        var rest := cs[..i] + cs[i + 1..];
        if |rest| == 1 && !isRoot then rest[0] else Split(o, rest)
      else
        Split(o, seq(|cs|, k requires 0 <= k < |cs| => RemoveLeaf(cs[k], p, false)))
  }

  /**
    `DockSplit.replaceChild(old, new)` applied to the split that lists the panel `p`
    (renderer/docking.js:29-36): the leaf is swapped for `x` in place. A leaf at the root has no
    parent split, so nothing happens there.
  */
  function ReplaceChildLeaf(l: Layout, p: PanelId, x: Layout): Layout
  {
    match l
    case Leaf(_) => l
    case Split(o, cs) =>
      if Leaf(p) in cs then
        Split(o, cs[IndexOf(cs, Leaf(p)) := x])
      else
        Split(o, seq(|cs|, k requires 0 <= k < |cs| => ReplaceChildLeaf(cs[k], p, x)))
  }

  /** A panel that is not in the tree cannot be removed from it. */
  lemma {:induction false} RemoveLeafAbsent(l: Layout, p: PanelId, isRoot: bool)
    requires p !in Leaves(l)
    ensures RemoveLeaf(l, p, isRoot) == l
  {
    match l
    case Leaf(_) =>
    case Split(o, cs) =>
      if Leaf(p) in cs {
        var i := IndexOf(cs, Leaf(p));
        LeavesOfChild(o, cs, i);
        assert false;
      }
      forall k | 0 <= k < |cs|
        ensures RemoveLeaf(cs[k], p, false) == cs[k]
      {
        LeavesOfChild(o, cs, k);
        RemoveLeafAbsent(cs[k], p, false);
      }
      assert seq(|cs|, k requires 0 <= k < |cs| => RemoveLeaf(cs[k], p, false)) == cs;
  }

  /** Removing a leaf never adds a panel, whatever the shape of the tree. */
  lemma {:induction false} RemoveLeafShrinks(l: Layout, p: PanelId, isRoot: bool)
    ensures Leaves(RemoveLeaf(l, p, isRoot)) <= Leaves(l)
  {
    match l
    case Leaf(_) =>
    case Split(o, cs) =>
      if Leaf(p) in cs {
        var i := IndexOf(cs, Leaf(p));
        var rest := cs[..i] + cs[i + 1..];
        forall k | 0 <= k < |rest|
          ensures Leaves(rest[k]) <= Leaves(l)
        {
          var k' := if k < i then k else k + 1;
          assert rest[k] == cs[k'];
          LeavesOfChild(o, cs, k');
        }
      } else {
        var after := seq(|cs|, k requires 0 <= k < |cs| => RemoveLeaf(cs[k], p, false));
        forall q | q in Leaves(Split(o, after))
          ensures q in Leaves(l)
        {
          var k :| 0 <= k < |after| && q in Leaves(after[k]);
          RemoveLeafShrinks(cs[k], p, false);
          LeavesOfChild(o, cs, k);
        }
      }
  }

  /** A panel that is not in the tree cannot be replaced in it (renderer/docking.js:31). */
  lemma {:induction false} ReplaceChildLeafAbsent(l: Layout, p: PanelId, x: Layout)
    requires p !in Leaves(l)
    ensures ReplaceChildLeaf(l, p, x) == l
  {
    match l
    case Leaf(_) =>
    case Split(o, cs) =>
      if Leaf(p) in cs {
        var i := IndexOf(cs, Leaf(p));
        LeavesOfChild(o, cs, i);
        assert false;
      }
      forall k | 0 <= k < |cs|
        ensures ReplaceChildLeaf(cs[k], p, x) == cs[k]
      {
        LeavesOfChild(o, cs, k);
        ReplaceChildLeafAbsent(cs[k], p, x);
      }
      assert seq(|cs|, k requires 0 <= k < |cs| => ReplaceChildLeaf(cs[k], p, x)) == cs;
  }

  /** In a duplicate-free split, the panel `p` lies in exactly one child. */
  lemma OnlyChildWith(o: Orientation, cs: seq<Layout>, j: nat, p: PanelId)
    requires Unique(Split(o, cs)) && j < |cs| && p in Leaves(cs[j])
    ensures forall k :: 0 <= k < |cs| && k != j ==> p !in Leaves(cs[k])
  {
  }

  /** Swapping one child for a duplicate-free child that shares no panel with its siblings keeps a split duplicate-free. */
  lemma UniqueUpdate(o: Orientation, cs: seq<Layout>, j: nat, inner: Layout)
    requires Unique(Split(o, cs)) && j < |cs| && Unique(inner)
    requires forall k :: 0 <= k < |cs| && k != j ==> Leaves(cs[k]) !! Leaves(inner)
    ensures Unique(Split(o, cs[j := inner]))
  {
    var after := cs[j := inner];
    forall a, b | 0 <= a < b < |after|
      ensures Leaves(after[a]) !! Leaves(after[b])
    {
    }
  }

  /** The case of `RemoveLeafRemoves` where the split lists the leaf itself. */
  lemma RemoveDirectChild(o: Orientation, cs: seq<Layout>, p: PanelId, isRoot: bool)
    requires Unique(Split(o, cs)) && Leaf(p) in cs
    ensures Leaves(RemoveLeaf(Split(o, cs), p, isRoot)) == Leaves(Split(o, cs)) - {p}
    ensures Unique(RemoveLeaf(Split(o, cs), p, isRoot))
    ensures Shape(Split(o, cs), isRoot) ==> Shape(RemoveLeaf(Split(o, cs), p, isRoot), isRoot)
  {
    var i := IndexOf(cs, Leaf(p));
    var rest := cs[..i] + cs[i + 1..];
    assert RemoveLeaf(Split(o, cs), p, isRoot) == if |rest| == 1 && !isRoot then rest[0] else Split(o, rest);
    assert Leaves(cs[i]) == {p};
    LeavesOfSplice(o, cs, i);
    SpliceKeeps(o, cs, i);
    if |rest| == 1 && !isRoot {
      assert rest == [rest[0]];
      LeavesOfSingle(o, rest[0]);
    }
  }

  /** Dropping child `i` of a split keeps it duplicate-free. */
  lemma SpliceKeeps(o: Orientation, cs: seq<Layout>, i: nat)
    requires i < |cs| && Unique(Split(o, cs))
    ensures Unique(Split(o, cs[..i] + cs[i + 1..]))
  {
    var rest := cs[..i] + cs[i + 1..];
    forall a, b | 0 <= a < b < |rest|
      ensures Leaves(rest[a]) !! Leaves(rest[b])
    {
      var a' := if a < i then a else a + 1;
      var b' := if b < i then b else b + 1;
      assert rest[a] == cs[a'] && rest[b] == cs[b'];
    }
  }

  /** Only the child holding the panel changes when the leaf lies deeper, in child `j`. */
  lemma RemoveDeepChild(o: Orientation, cs: seq<Layout>, j: nat, p: PanelId, isRoot: bool)
    requires Unique(Split(o, cs)) && Leaf(p) !in cs && j < |cs| && p in Leaves(cs[j])
    ensures RemoveLeaf(Split(o, cs), p, isRoot) == Split(o, cs[j := RemoveLeaf(cs[j], p, false)])
  {
    OnlyChildWith(o, cs, j, p);
    var after := seq(|cs|, k requires 0 <= k < |cs| => RemoveLeaf(cs[k], p, false));
    forall k | 0 <= k < |cs|
      ensures after[k] == cs[j := RemoveLeaf(cs[j], p, false)][k]
    {
      if k != j {
        RemoveLeafAbsent(cs[k], p, false);
      }
    }
    assert after == cs[j := RemoveLeaf(cs[j], p, false)];
  }

  /**
    Emptying a panel that has a parent removes exactly that panel from the tree; the result stays
    duplicate-free and keeps the engine's shapes (renderer/docking.js:38-48, 237-242).
  */
  lemma {:induction false} RemoveLeafRemoves(l: Layout, p: PanelId, isRoot: bool)
    requires Unique(l) && l.Split? && p in Leaves(l)
    ensures Leaves(RemoveLeaf(l, p, isRoot)) == Leaves(l) - {p}
    ensures Unique(RemoveLeaf(l, p, isRoot))
    ensures Shape(l, isRoot) ==> Shape(RemoveLeaf(l, p, isRoot), isRoot)
  {
    var o, cs := l.orientation, l.children;
    if Leaf(p) in cs {
      RemoveDirectChild(o, cs, p, isRoot);
    } else {
      var j :| 0 <= j < |cs| && p in Leaves(cs[j]);
      OnlyChildWith(o, cs, j, p);
      assert cs[j].Split?;
      RemoveLeafRemoves(cs[j], p, false);
      RemoveDeepChild(o, cs, j, p, isRoot);
      RemoveDeepFacts(o, cs, j, p, RemoveLeaf(cs[j], p, false), isRoot);
    }
  }

  /** What the recursive call on child `j` gives back, lifted to the whole split. */
  lemma RemoveDeepFacts(o: Orientation, cs: seq<Layout>, j: nat, p: PanelId, inner: Layout, isRoot: bool)
    requires Unique(Split(o, cs)) && j < |cs| && p in Leaves(cs[j])
    requires Leaves(inner) == Leaves(cs[j]) - {p} && Unique(inner)
    requires Shape(cs[j], false) ==> Shape(inner, false)
    ensures Leaves(Split(o, cs[j := inner])) == Leaves(Split(o, cs)) - {p}
    ensures Unique(Split(o, cs[j := inner]))
    ensures Shape(Split(o, cs), isRoot) ==> Shape(Split(o, cs[j := inner]), isRoot)
  {
    OnlyChildWith(o, cs, j, p);
    LeavesOfUpdate(o, cs, j, inner);
    UniqueUpdate(o, cs, j, inner);
  }

  /** The case of `ReplaceChildLeafReplaces` where the split lists the leaf itself. */
  lemma ReplaceDirectChild(o: Orientation, cs: seq<Layout>, p: PanelId, x: Layout, isRoot: bool)
    requires Unique(Split(o, cs)) && Leaf(p) in cs
    requires Unique(x) && Leaves(x) !! Leaves(Split(o, cs)) - {p}
    ensures Leaves(ReplaceChildLeaf(Split(o, cs), p, x)) == (Leaves(Split(o, cs)) - {p}) + Leaves(x)
    ensures Unique(ReplaceChildLeaf(Split(o, cs), p, x))
    ensures Shape(Split(o, cs), isRoot) && Shape(x, false) ==>
      Shape(ReplaceChildLeaf(Split(o, cs), p, x), isRoot)
  {
    var i := IndexOf(cs, Leaf(p));
    LeavesOfUpdate(o, cs, i, x);
    assert Leaves(cs[i]) == {p};
    forall k | 0 <= k < |cs| && k != i
      ensures Leaves(cs[k]) !! Leaves(x)
    {
      LeavesOfChild(o, cs, k);
    }
    UniqueUpdate(o, cs, i, x);
  }

  /** Only the child holding the panel changes when the leaf lies deeper, in child `j`. */
  lemma ReplaceDeepChild(o: Orientation, cs: seq<Layout>, j: nat, p: PanelId, x: Layout)
    requires Unique(Split(o, cs)) && Leaf(p) !in cs && j < |cs| && p in Leaves(cs[j])
    ensures ReplaceChildLeaf(Split(o, cs), p, x) == Split(o, cs[j := ReplaceChildLeaf(cs[j], p, x)])
  {
    OnlyChildWith(o, cs, j, p);
    var after := seq(|cs|, k requires 0 <= k < |cs| => ReplaceChildLeaf(cs[k], p, x));
    forall k | 0 <= k < |cs|
      ensures after[k] == cs[j := ReplaceChildLeaf(cs[j], p, x)][k]
    {
      if k != j {
        ReplaceChildLeafAbsent(cs[k], p, x);
      }
    }
    assert after == cs[j := ReplaceChildLeaf(cs[j], p, x)];
  }

  /**
    Replacing the panel `p` of a split by `x` swaps `p` for the panels of `x`; with `x` fresh and
    well formed, the result stays duplicate-free and keeps the engine's shapes
    (renderer/docking.js:29-36, 419-421).
  */
  lemma {:induction false} ReplaceChildLeafReplaces(l: Layout, p: PanelId, x: Layout, isRoot: bool)
    requires Unique(l) && l.Split? && p in Leaves(l)
    requires Unique(x) && Leaves(x) !! Leaves(l) - {p}
    ensures Leaves(ReplaceChildLeaf(l, p, x)) == (Leaves(l) - {p}) + Leaves(x)
    ensures Unique(ReplaceChildLeaf(l, p, x))
    ensures Shape(l, isRoot) && Shape(x, false) ==> Shape(ReplaceChildLeaf(l, p, x), isRoot)
  {
    var o, cs := l.orientation, l.children;
    if Leaf(p) in cs {
      ReplaceDirectChild(o, cs, p, x, isRoot);
    } else {
      var j :| 0 <= j < |cs| && p in Leaves(cs[j]);
      OnlyChildWith(o, cs, j, p);
      assert cs[j].Split?;
      LeavesOfChild(o, cs, j);
      ReplaceChildLeafReplaces(cs[j], p, x, false);
      ReplaceDeepChild(o, cs, j, p, x);
      ReplaceDeepFacts(o, cs, j, p, x, ReplaceChildLeaf(cs[j], p, x), isRoot);
    }
  }

  /** What the recursive call on child `j` gives back, lifted to the whole split. */
  lemma ReplaceDeepFacts(o: Orientation, cs: seq<Layout>, j: nat, p: PanelId, x: Layout,
                         inner: Layout, isRoot: bool)
    requires Unique(Split(o, cs)) && j < |cs| && p in Leaves(cs[j])
    requires Leaves(x) !! Leaves(Split(o, cs)) - {p}
    requires Leaves(inner) == (Leaves(cs[j]) - {p}) + Leaves(x) && Unique(inner)
    requires Shape(cs[j], false) && Shape(x, false) ==> Shape(inner, false)
    ensures Leaves(Split(o, cs[j := inner])) == (Leaves(Split(o, cs)) - {p}) + Leaves(x)
    ensures Unique(Split(o, cs[j := inner]))
    ensures Shape(Split(o, cs), isRoot) && Shape(x, false) ==> Shape(Split(o, cs[j := inner]), isRoot)
  {
    OnlyChildWith(o, cs, j, p);
    LeavesOfUpdate(o, cs, j, inner);
    forall k | 0 <= k < |cs| && k != j
      ensures Leaves(cs[k]) !! Leaves(inner)
    {
      LeavesOfChild(o, cs, k);
    }
    UniqueUpdate(o, cs, j, inner);
  }

  /** `x` is `l` itself or lies somewhere below it. */
  predicate Within(x: Layout, l: Layout)
  {
    match l
    case Leaf(_) => l == x
    case Split(_, cs) => l == x || exists k :: 0 <= k < |cs| && Within(x, cs[k])
  }

  /** Replacing a panel of a split puts the new node into the tree (renderer/docking.js:29-36). */
  lemma {:induction false} ReplaceChildLeafPlaces(l: Layout, p: PanelId, x: Layout)
    requires l.Split? && p in Leaves(l)
    ensures Within(x, ReplaceChildLeaf(l, p, x))
  {
    var o, cs := l.orientation, l.children;
    if Leaf(p) in cs {
      var after := cs[IndexOf(cs, Leaf(p)) := x];
      assert Within(x, after[IndexOf(cs, Leaf(p))]);
    } else {
      var j :| 0 <= j < |cs| && p in Leaves(cs[j]);
      assert cs[j].Split?;
      ReplaceChildLeafPlaces(cs[j], p, x);
      var after := seq(|cs|, k requires 0 <= k < |cs| => ReplaceChildLeaf(cs[k], p, x));
      assert Within(x, after[j]);
    }
  }

  /** The two-child split of the panel `p` and a new panel `n`, `n` first or last. */
  function PairSplit(o: Orientation, p: PanelId, n: PanelId, newFirst: bool): Layout
  {
    Split(o, if newFirst then [Leaf(n), Leaf(p)] else [Leaf(p), Leaf(n)])
  }

  /**
    Putting a fresh panel `n` beside the panel `p` and removing `n` again gives the tree back: the
    two-child split collapses into `p`, in the place it took (renderer/docking.js:29-48).
  */
  lemma {:induction false} SplitThenRemove(l: Layout, p: PanelId, n: PanelId, o: Orientation, newFirst: bool, isRoot: bool)
    requires n !in Leaves(l)
    ensures RemoveLeaf(ReplaceChildLeaf(l, p, PairSplit(o, p, n, newFirst)), n, isRoot) == l
  {
    var x := PairSplit(o, p, n, newFirst);
    match l
    case Leaf(_) =>
    case Split(o2, cs) =>
      forall k | 0 <= k < |cs|
        ensures n !in Leaves(cs[k])
      {
        LeavesOfChild(o2, cs, k);
      }
      if Leaf(p) in cs {
        var i := IndexOf(cs, Leaf(p));
        var after := cs[i := x];
        assert RemoveLeaf(x, n, false) == Leaf(p) by {
          assert n != p;
          assert IndexOf(x.children, Leaf(n)) == if newFirst then 0 else 1;
        }
        forall k | 0 <= k < |after|
          ensures after[k] != Leaf(n) && RemoveLeaf(after[k], n, false) == cs[k]
        {
          if k != i {
            RemoveLeafAbsent(cs[k], n, false);
          }
        }
        assert seq(|after|, k requires 0 <= k < |after| => RemoveLeaf(after[k], n, false)) == cs;
      } else {
        var after := seq(|cs|, k requires 0 <= k < |cs| => ReplaceChildLeaf(cs[k], p, x));
        forall k | 0 <= k < |after|
          ensures after[k] != Leaf(n) && RemoveLeaf(after[k], n, false) == cs[k]
        {
          SplitThenRemove(cs[k], p, n, o, newFirst, false);
        }
        assert seq(|after|, k requires 0 <= k < |after| => RemoveLeaf(after[k], n, false)) == cs;
      }
  }

  /**
    A split below the root that loses one of its two panels is replaced, at the same index of its
    parent, by the other child (renderer/docking.js:44-45); the parent keeps its orientation.
  */
  lemma CollapseKeepsIndex(o: Orientation, cs: seq<Layout>, j: nat, o2: Orientation,
                           p: PanelId, c: Layout, panelFirst: bool, isRoot: bool)
    requires j < |cs|
    requires cs[j] == Split(o2, if panelFirst then [Leaf(p), c] else [c, Leaf(p)])
    requires c != Leaf(p)
    requires Unique(Split(o, cs))
    ensures RemoveLeaf(Split(o, cs), p, isRoot) == Split(o, cs[j := c])
  {
    var pair := if panelFirst then [Leaf(p), c] else [c, Leaf(p)];
    LeavesOfChild(o2, pair, if panelFirst then 0 else 1);
    LeavesOfChild(o, cs, j);
    assert Leaf(p) in pair;
    assert IndexOf(pair, Leaf(p)) == if panelFirst then 0 else 1;
    OnlyChildWith(o, cs, j, p);
    forall k | 0 <= k < |cs| && k != j
      ensures RemoveLeaf(cs[k], p, false) == cs[k]
    {
      RemoveLeafAbsent(cs[k], p, false);
    }
    assert seq(|cs|, k requires 0 <= k < |cs| => RemoveLeaf(cs[k], p, false)) == cs[j := c];
  }

  /** The parentless root split is never collapsed away: it stays a split of the same orientation. */
  lemma RootSplitSurvives(o: Orientation, cs: seq<Layout>, p: PanelId)
    ensures RemoveLeaf(Split(o, cs), p, true).Split?
    ensures RemoveLeaf(Split(o, cs), p, true).orientation == o
  {
  }

  /**
    `DockManager.findFirstPanel` (renderer/docking.js:229-235): follows `children[0]` down to a
    panel, and finds nothing below a split that has no children.
  */
  function FindFirstPanel(l: Layout): (r: Option<PanelId>)
    ensures r.Some? ==> r.value in Leaves(l)
  {
    match l
    case Leaf(p) => Some(p)
    case Split(_, cs) =>
      if |cs| == 0 then None
      else
        var r := FindFirstPanel(cs[0]);
        LeavesOfChild(l.orientation, cs, 0);
        r
  }

  /**
    In a tree of the engine's shapes, `findFirstPanel` finds nothing exactly when the tree holds no
    panel, which happens only for a root split left with no children.
  */
  lemma {:induction false} FindFirstPanelNone(l: Layout, isRoot: bool)
    requires Shape(l, isRoot)
    ensures FindFirstPanel(l).None? <==> Leaves(l) == {}
    ensures FindFirstPanel(l).None? <==> isRoot && l.Split? && l.children == []
  {
    match l
    case Leaf(p) =>
      assert p in Leaves(l);
    case Split(o, cs) =>
      if |cs| > 0 {
        FindFirstPanelNone(cs[0], false);
        LeavesOfChild(o, cs, 0);
      }
  }

  /** The measure of the child loop of `FindPanelByElement`. */
  function ChildrenLeft(l: Layout, i: nat): nat
  {
    if l.Split? && i < |l.children| then |l.children| - i else 0
  }

  /**
    `DockManager.findPanelByElement` (renderer/docking.js:440-449): a depth-first search that
    tries the node itself, then each child in order from index `i`, returning the first hit.
  */
  function FindPanelByElement(l: Layout, p: PanelId, i: nat := 0): (r: Option<PanelId>)
    decreases l, ChildrenLeft(l, i)
  {
    match l
    case Leaf(q) => if q == p then Some(q) else None
    case Split(_, cs) =>
      if i >= |cs| then None
      else
        match FindPanelByElement(cs[i], p)
        case Some(found) => Some(found)
        case None => FindPanelByElement(l, p, i + 1)
  }

  /** The search finds the panel exactly when it is reachable from the node searched. */
  lemma {:induction false} FindPanelByElementFinds(l: Layout, p: PanelId, i: nat)
    ensures FindPanelByElement(l, p, i) == Some(p) || FindPanelByElement(l, p, i) == None
    ensures l.Leaf? || i == 0 ==>
      (FindPanelByElement(l, p, i) == Some(p) <==> p in Leaves(l))
    ensures l.Split? ==>
      (FindPanelByElement(l, p, i) == Some(p) <==>
        exists k :: i <= k < |l.children| && p in Leaves(l.children[k]))
    decreases l, ChildrenLeft(l, i)
  {
    match l
    case Leaf(q) =>
    case Split(o, cs) =>
      if i < |cs| {
        FindPanelByElementFinds(cs[i], p, 0);
        FindPanelByElementFinds(l, p, i + 1);
        if FindPanelByElement(cs[i], p).None? {
          assert forall k :: i <= k < |cs| && p in Leaves(cs[k]) ==> k == i || i + 1 <= k;
        }
      }
  }
}

=== FILE: dock_manager.dfy ===
/**
  The state and tree operations of `DockManager` (renderer/docking.js:142-251).

  The manager is an immutable record: the layout tree, a store of every `DockPanel` ever created
  (panels keep their identity and tabs after they leave the tree, as JavaScript objects do while
  something still points at them), the `activePanel` pointer, the item registry, the tab-id
  counter and the single drag-state slot.
*/
module DockManager {
  import opened Wrappers
  import opened DockLayout
  import opened DockPanels

  /** 'dock' (the tab lives in a panel) or 'float' (the tab lives in its own window). */
  datatype Mode = Dock | Float

  /** A registry entry: the tab's title, the panel object it was last placed in, and its mode. */
  datatype Item = Item(title: string, panel: PanelId, mode: Mode)

  /** The five drop zones of a panel. */
  datatype Zone = Left | Right | Top | Bottom | Center

  /** Where a drag would drop: the hit panel and the zone under the pointer. */
  datatype DropTarget = DropTarget(panel: PanelId, zone: Zone)

  /**
    The `dragState` of a tab drag: the dragged tab and the panel it was pressed in, the press
    position, whether the move threshold was passed (`isDragging`), whether the drag image
    (`ghost`) was created, and the drop target recorded by the last move.
  */
  datatype DragState = DragState(
    tab: TabId,
    source: PanelId,
    startX: real,
    startY: real,
    dragging: bool,
    dragImage: bool,
    target: Option<DropTarget>)

  datatype Manager = Manager(
    layout: Layout,
    panels: map<PanelId, Panel>,
    activePanel: PanelId,
    items: map<TabId, Item>,
    counter: nat,
    nextPanel: PanelId,
    drag: Option<DragState>)

  /** The result of `openTab`: the new state and the id handed back to the caller. */
  datatype Opened = Opened(m: Manager, tab: TabId)

  /** The result of `floatPlugin`: the new state and the plugin name sent to `detachPlugin`, if any. */
  datatype Floated = Floated(m: Manager, detach: Option<string>)

  /** `new DockManager(...)` (renderer/docking.js:162-168): one empty root panel, also the active one. */
  const Initial: Manager := Manager(Leaf(0), map[0 := Empty], 0, map[], 0, 1, None)

  /** Every panel reference points at an existing panel object, and fresh panel ids are unused. */
  ghost predicate Resolved(m: Manager)
  {
    && Leaves(m.layout) <= m.panels.Keys
    && m.activePanel in m.panels
    && (forall t :: t in m.items ==> m.items[t].panel in m.panels)
    && (m.drag.Some? ==> m.drag.value.source in m.panels)
    && (forall p :: p in m.panels ==> p < m.nextPanel)
  }

  /** A tab lies in at most one panel. */
  ghost predicate TabsDisjoint(m: Manager)
  {
    forall p, q, t :: p in m.panels && q in m.panels && t in m.panels[p].tabs && t in m.panels[q].tabs ==> p == q
  }

  /** The shape of the object graph: references resolve, the tree is well formed, panels are valid. */
  ghost predicate Structural(m: Manager)
  {
    && Resolved(m)
    && Unique(m.layout)
    && Shape(m.layout, true)
    && (forall p :: p in m.panels ==> DockPanels.Valid(m.panels[p]))
    && TabsDisjoint(m)
  }

  /**
    The registry and the panels agree: every item is docked in the panel it names, every tab of
    every panel is registered, and no registered id is newer than the counter.
  */
  ghost predicate Registered(m: Manager)
    requires Resolved(m)
  {
    && (forall t :: t in m.items ==> m.items[t].mode == Dock && t in m.panels[m.items[t].panel].tabs)
    && (forall p, t :: p in m.panels && t in m.panels[p].tabs ==> t in m.items)
    && (forall t :: t in m.items ==> t.serial <= m.counter)
  }

  /** The invariant every public operation keeps. */
  ghost predicate Consistent(m: Manager)
  {
    Structural(m) && Registered(m)
  }

  /** Every registered tab's panel is in the tree, so the tab is visible in the layout. */
  ghost predicate Docked(m: Manager)
  {
    forall t :: t in m.items ==> m.items[t].panel in Leaves(m.layout)
  }

  /** `element.isConnected` of a panel: it is reachable from the root. */
  predicate Connected(m: Manager, p: PanelId)
  {
    p in Leaves(m.layout)
  }

  /**
    A panel's `parent` is set: every panel except the parentless root panel has one (a panel that
    left the tree keeps a stale parent).
  */
  predicate HasParent(m: Manager, p: PanelId)
  {
    m.layout != Leaf(p)
  }

  /** Store a panel update and, when the panel's `activate` ran, make it the active panel. */
  function Apply(m: Manager, p: PanelId, u: Update): Manager
  {
    m.(panels := m.panels[p := u.panel], activePanel := if u.focused then p else m.activePanel)
  }

  /**
    `DockManager.removePanel` (renderer/docking.js:237-242): the root panel is never removed; any
    other panel of the tree is removed from its parent split, which may collapse one level. A panel
    that already left the tree only has a stale parent outside the tree, so the tree is unchanged.
  */
  function RemovePanel(m: Manager, p: PanelId): (r: Manager)
    ensures r == m.(layout := r.layout)
    ensures m.layout == Leaf(p) ==> r == m
    ensures p !in Leaves(m.layout) ==> r == m
    ensures Leaves(r.layout) <= Leaves(m.layout)
    ensures Unique(m.layout) && p in Leaves(m.layout) && m.layout != Leaf(p) ==>
      Leaves(r.layout) == Leaves(m.layout) - {p} && Unique(r.layout)
    ensures Unique(m.layout) && Shape(m.layout, true) ==> Unique(r.layout) && Shape(r.layout, true)
  {
    if m.layout == Leaf(p) then m
    else if p in Leaves(m.layout) then
      var l := RemoveLeaf(m.layout, p, true);
      assert Leaves(l) <= Leaves(m.layout) by { RemoveLeafShrinks(m.layout, p, true); }
      assert Unique(m.layout) ==>
        Leaves(l) == Leaves(m.layout) - {p} && Unique(l) && (Shape(m.layout, true) ==> Shape(l, true))
      by {
        if Unique(m.layout) {
          RemoveLeafRemoves(m.layout, p, true);
        }
      }
      m.(layout := l)
    else m
  }

  /** `addTab` on panel `p`. */
  function AddTabIn(m: Manager, p: PanelId, t: TabId, activate: bool): Manager
    requires p in m.panels
  {
    Apply(m, p, AddTab(m.panels[p], t, activate))
  }

  /** `removeTab` on panel `p`, including the collapse it requests when the panel empties (121-123). */
  function RemoveTabIn(m: Manager, p: PanelId, t: TabId): (r: Manager)
    requires p in m.panels
    ensures r.items == m.items && r.counter == m.counter && r.nextPanel == m.nextPanel && r.drag == m.drag
    ensures r.panels == m.panels[p := RemoveTab(m.panels[p], t).panel]
  {
    var u := RemoveTab(m.panels[p], t);
    var m1 := Apply(m, p, u);
    if t in m.panels[p].tabs && |u.panel.tabs| == 0 && HasParent(m, p) then RemovePanel(m1, p)
    else m1
  }

  /** `activate` on panel `p`. */
  function ActivateIn(m: Manager, p: PanelId, t: TabId): Manager
    requires p in m.panels
  {
    Apply(m, p, Activate(m.panels[p], t))
  }

  /**
    The panel `openTab` uses (renderer/docking.js:191-199): the active panel while it is attached,
    else the first panel of the tree, else a new empty panel that becomes the root.
  */
  function TabTarget(m: Manager): (r: (Manager, PanelId))
    requires Resolved(m)
    ensures r.1 in r.0.panels && Connected(r.0, r.1)
    ensures Connected(m, m.activePanel) ==> r == (m, m.activePanel)
    ensures !Connected(m, m.activePanel) && FindFirstPanel(m.layout).Some? ==>
      r == (m, FindFirstPanel(m.layout).value)
    ensures !Connected(m, m.activePanel) && FindFirstPanel(m.layout).None? ==>
      r.1 == m.nextPanel && r.0.layout == Leaf(r.1) && r.0.panels == m.panels[r.1 := Empty]
      && r.0.nextPanel == m.nextPanel + 1
    ensures Resolved(r.0)
    ensures r.0 == m.(layout := r.0.layout, panels := r.0.panels, nextPanel := r.0.nextPanel)
  {
    if Connected(m, m.activePanel) then (m, m.activePanel)
    else
      match FindFirstPanel(m.layout)
      case Some(p) => (m, p)
      case None =>
        var p := m.nextPanel;
        var m1 := m.(layout := Leaf(p), panels := m.panels[p := Empty], nextPanel := p + 1);
        (m1, p)
  }

  /**
    `DockManager.openTab` (renderer/docking.js:187-204): the id is 'tab-' + the incremented
    counter; the tab is added to the panel `TabTarget` picks and registered there in 'dock' mode.
  */
  function OpenTab(m: Manager, title: string, activate: bool): (r: Opened)
    requires Resolved(m)
    ensures r.tab == TabId(m.counter + 1) && r.m.counter == m.counter + 1
    ensures var m1 := TabTarget(m).0;
            var target := TabTarget(m).1;
            && r.m.items == m.items[r.tab := Item(title, target, Dock)]
            && r.m.panels == m1.panels[target := AddTab(m1.panels[target], r.tab, activate).panel]
            && r.m.layout == m1.layout && r.m.nextPanel == m1.nextPanel && r.m.drag == m.drag
            && r.m.activePanel ==
                 (if r.tab !in m1.panels[target].tabs && (activate || m1.panels[target].active.None?)
                  then target else m.activePanel)
    ensures Resolved(r.m)
  {
    var t := TabId(m.counter + 1);
    var target := TabTarget(m);
    var m2 := AddTabIn(target.0, target.1, t, activate);
    Opened(m2.(items := m2.items[t := Item(title, target.1, Dock)], counter := m.counter + 1), t)
  }

  /**
    `DockManager.closeTab` (renderer/docking.js:206-217): an unknown id changes nothing; a docked
    tab is removed from its panel (which may collapse), and the item is dropped from the registry.
    Closing a floating window is a request to the window host and has no effect here.
  */
  function CloseTab(m: Manager, t: TabId): (r: Manager)
    requires Resolved(m)
    ensures t !in m.items ==> r == m
    ensures r.items == m.items - {t}
    ensures r.panels.Keys == m.panels.Keys
    ensures t in m.items && m.items[t].mode == Dock ==>
      t !in r.panels[m.items[t].panel].tabs
    ensures t in m.items && m.items[t].mode == Dock ==>
      r.(items := m.items) == RemoveTabIn(m, m.items[t].panel, t)
    ensures t in m.items && m.items[t].mode != Dock ==> r.(items := m.items) == m
    ensures Resolved(r)
  {
    if t !in m.items then m
    else
      var item := m.items[t];
      var m1 := if item.mode == Dock then RemoveTabIn(m, item.panel, t) else m;
      m1.(items := m1.items - {t})
  }

  /**
    `DockManager.activateTab` (renderer/docking.js:219-227): an unknown id changes nothing; a
    docked tab becomes the active tab of its panel, which becomes the active panel.
  */
  function ActivateTab(m: Manager, t: TabId): (r: Manager)
    requires Resolved(m)
    ensures t !in m.items ==> r == m
    ensures r.layout == m.layout && r.items == m.items && r.panels.Keys == m.panels.Keys
    ensures t in m.items && m.items[t].mode == Dock && t in m.panels[m.items[t].panel].tabs ==>
      r.activePanel == m.items[t].panel && r.panels[r.activePanel].active == Some(t)
    ensures t in m.items && m.items[t].mode != Dock ==> r == m
    ensures t in m.items && m.items[t].mode == Dock ==>
      && r.panels[m.items[t].panel].tabs == m.panels[m.items[t].panel].tabs
      && forall q :: q in m.panels && q != m.items[t].panel ==> r.panels[q] == m.panels[q]
    ensures Resolved(r)
  {
    if t !in m.items then m
    else
      var item := m.items[t];
      if item.mode == Dock then ActivateIn(m, item.panel, t) else m
  }

  /**
    `DockManager.floatPlugin` (renderer/docking.js:244-251) up to its first `await`: an unknown id
    does nothing; otherwise the tab is closed and its title is sent as the plugin name to detach.
  */
  function FloatPlugin(m: Manager, t: TabId): (r: Floated)
    requires Resolved(m)
    ensures r.detach.Some? <==> t in m.items
    ensures r.detach.Some? ==> r.detach.value == m.items[t].title
    ensures t !in m.items ==> r.m == m
    ensures r.m.items == m.items - {t} && r.m.panels.Keys == m.panels.Keys
    ensures Consistent(m) ==> Consistent(r.m)
  {
    assert Consistent(m) ==> Consistent(CloseTab(m, t)) by {
      if Consistent(m) {
        CloseTabConsistent(m, t);
      }
    }
    if t !in m.items then Floated(m, None)
    else Floated(CloseTab(m, t), Some(m.items[t].title))
  }

  // ---------------------------------------------------------------------------------------------
  // Invariant preservation

  /** Taking a tab out of panel `p`, before any collapse, keeps the structure. */
  lemma RemoveTabStructural(m: Manager, p: PanelId, t: TabId)
    requires Structural(m) && p in m.panels
    ensures Structural(Apply(m, p, RemoveTab(m.panels[p], t)))
  {
    var u := RemoveTab(m.panels[p], t);
    RemoveTabKeepsOrder(m.panels[p], t);
    var m1 := Apply(m, p, u);
    forall a, b, x | a in m1.panels && b in m1.panels && x in m1.panels[a].tabs && x in m1.panels[b].tabs
      ensures a == b
    {
      assert x in m.panels[a].tabs && x in m.panels[b].tabs;
    }
  }

  /** Removing a panel from the tree keeps the structure. */
  lemma RemovePanelStructural(m: Manager, p: PanelId)
    requires Structural(m)
    ensures Structural(RemovePanel(m, p))
  {
  }

  /** What `removeTab` on panel `p` does to the structure (renderer/docking.js:103-124, 237-242). */
  lemma RemoveTabInEffect(m: Manager, p: PanelId, t: TabId)
    requires Structural(m) && p in m.panels
    ensures var r := RemoveTabIn(m, p, t);
      && Structural(r)
      && r.items == m.items && r.counter == m.counter && r.drag == m.drag
      && r.nextPanel == m.nextPanel
      && r.panels == m.panels[p := RemoveTab(m.panels[p], t).panel]
      && (r.activePanel == m.activePanel || r.activePanel == p)
      && Leaves(r.layout) <= Leaves(m.layout)
      && Leaves(m.layout) - {p} <= Leaves(r.layout)
      && (t !in m.panels[p].tabs || |r.panels[p].tabs| > 0 || !HasParent(m, p) ==> r.layout == m.layout)
      && (t in m.panels[p].tabs && |r.panels[p].tabs| == 0 && HasParent(m, p) ==>
            p !in Leaves(r.layout))
  {
    RemoveTabStructural(m, p, t);
    var m1 := Apply(m, p, RemoveTab(m.panels[p], t));
    RemovePanelStructural(m1, p);
  }

  /** Adding a tab that no panel holds keeps the structure, and puts the tab in panel `p`. */
  lemma AddTabInEffect(m: Manager, p: PanelId, t: TabId, activate: bool)
    requires Structural(m) && p in m.panels
    requires forall q :: q in m.panels ==> t !in m.panels[q].tabs
    ensures var r := AddTabIn(m, p, t, activate);
      && Structural(r)
      && r.layout == m.layout && r.items == m.items && r.counter == m.counter
      && r.drag == m.drag && r.nextPanel == m.nextPanel
      && r.panels == m.panels[p := AddTab(m.panels[p], t, activate).panel]
      && t in r.panels[p].tabs
      && (activate ==> r.activePanel == p)
      && (r.activePanel == m.activePanel || r.activePanel == p)
  {
  }

  /** The panel `openTab` picks keeps the structure, and holds no tab unless it was there already. */
  lemma TabTargetStructural(m: Manager)
    requires Structural(m)
    ensures Structural(TabTarget(m).0)
    ensures forall q :: q in m.panels ==> q in TabTarget(m).0.panels && TabTarget(m).0.panels[q] == m.panels[q]
    ensures forall q :: q in TabTarget(m).0.panels && q !in m.panels ==> TabTarget(m).0.panels[q] == Empty
    ensures TabTarget(m).0.layout != m.layout ==> Leaves(m.layout) == {}
    ensures Registered(m) ==> Registered(TabTarget(m).0)
  {
    if !Connected(m, m.activePanel) && FindFirstPanel(m.layout).None? {
      FindFirstPanelNone(m.layout, true);
      var m1 := TabTarget(m).0;
      assert Leaves(m1.layout) == {m.nextPanel};
      assert TabsDisjoint(m1);
    }
  }

  /** Changing the registry alone keeps the structure as long as the items name existing panels. */
  lemma RegistryStructural(m: Manager, items: map<TabId, Item>, counter: nat)
    requires Structural(m)
    requires forall t :: t in items ==> items[t].panel in m.panels
    ensures Structural(m.(items := items, counter := counter))
  {
  }

  /** Swapping in a well-formed layout whose panels all exist keeps the structure. */
  lemma LayoutStructural(m: Manager, l: Layout)
    requires Structural(m) && Unique(l) && Shape(l, true) && Leaves(l) <= m.panels.Keys
    ensures Structural(m.(layout := l))
  {
  }

  /** A drag state whose source panel exists, or none, keeps the structure. */
  lemma DragStructural(m: Manager, d: Option<DragState>)
    requires Structural(m) && (d.Some? ==> d.value.source in m.panels)
    ensures Structural(m.(drag := d))
    ensures Registered(m) ==> Registered(m.(drag := d))
  {
  }

  /** The id `openTab` hands out is newer than every registered tab, so no panel holds it. */
  lemma NextTabFresh(m: Manager)
    requires Resolved(m) && Registered(m)
    ensures TabId(m.counter + 1) !in m.items
    ensures forall q :: q in m.panels ==> TabId(m.counter + 1) !in m.panels[q].tabs
  {
  }

  /** Dropping a tab from its panel and from the registry together keeps the registry in step. */
  lemma UnregisterTab(m: Manager, r: Manager, t: TabId)
    requires Consistent(m) && Structural(r) && t in m.items
    requires r.panels == m.panels[m.items[t].panel := RemoveTab(m.panels[m.items[t].panel], t).panel]
    requires r.items == m.items - {t} && r.counter == m.counter
    ensures Registered(r)
  {
    forall u | u in r.items
      ensures r.items[u].mode == Dock && u in r.panels[r.items[u].panel].tabs
    {
      assert u in m.panels[m.items[u].panel].tabs;
    }
    forall q, u | q in r.panels && u in r.panels[q].tabs
      ensures u in r.items
    {
      assert u in m.panels[q].tabs;
    }
  }

  /** Appending a tab no panel holds to panel `it.panel` and registering it keeps the structure. */
  lemma AddRegisteredStructural(m: Manager, t: TabId, it: Item, activate: bool, counter: nat)
    requires Structural(m) && it.panel in m.panels
    requires forall q :: q in m.panels ==> t !in m.panels[q].tabs
    ensures var m2 := AddTabIn(m, it.panel, t, activate);
      Structural(m2.(items := m2.items[t := it], counter := counter))
  {
    AddTabInEffect(m, it.panel, t, activate);
    var m2 := AddTabIn(m, it.panel, t, activate);
    RegistryStructural(m2, m2.items[t := it], counter);
  }

  /** `openTab` keeps the structure. */
  lemma OpenTabStructural(m: Manager, title: string, activate: bool)
    requires Structural(m) && Registered(m)
    ensures Structural(OpenTab(m, title, activate).m)
  {
    var t := TabId(m.counter + 1);
    var target := TabTarget(m);
    TabTargetStructural(m);
    NextTabFresh(m);
    var it := Item(title, target.1, Dock);
    AddRegisteredStructural(target.0, t, it, activate, m.counter + 1);
  }

  /** After `openTab` every registered tab, the new one included, sits in its panel. */
  lemma OpenTabPlaces(m: Manager, title: string, activate: bool)
    requires Resolved(m) && Registered(m)
    ensures var r := OpenTab(m, title, activate).m;
      forall u :: u in r.items ==> r.items[u].mode == Dock && r.items[u].panel in r.panels && u in r.panels[r.items[u].panel].tabs
  {
    var t := TabId(m.counter + 1);
    NextTabFresh(m);
    var r := OpenTab(m, title, activate).m;
    forall u | u in r.items
      ensures r.items[u].mode == Dock && r.items[u].panel in r.panels && u in r.panels[r.items[u].panel].tabs
    {
      if u != t {
        assert u in m.panels[m.items[u].panel].tabs;
      }
    }
  }

  /** After `openTab` every tab of every panel is registered. */
  lemma OpenTabCovers(m: Manager, title: string, activate: bool)
    requires Resolved(m) && Registered(m)
    ensures var r := OpenTab(m, title, activate).m;
      forall q, u :: q in r.panels && u in r.panels[q].tabs ==> u in r.items
  {
    var t := TabId(m.counter + 1);
    var m1 := TabTarget(m).0;
    var target := TabTarget(m).1;
    var r := OpenTab(m, title, activate).m;
    forall q, u | q in r.panels && u in r.panels[q].tabs
      ensures u in r.items
    {
      if u != t && q == target {
        assert u in m1.panels[q].tabs;
      }
    }
  }

  /** The registry after `openTab`: the new tab sits in the target panel, the others where they were. */
  lemma OpenTabRegistered(m: Manager, title: string, activate: bool)
    requires Resolved(m) && Registered(m)
    ensures Registered(OpenTab(m, title, activate).m)
  {
    OpenTabPlaces(m, title, activate);
    OpenTabCovers(m, title, activate);
  }

  /** `openTab` keeps the invariant and keeps every registered tab in the tree. */
  lemma OpenTabConsistent(m: Manager, title: string, activate: bool)
    requires Consistent(m)
    ensures Consistent(OpenTab(m, title, activate).m)
    ensures Docked(m) ==> Docked(OpenTab(m, title, activate).m)
    ensures OpenTab(m, title, activate).tab !in m.items
  {
    OpenTabStructural(m, title, activate);
    OpenTabRegistered(m, title, activate);
    TabTargetStructural(m);
    if Docked(m) && TabTarget(m).0.layout != m.layout {
      assert m.items == map[] by {
        forall u | u in m.items
          ensures false
        {
        }
      }
    }
  }

  /** The registry after `closeTab`: the closed tab is gone from its panel and from the registry. */
  lemma CloseTabRegistered(m: Manager, t: TabId)
    requires Consistent(m) && t in m.items
    ensures Consistent(CloseTab(m, t))
  {
    var p := m.items[t].panel;
    RemoveTabInEffect(m, p, t);
    var m1 := RemoveTabIn(m, p, t);
    RegistryStructural(m1, m1.items - {t}, m1.counter);
    UnregisterTab(m, CloseTab(m, t), t);
  }

  /** `closeTab` keeps the invariant and keeps every other registered tab in the tree. */
  lemma CloseTabConsistent(m: Manager, t: TabId)
    requires Consistent(m)
    ensures Consistent(CloseTab(m, t))
    ensures Docked(m) ==> Docked(CloseTab(m, t))
  {
    if t in m.items {
      CloseTabRegistered(m, t);
      var p := m.items[t].panel;
      RemoveTabInEffect(m, p, t);
      var m1 := RemoveTabIn(m, p, t);
      var r := CloseTab(m, t);
      if Docked(m) {
        forall u | u in r.items
          ensures r.items[u].panel in Leaves(r.layout)
        {
          if m.items[u].panel == p {
            assert u in m1.panels[p].tabs;
          }
        }
      }
    }
  }

  /** `activateTab` keeps the invariant and the tree. */
  lemma ActivateTabConsistent(m: Manager, t: TabId)
    requires Consistent(m)
    ensures Consistent(ActivateTab(m, t))
    ensures Docked(m) ==> Docked(ActivateTab(m, t))
  {
  }

  /** The manager as constructed satisfies the invariant. */
  lemma InitialConsistent()
    ensures Consistent(Initial) && Docked(Initial)
    ensures Leaves(Initial.layout) == {0}
  {
  }
}

=== FILE: dock_panel.dfy ===
/**
  The tab bookkeeping of a `DockPanel` (renderer/docking.js:51-140): an insertion-ordered set of
  tab ids and an `activeTabId`. Tab titles, tab elements and content surfaces are left to the DOM;
  the panel keeps only the ids, in the order of its `Map`.
*/
module DockPanels {
  import opened Wrappers
  import opened Seqs

  /** A tab id: the string 'tab-' followed by the value `serial` of the manager's counter. */
  datatype TabId = TabId(serial: nat)

  /** A panel's tabs, in insertion order (= visual order), and its `activeTabId`. */
  datatype Panel = Panel(tabs: seq<TabId>, active: Option<TabId>)

  /** A freshly constructed `DockPanel`. */
  const Empty := Panel([], None)

  /**
    The outcome of a panel operation: the new panel, and whether the panel's `activate` ran, which
    also makes the panel the manager's `activePanel` (renderer/docking.js:138).
  */
  datatype Update = Update(panel: Panel, focused: bool)

  /** The panel invariant: no tab twice, and an active tab exactly when there is a tab, one of its own. */
  predicate Valid(p: Panel)
  {
    && Distinct(p.tabs)
    && (p.active.Some? <==> |p.tabs| > 0)
    && (p.active.Some? ==> p.active.value in p.tabs)
  }

  /**
    `DockPanel.activate` (renderer/docking.js:126-139): an unknown id changes nothing; a known one
    becomes the active tab and focuses the panel. The tab order is never touched.
  */
  function Activate(p: Panel, id: TabId): (r: Update)
    ensures r.panel.tabs == p.tabs
    ensures r.focused <==> id in p.tabs
    ensures r.focused ==> r.panel.active == Some(id)
    ensures !r.focused ==> r.panel == p
    ensures Valid(p) ==> Valid(r.panel)
  {
    if id !in p.tabs then Update(p, false)
    else Update(p.(active := Some(id)), true)
  }

  /**
    `DockPanel.addTab` (renderer/docking.js:76-101): an id already present leaves the panel as it
    is; otherwise the id goes to the end of the tab order and becomes active when `activate` is set
    or the panel had no active tab, the active tab staying put otherwise.
  */
  function AddTab(p: Panel, id: TabId, activate: bool): (r: Update)
    ensures id in p.tabs ==> r == Update(p, false)
    ensures id !in p.tabs ==> r.panel.tabs == p.tabs + [id]
    ensures id !in p.tabs && (activate || p.active.None?) ==> r.panel.active == Some(id)
    ensures id !in p.tabs && !activate && p.active.Some? ==> r.panel.active == p.active
    ensures r.focused <==> id !in p.tabs && (activate || p.active.None?)
    ensures Valid(p) ==> Valid(r.panel)
  {
    if id in p.tabs then Update(p, false)
    else
      var appended := p.(tabs := p.tabs + [id]);
      if activate || p.active.None? then Activate(appended, id)
      else Update(appended, false)
  }

  /**
    `DockPanel.removeTab` without its collapse request (renderer/docking.js:103-119): an unknown id
    changes nothing; otherwise the id is taken out, the other tabs keeping their order, and when it
    was the active tab the FIRST remaining tab becomes active (not a neighbour), or none is left.
  */
  function RemoveTab(p: Panel, id: TabId): (r: Update)
    ensures id !in p.tabs ==> r == Update(p, false)
    ensures id !in r.panel.tabs
    ensures forall t :: t in r.panel.tabs <==> t in p.tabs && t != id
    ensures id in p.tabs && p.active == Some(id) && |r.panel.tabs| > 0 ==>
      r.panel.active == Some(r.panel.tabs[0])
    ensures id in p.tabs && p.active == Some(id) && |r.panel.tabs| == 0 ==> r.panel.active == None
    ensures p.active != Some(id) ==> r.panel.active == p.active
    ensures r.focused <==> id in p.tabs && p.active == Some(id) && |r.panel.tabs| > 0
  {
    if id !in p.tabs then Update(p, false)
    else
      var rest := Without(p.tabs, id);
      if p.active == Some(id) then
        if |rest| > 0 then Activate(Panel(rest, p.active), rest[0])
        else Update(Panel(rest, None), false)
      else Update(Panel(rest, p.active), false)
  }

  /**
    On a valid panel, `removeTab` splices the id out of its one position, the other tabs keeping
    their relative order, and leaves a valid panel (renderer/docking.js:113-119).
  */
  lemma RemoveTabKeepsOrder(p: Panel, id: TabId)
    requires Valid(p)
    ensures id in p.tabs ==>
      RemoveTab(p, id).panel.tabs == p.tabs[..IndexOf(p.tabs, id)] + p.tabs[IndexOf(p.tabs, id) + 1..]
    ensures Valid(RemoveTab(p, id).panel)
  {
    if id in p.tabs {
      WithoutSplices(p.tabs, id);
      WithoutDistinct(p.tabs, id);
    }
  }

  /** Removing a tab added without activation restores the panel exactly. */
  lemma AddRemoveRoundTrip(p: Panel, id: TabId)
    requires Valid(p) && id !in p.tabs
    ensures RemoveTab(AddTab(p, id, false).panel, id).panel == p
  {
    var q := AddTab(p, id, false).panel;
    RemoveTabKeepsOrder(q, id);
    assert IndexOf(q.tabs, id) == |p.tabs| by {
      assert q.tabs[|p.tabs|] == id;
      assert id !in q.tabs[..|p.tabs|] by {
        assert q.tabs[..|p.tabs|] == p.tabs;
      }
    }
    assert q.tabs[..|p.tabs|] == p.tabs;
  }

  /**
    Removing a tab that was added WITH activation does not give the focus back to the tab that
    was active before: it goes to the first tab.
  */
  lemma AddActivatedRemoveFocusesFirst(a: TabId, b: TabId, c: TabId)
    requires a != b && b != c && a != c
    ensures var p := Panel([a, b], Some(b));
            RemoveTab(AddTab(p, c, true).panel, c).panel == Panel([a, b], Some(a))
  {
    var q := AddTab(Panel([a, b], Some(b)), c, true).panel;
    assert q == Panel([a, b, c], Some(c));
    RemoveTabKeepsOrder(q, c);
    assert IndexOf(q.tabs, c) == 2;
    assert q.tabs[..2] == [a, b];
  }
}

=== FILE: dock_scenario.dfy ===
/**
  A worked session of the docking engine: two tabs opened in the initial panel, the second dragged
  onto the right edge of that panel, then the first closed.
*/
module DockScenario {
  import opened Wrappers
  import opened DockLayout
  import opened DockPanels
  import opened DockManager
  import opened DockDrag
  import opened Seqs

  const A := TabId(1)
  const B := TabId(2)

  /** The panel both tabs are opened in and dragged over: the whole 100 by 100 root panel. */
  const RootHit: Option<Hit> := Some(Hit(0, 0.0, 0.0, 100.0, 100.0))

  /** After opening A: the root panel holds A, active. */
  const OpenedA := Manager(Leaf(0), map[0 := Panel([A], Some(A))], 0, map[A := Item("A", 0, Dock)], 1, 1, None)

  /** After opening B with activation: A and B side by side in the root panel's tab bar, B active. */
  const OpenedB := Manager(Leaf(0), map[0 := Panel([A, B], Some(B))], 0,
    map[A := Item("A", 0, Dock), B := Item("B", 0, Dock)], 2, 1, None)

  /** B pressed at (50, 10), then dragged twice to (95, 50): the drag has started and aims at the right edge. */
  const Aimed := OpenedB.(drag := Some(DragState(B, 0, 50.0, 10.0, true, true, Some(DropTarget(0, Right)))))

  /** After the drop: the root is a horizontal split, A's panel left, B alone in a new panel 1 right. */
  const Dropped := Manager(Split(Horizontal, [Leaf(0), Leaf(1)]),
    map[0 := Panel([A], Some(A)), 1 := Panel([B], Some(B))], 1,
    map[A := Item("A", 0, Dock), B := Item("B", 1, Dock)], 2, 2, None)

  /**
    After closing A: panel 0 is emptied and leaves the split, but the root split is not collapsed;
    it keeps B's panel as its only child. The emptied panel stays in the store.
  */
  const Closed := Manager(Split(Horizontal, [Leaf(1)]),
    map[0 := Empty, 1 := Panel([B], Some(B))], 1, map[B := Item("B", 1, Dock)], 2, 2, None)

  /** Opening A in the initial state (renderer/docking.js:187-204). */
  lemma OpenFirst()
    ensures OpenTab(Initial, "A", true) == Opened(OpenedA, A)
  {
    InitialConsistent();
    assert [] + [A] == [A];
    var o := OpenTab(Initial, "A", true);
    assert TabTarget(Initial) == (Initial, 0);
    assert o.m.panels == OpenedA.panels;
    assert o.m.items == OpenedA.items;
  }

  /** Opening B with activation in the state after A (renderer/docking.js:187-204). */
  lemma OpenSecond()
    ensures OpenTab(OpenedA, "B", true) == Opened(OpenedB, B)
  {
    assert [A] + [B] == [A, B];
    var o := OpenTab(OpenedA, "B", true);
    assert TabTarget(OpenedA) == (OpenedA, 0);
    assert o.m.panels == OpenedB.panels;
    assert o.m.items == OpenedB.items;
  }

  /**
    Pressing B and moving past the 5 pixel threshold starts the drag; the next move over the right
    quarter of the root panel aims at its right edge (renderer/docking.js:255-268, 298-372).
  */
  lemma PressAndDrag()
    ensures var pressed := MouseDown(OpenedB, 0, B, 0, 50.0, 10.0);
      MouseMove(MouseMove(pressed, 95.0, 50.0, RootHit), 95.0, 50.0, RootHit) == Aimed
  {
    var pressed := MouseDown(OpenedB, 0, B, 0, 50.0, 10.0);
    assert pressed.panels == OpenedB.panels;
    assert ClassifyZone(95.0, 50.0, 100.0, 100.0) == Right;
  }

  /** Aimed, with B taken out of the root panel: A is left, and becomes the active tab. */
  const TakenOut := Aimed.(panels := map[0 := Panel([A], Some(A))])

  /** Taking B out of the root panel leaves A active there; the panel keeps a tab and stays. */
  lemma TakeOutB()
    ensures RemoveTabIn(Aimed, 0, B) == TakenOut
  {
    RemoveTabKeepsOrder(Aimed.panels[0], B);
    assert IndexOf(Aimed.panels[0].tabs, B) == 1;
    assert RemoveTab(Aimed.panels[0], B).panel == Panel([A], Some(A));
    assert RemoveTabIn(Aimed, 0, B).panels == TakenOut.panels;
  }

  /** B's new panel 1 beside panel 0, before the layout is rewired. */
  lemma MoveBIntoNew()
    ensures MoveIntoNew(TakenOut, B) == Dropped.(layout := Leaf(0), drag := Aimed.drag)
  {
    assert MoveIntoNew(TakenOut, B).panels == Dropped.panels;
    assert MoveIntoNew(TakenOut, B).items == Dropped.items;
  }

  /** Releasing over the right edge splits the root panel side by side (renderer/docking.js:374-438). */
  lemma DropRight()
    ensures MouseUp(Aimed) == Floated(Dropped, None)
  {
    assert Resolved(Aimed);
    assert !DropIgnored(Aimed, 0, DropTarget(0, Right));
    TakeOutB();
    MoveBIntoNew();
    assert HandleDrop(Aimed, B, 0, DropTarget(0, Right)) == Dropped.(drag := Aimed.drag);
  }

  /** The root split never collapses: removing one of two leaves keeps a one-child split (renderer/docking.js:38-48). */
  lemma RootKeepsSplit()
    ensures RemoveLeaf(Dropped.layout, 0, true) == Split(Horizontal, [Leaf(1)])
  {
    assert IndexOf(Dropped.layout.children, Leaf(0)) == 0;
    assert Dropped.layout.children[1..] == [Leaf(1)];
  }

  /** Every panel id of the state after the drop resolves in the store. */
  lemma DroppedResolved()
    ensures Resolved(Dropped)
  {
    assert Leaves(Dropped.layout) == {0, 1} by {
      LeavesOfChild(Horizontal, Dropped.layout.children, 0);
      LeavesOfChild(Horizontal, Dropped.layout.children, 1);
    }
  }

  /** Taking A out of its panel empties the panel, which has a parent split and leaves it (renderer/docking.js:103-124). */
  lemma EmptyLeft()
    ensures RemoveTabIn(Dropped, 0, A) == Closed.(items := Dropped.items)
  {
    RemoveTabKeepsOrder(Dropped.panels[0], A);
    assert Dropped.panels[0].tabs[1..] == [];
    assert RemoveTab(Dropped.panels[0], A) == Update(Empty, false);
    assert 0 in Leaves(Dropped.layout) by {
      LeavesOfChild(Horizontal, Dropped.layout.children, 0);
    }
    RootKeepsSplit();
    assert RemoveTabIn(Dropped, 0, A).panels == Closed.panels;
  }

  /** Closing A: the registry entry goes too (renderer/docking.js:206-217). */
  lemma CloseLeft()
    ensures Resolved(Dropped) && CloseTab(Dropped, A) == Closed
  {
    DroppedResolved();
    EmptyLeft();
    assert Dropped.items - {A} == Closed.items;
  }
}

=== FILE: feed.dfy ===
/**
  The main-process side of the Python sniffer plugin (plugins/python-sniffer/index.js:21-63): the
  sniffer's standard output arrives in chunks of arbitrary size; every chunk is appended to a
  buffer, the complete lines are cut off, and each line that reads as a packet becomes a record.
  The records of one chunk are sent to the renderer as one batch.
*/
module Feed {
  import opened Wrappers
  import opened Text
  import PacketLine
  import Sniffer

  /** `s.split('\n')`: the pieces between line feeds, always at least one. */
  function Split(s: string): (r: seq<string>)
    ensures |r| >= 1
  {
    if |s| == 0 then [""]
    else
      var rest := Split(s[1..]);
      if s[0] == '\n' then [""] + rest
      else [[s[0]] + rest[0]] + rest[1..]
  }

  /** `lines.join('\n')`. */
  function Join(lines: seq<string>): string
    requires |lines| >= 1
  {
    if |lines| == 1 then lines[0] else lines[0] + "\n" + Join(lines[1..])
  }

  /** No line holds a line feed. */
  predicate AllFree(lines: seq<string>) {
    forall i :: 0 <= i < |lines| ==> Free(lines[i], '\n')
  }

  /** Lines each followed by a line feed, as a program prints them. */
  function Terminated(lines: seq<string>): string {
    if |lines| == 0 then "" else lines[0] + "\n" + Terminated(lines[1..])
  }

  /** Joining the pieces of a split gives back the string. */
  lemma {:induction false} JoinSplit(s: string)
    ensures Join(Split(s)) == s
    ensures AllFree(Split(s))
  {
    if |s| > 0 {
      JoinSplit(s[1..]);
      var rest := Split(s[1..]);
      if s[0] != '\n' {
        if |rest| > 1 {
          assert Join(Split(s)) == [s[0]] + Join(rest) by {
            assert Split(s)[1..] == rest[1..];
          }
        }
        assert s == [s[0]] + s[1..];
      } else {
        assert Split(s)[1..] == rest;
      }
    }
  }

  /** A line free of line feeds followed by a line feed is split off as the first piece. */
  lemma {:induction false} SplitLine(a: string, t: string)
    requires Free(a, '\n')
    ensures Split(a + "\n" + t) == [a] + Split(t)
  {
    if |a| == 0 {
      assert a + "\n" + t == "\n" + t;
      assert ("\n" + t)[1..] == t;
    } else {
      SplitLine(a[1..], t);
      assert (a + "\n" + t)[1..] == a[1..] + "\n" + t;
      assert [a[0]] + a[1..] == a;
    }
  }

  /** A string free of line feeds is a single piece. */
  lemma {:induction false} SplitFree(a: string)
    requires Free(a, '\n')
    ensures Split(a) == [a]
  {
    if |a| > 0 {
      SplitFree(a[1..]);
      assert [a[0]] + a[1..] == a;
    }
  }

  /** Splitting a join of lines free of line feeds gives the lines back. */
  lemma {:induction false} SplitJoin(lines: seq<string>)
    requires |lines| >= 1 && AllFree(lines)
    ensures Split(Join(lines)) == lines
  {
    if |lines| == 1 {
      SplitFree(lines[0]);
    } else {
      SplitJoin(lines[1..]);
      SplitLine(lines[0], Join(lines[1..]));
    }
  }

  /** A join is the terminated lines followed by the last, unterminated, piece. */
  lemma {:induction false} JoinTerminated(lines: seq<string>)
    requires |lines| >= 1
    ensures Join(lines) == Terminated(lines[..|lines| - 1]) + lines[|lines| - 1]
  {
    if |lines| > 1 {
      JoinTerminated(lines[1..]);
      assert lines[1..][..|lines| - 2] == lines[..|lines| - 1][1..];
    }
  }

  /** Terminating distributes over concatenation. */
  lemma {:induction false} TerminatedAppend(a: seq<string>, b: seq<string>)
    ensures Terminated(a + b) == Terminated(a) + Terminated(b)
  {
    if |a| == 0 {
      assert a + b == b;
    } else {
      assert (a + b)[0] == a[0] && (a + b)[1..] == a[1..] + b;
      var x := a[0] + "\n";
      calc {
        Terminated(a + b);
        x + Terminated(a[1..] + b);
        { TerminatedAppend(a[1..], b); }
        x + (Terminated(a[1..]) + Terminated(b));
        { Associative(x, Terminated(a[1..]), Terminated(b)); }
        (x + Terminated(a[1..])) + Terminated(b);
      }
    }
  }

  /** String concatenation is associative. */
  lemma Associative(x: string, y: string, z: string)
    ensures x + (y + z) == (x + y) + z
  {
  }

  /** A split into terminated lines free of line feeds and a last piece free of them undoes the terminating. */
  lemma TerminatedSplit(lines: seq<string>, rest: string)
    requires AllFree(lines) && Free(rest, '\n')
    ensures Split(Terminated(lines) + rest) == lines + [rest]
  {
    var all := lines + [rest];
    assert all[..|lines|] == lines;
    JoinTerminated(all);
    SplitJoin(all);
  }

  /** The complete lines of a stream and the incomplete rest after the last line feed. */
  datatype Frame = Frame(lines: seq<string>, rest: string)

  /**
    What `split('\n')` followed by `pop()` leaves: every piece but the last is a complete line, the
    last is kept for the next chunk. The lines, each with its line feed, and the rest make up the
    input again.
  */
  function Cut(s: string): (r: Frame)
    ensures Terminated(r.lines) + r.rest == s
    ensures AllFree(r.lines) && Free(r.rest, '\n')
  {
    var pieces := Split(s);
    JoinSplit(s);
    JoinTerminated(pieces);
    Frame(pieces[..|pieces| - 1], pieces[|pieces| - 1])
  }

  /** `Cut` is the only way to write a string as terminated lines and a rest free of line feeds. */
  lemma CutUnique(s: string, lines: seq<string>, rest: string)
    requires AllFree(lines) && Free(rest, '\n') && Terminated(lines) + rest == s
    ensures Cut(s) == Frame(lines, rest)
  {
    var c := Cut(s);
    TerminatedSplit(lines, rest);
    TerminatedSplit(c.lines, c.rest);
    assert c.lines + [c.rest] == lines + [rest];
    assert c.lines == (c.lines + [c.rest])[..|c.lines|];
    assert lines == (lines + [rest])[..|lines|];
  }

  /** A string without a line feed is all rest. */
  lemma CutWhole(s: string)
    ensures Free(s, '\n') ==> Cut(s) == Frame([], s)
  {
    if Free(s, '\n') {
      CutUnique(s, [], s);
    }
  }

  /** A packet record as the plugin sends it, without the receive time. */
  datatype Packet = Packet(src: string, dst: string, protocol: string, length: nat, rawData: string)

  /**
    One line of the sniffer's output (plugins/python-sniffer/index.js:36-55): trimmed, skipped when
    empty or when the pattern does not match, otherwise the five groups with the length read as
    a decimal number.
  */
  function Record(line: string): Option<Packet> {
    var output := Trim(line);
    if output == "" then None
    else
      PacketLine.MatchLineDigits(output);
      match PacketLine.MatchLine(output)
      case None => None
      case Some(g) => Some(Packet(g.src, g.dst, g.protocol, FromBase(g.length, 10), g.rawData))
  }

  /** The records `read` makes of a sequence of lines, in order, lines without one left out. */
  function Collect(lines: seq<string>, read: string -> Option<Packet>): seq<Packet> {
    if |lines| == 0 then []
    else
      (match read(lines[0]) case None => [] case Some(p) => [p]) + Collect(lines[1..], read)
  }

  /** The records of two runs of lines are the records of the first followed by those of the second. */
  lemma {:induction false} CollectAppend(a: seq<string>, b: seq<string>, read: string -> Option<Packet>)
    ensures Collect(a + b, read) == Collect(a, read) + Collect(b, read)
  {
    if |a| == 0 {
      assert a + b == b;
    } else {
      assert (a + b)[0] == a[0] && (a + b)[1..] == a[1..] + b;
      CollectAppend(a[1..], b, read);
    }
  }

  /** What the data handler leaves behind: the new buffer and the batch sent to the renderer, if any. */
  datatype Step = Step(buffer: string, batch: Option<seq<Packet>>)

  /** The packets a step sends. */
  function Sent(step: Step): seq<Packet> {
    match step.batch
    case None => []
    case Some(packets) => packets
  }

  /**
    The `data` handler of the sniffer's standard output (plugins/python-sniffer/index.js:25-63):
    the chunk is appended to the buffer, the complete lines are read, and the incomplete rest is
    kept as the new buffer. A batch is sent only when it holds a packet.
  */
  function OnData(buffer: string, data: string): (r: Step)
    ensures Free(r.buffer, '\n')
    ensures |r.buffer| <= |buffer + data| && r.buffer == (buffer + data)[|buffer + data| - |r.buffer|..]
    ensures r.batch.Some? ==> |r.batch.value| > 0
    ensures Free(buffer + data, '\n') ==> r == Step(buffer + data, None)
  {
    var frame := Cut(buffer + data);
    CutWhole(buffer + data);
    var packets := Collect(frame.lines, Record);
    Step(frame.rest, if |packets| > 0 then Some(packets) else None)
  }

  /** The packets `OnData` sends are the records of the complete lines. */
  lemma SentRecords(buffer: string, data: string)
    ensures Sent(OnData(buffer, data)) == Collect(Cut(buffer + data).lines, Record)
  {
  }

  /**
    How the output is cut into chunks does not matter: feeding two chunks one after the other
    leaves the same buffer, and sends the same packets in the same order, as feeding them at once.
  */
  lemma FeedTwice(buffer: string, d1: string, d2: string)
    ensures var s1 := OnData(buffer, d1);
      var s2 := OnData(s1.buffer, d2);
      var s := OnData(buffer, d1 + d2);
      s2.buffer == s.buffer && Sent(s1) + Sent(s2) == Sent(s)
  {
    var f1 := Cut(buffer + d1);
    var f2 := Cut(f1.rest + d2);
    calc {
      Terminated(f1.lines + f2.lines) + f2.rest;
      { TerminatedAppend(f1.lines, f2.lines); }
      Terminated(f1.lines) + Terminated(f2.lines) + f2.rest;
      { Associative(Terminated(f1.lines), Terminated(f2.lines), f2.rest); }
      Terminated(f1.lines) + (f1.rest + d2);
      { Associative(Terminated(f1.lines), f1.rest, d2); }
      buffer + d1 + d2;
      { Associative(buffer, d1, d2); }
      buffer + (d1 + d2);
    }
    assert AllFree(f1.lines + f2.lines);
    CutUnique(buffer + (d1 + d2), f1.lines + f2.lines, f2.rest);
    CollectAppend(f1.lines, f2.lines, Record);
    SentRecords(buffer, d1);
    SentRecords(f1.rest, d2);
    SentRecords(buffer, d1 + d2);
  }

  /** Hex digits and dots only: what the sniffer prints for addresses and packet bytes. */
  predicate Plain(s: string) {
    forall i :: 0 <= i < |s| ==> IsHexDigit(s[i]) || s[i] == '.'
  }

  /** A plain string holds no comma and no line terminator. */
  lemma PlainReadable(s: string)
    requires Plain(s)
    ensures Free(s, ',') && Free(s, '\n') && PacketLine.AllOf(s, 0, |s|, PacketLine.IsDot)
  {
    forall k | 0 <= k < |s|
      ensures PacketLine.IsDot(s[k])
    {
      assert IsHexDigit(s[k]) || s[k] == '.';
    }
  }

  /** A dotted address is plain and not empty. */
  lemma DottedPlain(a: seq<Sniffer.Byte>)
    requires |a| == 4
    ensures |Sniffer.Dotted(a)| > 0 && Plain(Sniffer.Dotted(a))
  {
    var d := seq(4, i requires 0 <= i < 4 => ToBase(a[i] as nat, 10));
    assert Plain(d[3]) && Plain(d[2]) && Plain(d[1]) && Plain(d[0]);
    var t := d[2] + ("." + d[3]);
    assert Plain(t);
    var u := d[1] + ("." + t);
    assert Plain(u);
    assert Sniffer.Dotted(a) == d[0] + ("." + u);
  }

  /** A hex dump is plain. */
  lemma HexPlain(bytes: seq<Sniffer.Byte>)
    ensures Plain(Sniffer.Hex(bytes))
  {
    Sniffer.HexDigits(bytes);
  }

  /** A decimal number is digits only. */
  lemma DecimalDigits(n: nat)
    ensures PacketLine.AllOf(ToBase(n, 10), 0, |ToBase(n, 10)|, IsDigit)
  {
    var r := ToBase(n, 10);
    forall k | 0 <= k < |r|
      ensures IsDigit(r[k])
    {
      assert HexDigitValue(r[k]) < 10;
    }
  }

  /** Every protocol name the sniffer prints is non-empty and free of line terminators. */
  lemma ProtocolPrintable(protocol: nat, srcPort: Option<nat>, dstPort: Option<nat>)
    ensures var r := Sniffer.HighLevelProtocol(protocol, srcPort, dstPort);
      |r| > 0 && Free(r, '\n') && PacketLine.AllOf(r, 0, |r|, PacketLine.IsDot)
  {
    var r := Sniffer.HighLevelProtocol(protocol, srcPort, dstPort);
    if protocol != 1 && protocol != 6 && protocol != 17 && !Sniffer.Named(protocol) {
      var digits := ToBase(protocol, 10);
      assert r == Sniffer.UnknownOpen + digits + ")";
      forall k | 0 <= k < |r|
        ensures PacketLine.IsDot(r[k])
      {
        if k >= |Sniffer.UnknownOpen| && k < |r| - 1 {
          assert r[k] == digits[k - |Sniffer.UnknownOpen|];
        }
      }
    }
  }

  /** A line of readable fields holds no line feed. */
  lemma RenderFree(src: string, dst: string, protocol: string, length: string, rawData: string)
    requires Free(src, '\n') && Free(dst, '\n') && Free(protocol, '\n') && Free(length, '\n') && Free(rawData, '\n')
    ensures Free(PacketLine.Render(src, dst, protocol, length, rawData), '\n')
  {
    var x := PacketLine.Prefix + src;
    FreeAppend(PacketLine.Prefix, src, '\n');
    FreeAppend(x, PacketLine.DstSep, '\n');
    x := x + PacketLine.DstSep;
    FreeAppend(x, dst, '\n');
    x := x + dst;
    FreeAppend(x, PacketLine.ProtocolSep, '\n');
    x := x + PacketLine.ProtocolSep;
    FreeAppend(x, protocol, '\n');
    x := x + protocol;
    FreeAppend(x, PacketLine.LengthSep, '\n');
    x := x + PacketLine.LengthSep;
    FreeAppend(x, length, '\n');
    x := x + length;
    FreeAppend(x, PacketLine.RawSep, '\n');
    x := x + PacketLine.RawSep;
    FreeAppend(x, rawData, '\n');
  }

  /** A line of readable fields, trimmed and matched, gives back the fields as a record. */
  lemma RecordOfRender(src: string, dst: string, protocol: string, length: string, rawData: string)
    requires PacketLine.Readable(src, dst, protocol, length, rawData)
    requires Plain(rawData)
    ensures var line := PacketLine.Render(src, dst, protocol, length, rawData);
      Record(line) == Some(Packet(src, dst, protocol, FromBase(length, 10), rawData))
  {
    var line := PacketLine.Render(src, dst, protocol, length, rawData);
    assert line[0] == 'P';
    assert line[|line| - 1] == rawData[|rawData| - 1];
    TrimTrimmed(line);
    PacketLine.ParseRendered(src, dst, protocol, length, rawData);
  }

  /** The sniffer's line for a packet it keeps, as fields: the addresses of octets 12 and 16 in dotted form. */
  lemma PrintedLine(packet: seq<Sniffer.Byte>)
    requires !Sniffer.Dropped(packet)
    ensures var h := Sniffer.ParseHeader(packet).value;
      var protocol := Sniffer.HighLevelProtocol(h.protocol as nat, h.srcPort, h.dstPort);
      && h.src == Sniffer.Dotted(packet[12..16]) && h.dst == Sniffer.Dotted(packet[16..20])
      && Sniffer.PrintLine(packet).value == PacketLine.Render(h.src, h.dst, protocol, ToBase(|packet|, 10), Sniffer.Hex(packet))
  {
  }

  /** Two addresses, a printable protocol name, a length and a hex dump of some octets make readable fields. */
  lemma ReadableFields(a: seq<Sniffer.Byte>, b: seq<Sniffer.Byte>, protocol: string, bytes: seq<Sniffer.Byte>)
    requires |a| == 4 && |b| == 4 && |bytes| > 0
    requires |protocol| > 0 && Free(protocol, '\n') && PacketLine.AllOf(protocol, 0, |protocol|, PacketLine.IsDot)
    ensures var src := Sniffer.Dotted(a);
      var dst := Sniffer.Dotted(b);
      var length := ToBase(|bytes|, 10);
      var hex := Sniffer.Hex(bytes);
      && PacketLine.Readable(src, dst, protocol, length, hex) && Plain(hex)
      && Free(src, '\n') && Free(dst, '\n') && Free(length, '\n') && Free(hex, '\n')
  {
    DottedPlain(a);
    DottedPlain(b);
    PlainReadable(Sniffer.Dotted(a));
    PlainReadable(Sniffer.Dotted(b));
    HexPlain(bytes);
    PlainReadable(Sniffer.Hex(bytes));
    DecimalDigits(|bytes|);
  }

  /**
    The line the sniffer prints for a packet it keeps reads back as the record of that packet:
    its addresses, protocol and hex dump as printed, and its length as a number.
  */
  lemma LineRecord(packet: seq<Sniffer.Byte>)
    requires !Sniffer.Dropped(packet)
    ensures var h := Sniffer.ParseHeader(packet).value;
      var protocol := Sniffer.HighLevelProtocol(h.protocol as nat, h.srcPort, h.dstPort);
      var line := Sniffer.PrintLine(packet).value;
      Free(line, '\n') && Record(line) == Some(Packet(h.src, h.dst, protocol, |packet|, Sniffer.Hex(packet)))
  {
    var h := Sniffer.ParseHeader(packet).value;
    var protocol := Sniffer.HighLevelProtocol(h.protocol as nat, h.srcPort, h.dstPort);
    var length := ToBase(|packet|, 10);
    var hex := Sniffer.Hex(packet);
    PrintedLine(packet);
    ProtocolPrintable(h.protocol as nat, h.srcPort, h.dstPort);
    ReadableFields(packet[12..16], packet[16..20], protocol, packet);
    RenderFree(h.src, h.dst, protocol, length, hex);
    RecordOfRender(h.src, h.dst, protocol, length, hex);
    ToBaseRoundTrip(|packet|, 10);
  }

  /** A single complete line fed to an empty buffer is sent as a batch of its record, if it has one. */
  lemma OneLine(line: string, record: Packet)
    requires Free(line, '\n') && Record(line) == Some(record)
    ensures OnData("", line + "\n") == Step("", Some([record]))
  {
    var s := "" + (line + "\n");
    assert Terminated([line]) + "" == s;
    CutUnique(s, [line], "");
    var f := Cut(s);
    assert f.lines == [line] && f.rest == "";
    assert Collect(f.lines, Record) == [record] + Collect([], Record) == [record];
  }

  /**
    End to end: when the sniffer prints the line for a packet it keeps, the plugin sends a batch
    holding exactly that packet's record and is left with an empty buffer.
  */
  lemma ReadPrinted(packet: seq<Sniffer.Byte>)
    requires !Sniffer.Dropped(packet)
    ensures var h := Sniffer.ParseHeader(packet).value;
      var protocol := Sniffer.HighLevelProtocol(h.protocol as nat, h.srcPort, h.dstPort);
      OnData("", Sniffer.PrintLine(packet).value + "\n") == Step("", Some([Packet(h.src, h.dst, protocol, |packet|, Sniffer.Hex(packet))]))
  {
    var h := Sniffer.ParseHeader(packet).value;
    var protocol := Sniffer.HighLevelProtocol(h.protocol as nat, h.srcPort, h.dstPort);
    LineRecord(packet);
    OneLine(Sniffer.PrintLine(packet).value, Packet(h.src, h.dst, protocol, |packet|, Sniffer.Hex(packet)));
  }
}

=== FILE: grapher.dfy ===
/**
  The traffic grapher's data pipeline (plugins/traffic-grapher/renderer.js:41-223 and the tooltip
  at 234-253): the captured packets are filtered by the text typed into the filter box, grouped
  into one-second buckets by their time stamps, the seconds between the first and the last bucket
  are filled with zero points, and the points are scaled against the largest one. Drawing on the
  canvas is not modelled; what is modelled is which points get drawn and where the labels and the
  tooltip read them.
*/
module Grapher {
  import opened Wrappers
  import opened Text
  import opened Seqs

  /**
    A captured packet as the grapher reads it. A field the packet lacks is the empty string, and
    `time` is the millisecond time stamp `parseTime` gives, absent when the packet has none or it
    does not parse.
  */
  datatype Packet = Packet(protocol: string, src: string, dst: string, time: Option<int>, length: nat)

  // ---------------------------------------------------------------- filter

  /** The filter box's text as the filter uses it: trimmed and lower-cased. */
  function FilterText(input: string): string {
    Lower(Trim(input))
  }

  /**
    The filter's test of one packet: an empty filter keeps everything; otherwise the lower-cased
    protocol, the source or the destination must contain the filter text.
  */
  predicate Matches(p: Packet, ft: string) {
    || ft == ""
    || (|p.protocol| > 0 && Contains(Lower(p.protocol), ft))
    || (|p.src| > 0 && Contains(p.src, ft))
    || (|p.dst| > 0 && Contains(p.dst, ft))
  }

  /** `allPackets.filter(...)`: the packets that match, in capture order. */
  function Filter(packets: seq<Packet>, ft: string): (r: seq<Packet>)
    ensures |r| <= |packets|
    ensures forall p :: p in r <==> p in packets && Matches(p, ft)
  {
    if |packets| == 0 then []
    else
      var rest := Filter(packets[..|packets| - 1], ft);
      var p := packets[|packets| - 1];
      assert packets == packets[..|packets| - 1] + [p];
      if Matches(p, ft) then rest + [p] else rest
  }

  /** One more packet at the end is kept after the others exactly when it passes. */
  lemma FilterStep(s: seq<Packet>, ft: string)
    requires |s| > 0
    ensures Filter(s, ft) == Filter(s[..|s| - 1], ft) + (if Matches(s[|s| - 1], ft) then [s[|s| - 1]] else [])
  {
  }

  /**
    The filter keeps every matching packet, duplicates included, in capture order: filtering a
    concatenation filters each part, and a single packet is kept exactly when it matches.
  */
  lemma {:induction false} FilterKeepsOrder(a: seq<Packet>, b: seq<Packet>, ft: string)
    ensures Filter(a + b, ft) == Filter(a, ft) + Filter(b, ft)
    ensures |b| == 1 ==> Filter(b, ft) == if Matches(b[0], ft) then b else []
  {
    if |b| == 0 {
      assert a + b == a;
    } else {
      var c, x := b[..|b| - 1], b[|b| - 1];
      FilterKeepsOrder(a, c, ft);
      var tail := if Matches(x, ft) then [x] else [];
      assert Filter(a + b, ft) == Filter(a + c, ft) + tail by {
        FilterStep(a + b, ft);
        assert (a + b)[..|a + b| - 1] == a + c && (a + b)[|a + b| - 1] == x;
      }
      assert Filter(b, ft) == Filter(c, ft) + tail by {
        FilterStep(b, ft);
      }
      AppendRegroup(Filter(a, ft), Filter(c, ft), tail);
    }
    if |b| == 1 {
      assert Filter(b, ft) == if Matches(b[0], ft) then b else [] by {
        FilterStep(b, ft);
        assert b[..0] == [];
      }
    }
  }

  /** A filter box left blank or holding only white space shows every packet, in order. */
  lemma {:induction false} FilterBlank(packets: seq<Packet>, input: string)
    requires Trim(input) == ""
    ensures Filter(packets, FilterText(input)) == packets
  {
    if |packets| > 0 {
      FilterBlank(packets[..|packets| - 1], input);
      assert packets == packets[..|packets| - 1] + [packets[|packets| - 1]];
    }
  }

  /** The protocol is compared without regard to ASCII case: typing `tcp` or `TCP` finds a packet whose protocol contains `Tcp`. */
  lemma ProtocolCaseBlind(p: Packet, input: string)
    requires Trim(input) != "" && Contains(Lower(p.protocol), FilterText(input))
    ensures Matches(p, FilterText(input)) && Matches(p.(protocol := Upper(p.protocol)), FilterText(input))
  {
    var ft := FilterText(input);
    var i :| OccursAt(Lower(p.protocol), ft, i);
    assert Lower(Upper(p.protocol)) == Lower(p.protocol);
    assert OccursAt(Lower(Upper(p.protocol)), ft, i);
  }

  // ---------------------------------------------------------------- buckets

  /** `Math.floor(timestamp / 1000) * 1000`: the start of the second holding `ts` (Dafny's `/` by a positive divisor is the floor). */
  function Second(ts: int): int {
    (ts / 1000) * 1000
  }

  /** The second is a whole second at or before the time stamp, less than a second before it. */
  lemma SecondFloor(ts: int)
    ensures Second(ts) <= ts < Second(ts) + 1000
    ensures Second(ts) % 1000 == 0
    ensures forall s :: s % 1000 == 0 && s <= ts ==> s <= Second(ts)
  {
  }

  /** The running totals of one second. */
  datatype Bucket = Bucket(bytes: nat, count: nat)

  /** `timeBuckets.get(t) || { bytes: 0, count: 0 }`, the bytes part. */
  function BytesAt(buckets: map<int, Bucket>, t: int): nat {
    if t in buckets then buckets[t].bytes else 0
  }

  /** The count part of the same lookup. */
  function CountAt(buckets: map<int, Bucket>, t: int): nat {
    if t in buckets then buckets[t].count else 0
  }

  /** One step of the `forEach`: a packet without a time stamp is skipped, any other adds its length and one to its second. */
  function Add(buckets: map<int, Bucket>, p: Packet): map<int, Bucket> {
    match p.time
    case None => buckets
    case Some(ts) =>
      var s := Second(ts);
      buckets[s := Bucket(BytesAt(buckets, s) + p.length, CountAt(buckets, s) + 1)]
  }

  /** The buckets after the packets were added in order. */
  function Buckets(packets: seq<Packet>): map<int, Bucket> {
    if |packets| == 0 then map[]
    else Add(Buckets(packets[..|packets| - 1]), packets[|packets| - 1])
  }

  /** Whether `p` has a time stamp in second `s`. */
  predicate InSecond(p: Packet, s: int) {
    p.time.Some? && Second(p.time.value) == s
  }

  /** How many of the packets have a time stamp in second `s`. */
  function CountIn(packets: seq<Packet>, s: int): nat {
    if |packets| == 0 then 0
    else CountIn(packets[..|packets| - 1], s) + (if InSecond(packets[|packets| - 1], s) then 1 else 0)
  }

  /** The total length of the packets with a time stamp in second `s`. */
  function BytesIn(packets: seq<Packet>, s: int): nat {
    if |packets| == 0 then 0
    else BytesIn(packets[..|packets| - 1], s) + (if InSecond(packets[|packets| - 1], s) then packets[|packets| - 1].length else 0)
  }

  /** The total length of the packets that have a time stamp. */
  function TimedBytes(packets: seq<Packet>): nat {
    if |packets| == 0 then 0
    else TimedBytes(packets[..|packets| - 1]) + (if packets[|packets| - 1].time.Some? then packets[|packets| - 1].length else 0)
  }

  /**
    The buckets hold exactly the seconds some packet falls into, and each bucket counts the
    packets of its second and sums their lengths; a second without a bucket reads as zero.
  */
  lemma {:induction false} BucketsAgree(packets: seq<Packet>)
    ensures forall s :: s in Buckets(packets) <==> CountIn(packets, s) > 0
    ensures forall s :: BytesAt(Buckets(packets), s) == BytesIn(packets, s)
    ensures forall s :: CountAt(Buckets(packets), s) == CountIn(packets, s)
  {
    if |packets| > 0 {
      BucketsAgree(packets[..|packets| - 1]);
    }
  }

  /** A second that holds a packet is a whole second. */
  lemma {:induction false} CountedWhole(packets: seq<Packet>, s: int)
    requires CountIn(packets, s) > 0
    ensures s % 1000 == 0
  {
    var last := packets[|packets| - 1];
    if !InSecond(last, s) {
      CountedWhole(packets[..|packets| - 1], s);
    } else {
      SecondFloor(last.time.value);
    }
  }

  // ---------------------------------------------------------------- time range

  /** `minTime` and `maxTime` after the `forEach`: absent while they are still the infinities. */
  function Range(packets: seq<Packet>): Option<(int, int)> {
    if |packets| == 0 then None
    else
      var r := Range(packets[..|packets| - 1]);
      match packets[|packets| - 1].time
      case None => r
      case Some(ts) =>
        var s := Second(ts);
        match r
        case None => Some((s, s))
        case Some((lo, hi)) => Some((if s < lo then s else lo, if s > hi then s else hi))
  }

  /** Some packet has a time stamp. */
  predicate AnyTimed(packets: seq<Packet>) {
    exists i :: 0 <= i < |packets| && packets[i].time.Some?
  }

  /**
    The range is absent exactly when no packet has a time stamp; otherwise both ends are seconds
    that hold a packet and every time-stamped packet falls between them.
  */
  lemma {:induction false} RangeSpans(packets: seq<Packet>)
    ensures Range(packets).Some? <==> AnyTimed(packets)
    ensures Range(packets).Some? ==>
      var (lo, hi) := Range(packets).value;
      && CountIn(packets, lo) > 0 && CountIn(packets, hi) > 0
      && forall i :: 0 <= i < |packets| && packets[i].time.Some? ==> lo <= Second(packets[i].time.value) <= hi
  {
    if |packets| > 0 {
      var init := packets[..|packets| - 1];
      var last := packets[|packets| - 1];
      RangeSpans(init);
      assert forall i :: 0 <= i < |init| ==> init[i] == packets[i];
      if last.time.Some? {
        assert packets[|packets| - 1].time.Some?;
      } else if AnyTimed(packets) {
        var i :| 0 <= i < |packets| && packets[i].time.Some?;
        assert i < |init| && init[i].time.Some?;
      }
    }
  }

  // ---------------------------------------------------------------- gap filling

  /** One point of the graph: a second and the bytes captured in it. */
  datatype Point = Point(time: int, value: nat)

  /** `t` is one of the `n` seconds counted from `lo`. */
  predicate OnGrid(t: int, lo: int, n: nat) {
    lo <= t && (t - lo) % 1000 == 0 && (t - lo) / 1000 < n
  }

  /** Point `i` is second `lo + 1000 i` with the bytes of its bucket, zero when there is none. */
  predicate Plotted(points: seq<Point>, buckets: map<int, Bucket>, lo: int) {
    forall i :: 0 <= i < |points| ==> points[i] == Point(lo + 1000 * i, BytesAt(buckets, lo + 1000 * i))
  }

  /** `d / 1000` pinned down by bounds on `d`. */
  lemma DivideBy1000(d: int, m: int)
    requires 1000 * m <= d < 1000 * (m + 1)
    ensures d / 1000 == m && d % 1000 == d - 1000 * m
  {
  }

  /**
    The gap-filling loop: one point per second from `lo` up to and including `hi`, each with the
    bytes of its bucket or zero.
  */
  method FillGaps(buckets: map<int, Bucket>, lo: int, hi: int) returns (points: seq<Point>)
    ensures |points| == if lo <= hi then (hi - lo) / 1000 + 1 else 0
    ensures Plotted(points, buckets, lo)
  {
    points := [];
    var t := lo;
    while t <= hi
      invariant t == lo + 1000 * |points|
      invariant |points| == 0 || lo + 1000 * (|points| - 1) <= hi
      invariant Plotted(points, buckets, lo)
      decreases hi - t + 1000
    {
      points := points + [Point(t, BytesAt(buckets, t))];
      t := t + 1000;
    }
    if lo <= hi {
      DivideBy1000(hi - lo, |points| - 1);
    }
  }

  /** The sum of the points' values. */
  function Total(points: seq<Point>): nat {
    if |points| == 0 then 0 else Total(points[..|points| - 1]) + points[|points| - 1].value
  }

  /** The bytes of the first `n` seconds counted from `lo`. */
  function GridBytes(packets: seq<Packet>, lo: int, n: nat): nat {
    if n == 0 then 0 else GridBytes(packets, lo, n - 1) + BytesIn(packets, lo + 1000 * (n - 1))
  }

  /** What one packet contributes to the first `n` seconds counted from `lo`. */
  function Hit(p: Packet, lo: int, n: nat): nat {
    if n == 0 then 0 else Hit(p, lo, n - 1) + (if InSecond(p, lo + 1000 * (n - 1)) then p.length else 0)
  }

  /** A packet counts once on the grid when its second lies on it and not at all otherwise. */
  lemma {:induction false} HitOnce(p: Packet, lo: int, n: nat)
    ensures Hit(p, lo, n) == if p.time.Some? && OnGrid(Second(p.time.value), lo, n) then p.length else 0
  {
    if n > 0 {
      HitOnce(p, lo, n - 1);
      if p.time.Some? {
        var d := Second(p.time.value) - lo;
        if d == 1000 * (n - 1) {
          DivideBy1000(d, n - 1);
        } else if 0 <= d {
          var m := d / 1000;
          DivideBy1000(d, m);
        }
      }
    }
  }

  /** Adding a packet adds its hits to the grid's bytes. */
  lemma {:induction false} GridSnoc(packets: seq<Packet>, p: Packet, lo: int, n: nat)
    ensures GridBytes(packets + [p], lo, n) == GridBytes(packets, lo, n) + Hit(p, lo, n)
  {
    if n > 0 {
      GridSnoc(packets, p, lo, n - 1);
      assert (packets + [p])[..|packets|] == packets;
    }
  }

  /** The grid of no packets is empty. */
  lemma {:induction false} GridEmpty(lo: int, n: nat)
    ensures GridBytes([], lo, n) == 0
  {
    if n > 0 {
      GridEmpty(lo, n - 1);
    }
  }

  /** When every time-stamped packet falls on the grid, the grid holds all their bytes. */
  lemma {:induction false} GridTotal(packets: seq<Packet>, lo: int, n: nat)
    requires forall i :: 0 <= i < |packets| && packets[i].time.Some? ==> OnGrid(Second(packets[i].time.value), lo, n)
    ensures GridBytes(packets, lo, n) == TimedBytes(packets)
  {
    if |packets| == 0 {
      GridEmpty(lo, n);
    } else {
      var init := packets[..|packets| - 1];
      var last := packets[|packets| - 1];
      assert forall i :: 0 <= i < |init| ==> init[i] == packets[i];
      GridTotal(init, lo, n);
      assert packets == init + [last];
      GridSnoc(init, last, lo, n);
      HitOnce(last, lo, n);
    }
  }

  /** The points' values add up to the grid's bytes. */
  lemma {:induction false} TotalGrid(points: seq<Point>, packets: seq<Packet>, lo: int)
    requires Plotted(points, Buckets(packets), lo)
    ensures Total(points) == GridBytes(packets, lo, |points|)
  {
    if |points| > 0 {
      assert Plotted(points[..|points| - 1], Buckets(packets), lo);
      TotalGrid(points[..|points| - 1], packets, lo);
      BucketsAgree(packets);
    }
  }

  /** A whole second between two whole seconds lies on the grid between them. */
  lemma WholeOnGrid(s: int, lo: int, hi: int)
    requires lo <= s <= hi && s % 1000 == 0 && lo % 1000 == 0
    ensures OnGrid(s, lo, (hi - lo) / 1000 + 1)
  {
    DivideBy1000(s - lo, (s - lo) / 1000);
    DivideBy1000(hi - lo, (hi - lo) / 1000);
  }

  /** The grid from one whole second to a later one ends on the later one. */
  lemma GridEnds(lo: int, hi: int)
    requires lo <= hi && lo % 1000 == 0 && hi % 1000 == 0
    ensures lo + 1000 * ((hi - lo) / 1000) == hi
  {
    DivideBy1000(hi - lo, (hi - lo) / 1000);
  }

  /**
    No traffic is lost or counted twice: the filled points between the first and the last second
    add up to the lengths of all time-stamped packets.
  */
  lemma NoBytesLost(packets: seq<Packet>, points: seq<Point>)
    requires Range(packets).Some?
    requires |points| == (Range(packets).value.1 - Range(packets).value.0) / 1000 + 1
    requires Plotted(points, Buckets(packets), Range(packets).value.0)
    ensures Total(points) == TimedBytes(packets)
  {
    var (lo, hi) := Range(packets).value;
    RangeSpans(packets);
    CountedWhole(packets, lo);
    CountedWhole(packets, hi);
    forall i | 0 <= i < |packets| && packets[i].time.Some?
      ensures OnGrid(Second(packets[i].time.value), lo, |points|)
    {
      SecondFloor(packets[i].time.value);
      WholeOnGrid(Second(packets[i].time.value), lo, hi);
    }
    TotalGrid(points, packets, lo);
    GridTotal(packets, lo, |points|);
  }

  // ---------------------------------------------------------------- scale and labels

  /** The largest value, zero for no points. */
  function Peak(points: seq<Point>): (m: nat)
    ensures forall i :: 0 <= i < |points| ==> points[i].value <= m
    ensures |points| == 0 ==> m == 0
    ensures |points| > 0 ==> exists i :: 0 <= i < |points| && points[i].value == m
  {
    if |points| == 0 then 0
    else
      var m := Peak(points[..|points| - 1]);
      var v := points[|points| - 1].value;
      if v > m then v else m
  }

  /**
    The top of the vertical scale: the largest value, or 100 when every value is zero, so the
    scale is never degenerate.
  */
  function MaxValue(points: seq<Point>): (m: nat)
    ensures m > 0
    ensures forall i :: 0 <= i < |points| ==> points[i].value <= m
    ensures (forall i :: 0 <= i < |points| ==> points[i].value == 0) ==> m == 100
    ensures (exists i :: 0 <= i < |points| && points[i].value > 0) ==> exists i :: 0 <= i < |points| && points[i].value == m
  {
    var m := Peak(points);
    if m == 0 then 100 else m
  }

  /** Labels along the time axis at most. */
  const XSteps := 5

  /** `Math.max(1, Math.ceil(n / 5))`: how many points apart two time labels are. */
  function LabelStep(n: nat): nat {
    var c := (n + XSteps - 1) / XSteps;
    if c < 1 then 1 else c
  }

  /** The indices `i = from, from + step, ...` below `n` that the label loop visits. */
  function LabelsFrom(from: nat, n: nat, step: nat): (r: seq<nat>)
    requires step >= 1
    decreases n - from
  {
    if from < n then [from] + LabelsFrom(from + step, n, step) else []
  }

  /** The label loop's indices: from `from` on, `step` apart, all below `n`, and `ceil((n - from) / step)` of them. */
  lemma {:induction false} LabelsSpaced(from: nat, n: nat, step: nat)
    requires step >= 1
    ensures var r := LabelsFrom(from, n, step);
      && |r| == (if from < n then (n - from + step - 1) / step else 0)
      && forall k :: 0 <= k < |r| ==> r[k] == from + k * step && r[k] < n
    decreases n - from
  {
    if from < n {
      LabelsSpaced(from + step, n, step);
      var r := LabelsFrom(from, n, step);
      var rest := LabelsFrom(from + step, n, step);
      var c := (n - from - 1) / step;
      DivStep(n - from - 1, step);
      assert |rest| == c;
      assert (n - from + step - 1) / step == c + 1 by {
        DivShift(n - from - 1, step);
      }
      forall k | 0 <= k < |r|
        ensures r[k] == from + k * step && r[k] < n
      {
        if k > 0 {
          assert r[k] == rest[k - 1];
        }
      }
    }
  }

  /** Multiplying by a non-negative factor keeps the order. */
  lemma MulLe(a: int, b: int, c: nat)
    ensures a <= b ==> a * c <= b * c
  {
    var e := b - a;
    assert b * c == a * c + e * c;
  }

  /** A quotient and remainder pinned down by one decomposition of `d`. */
  lemma DivUnique(d: int, step: nat, q: int, r: int)
    requires step >= 1 && 0 <= r < step && d == q * step + r
    ensures d / step == q
  {
    var q' := d / step;
    MulLe(q' + 1, q, step);
    MulLe(q + 1, q', step);
    assert (q' + 1) * step == q' * step + step;
    assert (q + 1) * step == q * step + step;
  }

  /** Taking the divisor off lowers the quotient by one, and a dividend below the divisor gives zero. */
  lemma DivStep(d: nat, step: nat)
    requires step >= 1
    ensures d < step ==> d / step == 0
    ensures d >= step ==> (d - step) / step == d / step - 1
  {
    if d < step {
      DivUnique(d, step, 0, d);
    } else {
      var q := (d - step) / step;
      var r := (d - step) % step;
      assert (q + 1) * step == q * step + step;
      DivUnique(d, step, q + 1, r);
    }
  }

  /** Adding the divisor adds one to the quotient. */
  lemma DivShift(d: nat, step: nat)
    requires step >= 1
    ensures (d + step) / step == d / step + 1
  {
    var q := d / step;
    var r := d % step;
    assert (q + 1) * step == q * step + step;
    DivUnique(d + step, step, q + 1, r);
  }

  /**
    The time axis carries at most five labels, the first at the first point, each at an existing
    point.
  */
  lemma LabelsFew(n: nat)
    ensures LabelStep(n) >= 1
    ensures var r := LabelsFrom(0, n, LabelStep(n));
      && |r| <= XSteps
      && (n > 0 ==> r[0] == 0)
      && forall k :: 0 <= k < |r| ==> r[k] < n
  {
    var step := LabelStep(n);
    LabelsSpaced(0, n, step);
    if n > 0 {
      var c := (n + XSteps - 1) / XSteps;
      assert n <= XSteps * step;
      assert n + step - 1 < (XSteps + 1) * step;
      DivBelow(n + step - 1, step, XSteps + 1);
    }
  }

  /** A quotient below its bound. */
  lemma DivBelow(d: nat, step: nat, k: nat)
    requires step >= 1 && d < k * step
    ensures d / step < k
  {
    var q := d / step;
    assert q * step <= d;
    MulLe(k, q, step);
  }

  /** The filled points run from the first second to the last and carry all the time-stamped bytes. */
  lemma PointsSpan(packets: seq<Packet>, points: seq<Point>)
    requires Range(packets).Some?
    requires var (lo, hi) := Range(packets).value;
      && |points| == (if lo <= hi then (hi - lo) / 1000 + 1 else 0)
      && Plotted(points, Buckets(packets), lo)
    ensures var (lo, hi) := Range(packets).value;
      && |points| >= 1 && points[0].time == lo && points[|points| - 1].time == hi
      && Total(points) == TimedBytes(packets)
  {
    var (lo, hi) := Range(packets).value;
    RangeSpans(packets);
    CountedWhole(packets, lo);
    CountedWhole(packets, hi);
    GridEnds(lo, hi);
    NoBytesLost(packets, points);
  }

  // ---------------------------------------------------------------- draw

  /** What one draw leaves for the labels and the tooltip. */
  datatype Chart = Chart(points: seq<Point>, maxValue: nat, labelStep: nat)

  /**
    One call of `drawGraph`: no new chart is plotted when nothing was captured, when the filter
    leaves nothing or when no packet it leaves has a time stamp (the first two clear the canvas
    and show a message, the last returns early and leaves the previous chart up); otherwise the
    chart holds one point per second from the first time-stamped second to the last, carrying all
    their bytes.
  */
  method Draw(captured: Option<seq<Packet>>, input: string) returns (r: Option<Chart>)
    ensures r.Some? <==> captured.Some? && AnyTimed(Filter(captured.value, FilterText(input)))
    ensures r.Some? ==>
      var shown := Filter(captured.value, FilterText(input));
      var c := r.value;
      && Range(shown).Some? && |c.points| >= 1
      && c.points[0].time == Range(shown).value.0
      && c.points[|c.points| - 1].time == Range(shown).value.1
      && Total(c.points) == TimedBytes(shown)
      && Plotted(c.points, Buckets(shown), Range(shown).value.0)
      && (forall i :: 0 <= i < |c.points| ==> c.points[i].value <= c.maxValue)
      && c.maxValue == MaxValue(c.points)
      && c.labelStep == LabelStep(|c.points|) && c.labelStep >= 1
  {
    if captured.None? || |captured.value| == 0 {
      return None;
    }
    var shown := Filter(captured.value, FilterText(input));
    if |shown| == 0 {
      return None;
    }
    var buckets := Buckets(shown);
    var range := Range(shown);
    RangeSpans(shown);
    if range.None? {
      return None;
    }
    var (lo, hi) := range.value;
    var points := FillGaps(buckets, lo, hi);
    PointsSpan(shown, points);
    LabelsFew(|points|);
    return Some(Chart(points, MaxValue(points), LabelStep(|points|)));
  }

  // ---------------------------------------------------------------- tooltip

  /** The plot area's margins in pixels. */
  const PadLeft: real := 60.0
  const PadRight: real := 20.0
  const PadTop: real := 20.0
  const PadBottom: real := 30.0

  /** `Math.round`: the nearest integer, halves rounded up. */
  function Round(x: real): int {
    (x + 0.5).Floor
  }

  /**
    The point the tooltip shows for the mouse at `(x, y)` on a canvas of the given size, or none:
    outside the plot area nothing is shown; inside, the horizontal position picks the nearest of
    the `n` points. A plot area of width zero gives JavaScript's `NaN` index, which fails the
    bounds test.
  */
  function Hover(n: nat, width: real, height: real, x: real, y: real): Option<int> {
    var graphWidth := width - PadLeft - PadRight;
    if n == 0 then None
    else if x < PadLeft || x > PadLeft + graphWidth || y < PadTop || y > height - PadBottom then None
    else if graphWidth == 0.0 then None
    else
      var index := Round((x - PadLeft) / graphWidth * (n - 1) as real);
      if 0 <= index < n then Some(index) else None
  }

  /**
    Over a plot area of positive width, every mouse position inside it shows a point (the bounds
    test never fails), and the point is the one nearest the mouse: within half a point spacing.
  */
  lemma HoverNearest(n: nat, width: real, height: real, x: real, y: real)
    requires n > 0 && width > PadLeft + PadRight
    requires PadLeft <= x <= width - PadRight && PadTop <= y <= height - PadBottom
    ensures Hover(n, width, height, x, y).Some?
    ensures var i := Hover(n, width, height, x, y).value;
      var pos := (x - PadLeft) / (width - PadLeft - PadRight) * (n - 1) as real;
      0 <= i < n && -0.5 < i as real - pos <= 0.5
  {
    var graphWidth := width - PadLeft - PadRight;
    var ratio := (x - PadLeft) / graphWidth;
    UnitRatio(x - PadLeft, graphWidth);
    var pos := ratio * (n - 1) as real;
    ScaleUnit(ratio, (n - 1) as real);
    assert 0 <= Round(pos) < n;
  }

  /** A part of a positive whole is a fraction between zero and one. */
  lemma UnitRatio(u: real, g: real)
    requires g > 0.0 && 0.0 <= u <= g
    ensures 0.0 <= u / g <= 1.0
  {
  }

  /** Scaling by a fraction between zero and one stays between zero and the scaled number. */
  lemma ScaleUnit(r: real, b: real)
    requires 0.0 <= r <= 1.0 && b >= 0.0
    ensures 0.0 <= r * b <= b
  {
    assert b - r * b == (1.0 - r) * b;
  }

  /** Outside the plot area, and over a plot area too narrow to have a width, no tooltip shows. */
  lemma HoverOutside(n: nat, width: real, height: real, x: real, y: real)
    requires x < PadLeft || y < PadTop || y > height - PadBottom || width <= PadLeft + PadRight
    ensures Hover(n, width, height, x, y).None?
  {
  }
}

=== FILE: hex_dump.dfy ===
/**
  The packet visualizer's `hexDump` (plugins/packet-visualizer/renderer.js:66-90): a hex string is
  cut into lines of 32 hex characters (16 bytes), each shown as an offset column, a column of 16
  byte slots and the bytes as printable characters, wrapped in the visualizer's `span` markup.
*/
module HexDump {
  import opened Wrappers
  import opened Text

  /** Hex characters per line: 16 bytes. */
  const LineWidth := 32

  /** Byte slots in the hex column of every line. */
  const Slots := 16

  /** A non-empty run of hex digits that does not start with the `0x` prefix `parseInt` drops. */
  predicate AllHex(s: string) {
    && |s| > 0 && (forall i :: 0 <= i < |s| ==> IsHexDigit(s[i]))
    && !(|s| >= 2 && s[0] == '0' && (s[1] == 'x' || s[1] == 'X'))
  }

  /** Length of the run of hex digits `s` starts with. */
  function HexRun(s: string): nat {
    if |s| > 0 && IsHexDigit(s[0]) then 1 + HexRun(s[1..]) else 0
  }

  /** `HexRun` measures the longest prefix of hex digits. */
  lemma {:induction false} HexRunLongest(s: string)
    ensures HexRun(s) <= |s|
    ensures forall i :: 0 <= i < HexRun(s) ==> IsHexDigit(s[i])
    ensures HexRun(s) < |s| ==> !IsHexDigit(s[HexRun(s)])
  {
    if |s| > 0 && IsHexDigit(s[0]) {
      HexRunLongest(s[1..]);
    }
  }

  /** `t` without the one leading sign `parseInt` reads. */
  function StripSign(t: string): string {
    if |t| > 0 && (t[0] == '-' || t[0] == '+') then t[1..] else t
  }

  /** `u` without the `0x` or `0X` prefix `parseInt` drops in base 16. */
  function StripPrefix(u: string): string {
    if |u| >= 2 && u[0] == '0' && (u[1] == 'x' || u[1] == 'X') then u[2..] else u
  }

  /**
    JavaScript's `parseInt(s, 16)`: leading white space is skipped, one sign is read, a `0x` or
    `0X` prefix is dropped, and the longest run of hex digits that follows is the value; with no
    digit the result is `NaN`, here `None`.
  */
  function ParseIntHex(s: string): Option<int> {
    var t := TrimStart(s);
    var v := StripPrefix(StripSign(t));
    var n := HexRun(v);
    HexRunLongest(v);
    if n == 0 then None
    else
      var value: int := FromBase(v[..n], 16);
      if |t| > 0 && t[0] == '-' then Some(-value) else Some(value)
  }

  /** A run of hex digits without a `0x` prefix reads as its value in base 16. */
  lemma ParseIntHexDigits(s: string)
    requires AllHex(s)
    ensures ParseIntHex(s) == Some(FromBase(s, 16))
  {
    assert !IsJsSpace(s[0]);
    assert TrimStart(s) == s;
    assert StripPrefix(StripSign(s)) == s;
    HexRunLongest(s);
    assert HexRun(s) == |s|;
    assert s[..|s|] == s;
  }

  /** JavaScript's `padStart(n, c)`: `c` repeated in front until the length reaches `n`. */
  function PadStart(s: string, n: nat, c: char): (r: string)
    ensures |r| == if |s| >= n then |s| else n
    ensures r == Repeat(c, |r| - |s|) + s
  {
    if |s| >= n then
      assert s == [] + s;
      s
    else Repeat(c, n - |s|) + s
  }

  /** `c` repeated `n` times. */
  function Repeat(c: char, n: nat): (r: string)
    ensures |r| == n && forall i :: 0 <= i < n ==> r[i] == c
  {
    seq(n, _ => c)
  }

  /** The offset column of line `k`: the byte offset `16 k` in lower-case hex, zero-padded to 4 digits. */
  function Offset(k: nat): string {
    PadStart(ToBase(16 * k, 16), 4, '0')
  }

  /** Line `k`'s chunk of the hex string: `hex.substr(32 k, 32)`. */
  function Chunk(hex: string, k: nat): (c: string)
    ensures |c| <= LineWidth
  {
    var i := LineWidth * k;
    if i >= |hex| then [] else hex[i..if i + LineWidth <= |hex| then i + LineWidth else |hex|]
  }

  /** The two hex characters of slot `j` of a chunk: `chunk.substr(2 j, 2)`, one at the end of an odd chunk. */
  function Piece(chunk: string, j: nat): string
    requires 2 * j < |chunk|
  {
    chunk[2 * j..if 2 * j + 2 <= |chunk| then 2 * j + 2 else |chunk|]
  }

  /** The text of slot `j`: the piece and a space, or three spaces past the end of the chunk. */
  function Slot(chunk: string, j: nat): string {
    if 2 * j < |chunk| then Piece(chunk, j) + " " else "   "
  }

  /** The character the visualizer shows for a piece: the code `parseInt(piece, 16)` when it is printable (32 to 126), else `.`. */
  function ShownChar(piece: string): char {
    match ParseIntHex(piece)
    case Some(code) => if 32 <= code <= 126 then code as char else '.'
    case None => '.'
  }

  /** The value of a piece of two hex digits. */
  function ByteValue(piece: string): nat
    requires |piece| == 2 && IsHexDigit(piece[0]) && IsHexDigit(piece[1])
  {
    16 * HexDigitValue(piece[0]) + HexDigitValue(piece[1])
  }

  /**
    The character column's entry for a piece, read directly: a byte written as two hex digits
    shows as itself when printable, and anything else as `.`. `AsciiCharShows` proves this is
    what `ShownChar` computes through `parseInt`.
  */
  function AsciiChar(piece: string): (c: char)
    ensures c == '.' || 32 <= c as int <= 126
  {
    if |piece| == 2 && IsHexDigit(piece[0]) && IsHexDigit(piece[1]) && 32 <= ByteValue(piece) <= 126
    then ByteValue(piece) as char
    else '.'
  }

  /** The hex column after the first `n` slots. */
  function HexColumn(chunk: string, n: nat): string {
    if n == 0 then "" else HexColumn(chunk, n - 1) + Slot(chunk, n - 1)
  }

  /** The character column after the first `n` slots: one character per slot the chunk reaches. */
  function AsciiColumn(chunk: string, n: nat): string {
    if n == 0 then ""
    else AsciiColumn(chunk, n - 1) + (if 2 * (n - 1) < |chunk| then [AsciiChar(Piece(chunk, n - 1))] else "")
  }

  /** The markup around the three columns of a line. */
  const OpenOffset := "<span class=\"hex-offset\">"
  const OpenBytes := "</span>  <span class=\"hex-bytes\">"
  const OpenAscii := "</span>  <span class=\"hex-ascii\">"
  const Close := "</span>"

  /** Line `k` of the dump without its newline. */
  function LineBody(hex: string, k: nat): string {
    var chunk := Chunk(hex, k);
    OpenOffset + Offset(k) + OpenBytes + HexColumn(chunk, Slots) + OpenAscii + AsciiColumn(chunk, Slots) + Close
  }

  /** The number of lines: one per started run of 32 hex characters. */
  function LineCount(hex: string): nat {
    (|hex| + LineWidth - 1) / LineWidth
  }

  /** Line bodies, each followed by a newline. */
  function Join(bodies: seq<string>): string {
    if |bodies| == 0 then "" else Join(bodies[..|bodies| - 1]) + bodies[|bodies| - 1] + "\n"
  }

  /** The bodies of the first `n` lines. */
  function Bodies(hex: string, n: nat): (r: seq<string>)
    ensures |r| == n
  {
    seq(n, k requires 0 <= k < n => LineBody(hex, k))
  }

  /** The whole dump; the empty string gives the empty dump. */
  function Dump(hex: string): string {
    Join(Bodies(hex, LineCount(hex)))
  }

  /** One more line appends its body and a newline. */
  lemma BodiesStep(hex: string, k: nat)
    ensures Join(Bodies(hex, k + 1)) == Join(Bodies(hex, k)) + LineBody(hex, k) + "\n"
  {
    assert Bodies(hex, k + 1)[..k] == Bodies(hex, k);
  }

  /** The columns of one chunk: the inner loop of `hexDump` over the 16 slots. */
  method Columns(chunk: string) returns (hexBytes: string, ascii: string)
    ensures hexBytes == HexColumn(chunk, Slots)
    ensures ascii == AsciiColumn(chunk, Slots)
  {
    hexBytes := "";
    ascii := "";
    var j := 0;
    ghost var s := 0;
    while j < LineWidth
      invariant j == 2 * s && s <= Slots
      invariant hexBytes == HexColumn(chunk, s)
      invariant ascii == AsciiColumn(chunk, s)
    {
      ColumnsStep(chunk, s);
      if j < |chunk| {
        var byteHex := chunk[j..if j + 2 <= |chunk| then j + 2 else |chunk|];
        hexBytes := hexBytes + (byteHex + " ");
        ascii := ascii + [ShownChar(byteHex)];
      } else {
        hexBytes := hexBytes + "   ";
      }
      j := j + 2;
      s := s + 1;
    }
  }

  /** One pass of the inner loop of `hexDump`, at character `2 s` of the chunk, extends both columns by slot `s`. */
  lemma ColumnsStep(chunk: string, s: nat)
    ensures var j := 2 * s;
      if j < |chunk| then
        var byteHex := chunk[j..if j + 2 <= |chunk| then j + 2 else |chunk|];
        && HexColumn(chunk, s + 1) == HexColumn(chunk, s) + (byteHex + " ")
        && AsciiColumn(chunk, s + 1) == AsciiColumn(chunk, s) + [ShownChar(byteHex)]
      else
        && HexColumn(chunk, s + 1) == HexColumn(chunk, s) + "   "
        && AsciiColumn(chunk, s + 1) == AsciiColumn(chunk, s)
  {
    SlotStep(chunk, s);
    if 2 * s < |chunk| {
      AsciiCharShows(Piece(chunk, s));
    }
  }

  /** One more slot extends both columns by that slot's text. */
  lemma SlotStep(chunk: string, s: nat)
    ensures HexColumn(chunk, s + 1) == HexColumn(chunk, s) + Slot(chunk, s)
    ensures 2 * s < |chunk| ==> AsciiColumn(chunk, s + 1) == AsciiColumn(chunk, s) + [AsciiChar(Piece(chunk, s))]
    ensures 2 * s >= |chunk| ==> AsciiColumn(chunk, s + 1) == AsciiColumn(chunk, s)
  {
    if 2 * s >= |chunk| {
      assert AsciiColumn(chunk, s) + "" == AsciiColumn(chunk, s);
    }
  }

  /**
    `hexDump` as the visualizer runs it: an outer loop over the chunks, each line assembled from
    the offset and the two columns and appended to the output.
  */
  method HexDumpLoop(hex: string) returns (output: string)
    ensures output == Dump(hex)
    ensures hex == "" ==> output == ""
  {
    output := "";
    if |hex| == 0 {
      return;
    }
    var i := 0;
    ghost var k := 0;
    while i < |hex|
      invariant i == LineWidth * k && (k == 0 || LineWidth * (k - 1) < |hex|)
      invariant output == Join(Bodies(hex, k))
      decreases |hex| - i
    {
      var chunk := hex[i..if i + LineWidth <= |hex| then i + LineWidth else |hex|];
      var offset := PadStart(ToBase(i / 2, 16), 4, '0');
      LineStart(hex, k);
      var hexBytes, ascii := Columns(chunk);
      var line := OpenOffset + offset + OpenBytes + hexBytes + OpenAscii + ascii + Close;
      assert line == LineBody(hex, k);
      BodiesStep(hex, k);
      output := output + line + "\n";
      i := i + LineWidth;
      k := k + 1;
    }
    LineCountExact(hex, k);
  }

  /** The chunk and offset the outer loop computes at `i = 32 k` are line `k`'s. */
  lemma LineStart(hex: string, k: nat)
    requires LineWidth * k < |hex|
    ensures var i := LineWidth * k;
      && hex[i..if i + LineWidth <= |hex| then i + LineWidth else |hex|] == Chunk(hex, k)
      && PadStart(ToBase(i / 2, 16), 4, '0') == Offset(k)
  {
    assert (LineWidth * k) / 2 == 16 * k;
  }

  /** `k` lines are needed exactly when the last of them starts inside the string and they cover it. */
  lemma LineCountExact(hex: string, k: nat)
    requires LineWidth * k >= |hex| && (k == 0 || LineWidth * (k - 1) < |hex|)
    ensures LineCount(hex) == k
  {
  }

  /** The offset column has at least four digits and reads back, as `parseInt(_, 16)`, as the byte offset `16 k`. */
  lemma OffsetRoundTrip(k: nat)
    ensures |Offset(k)| >= 4
    ensures ParseIntHex(Offset(k)) == Some(16 * k)
  {
    var d := ToBase(16 * k, 16);
    var o := Offset(k);
    ToBaseRoundTrip(16 * k, 16);
    var z := |o| - |d|;
    assert o == Repeat('0', z) + d;
    ZerosHex(d, z);
    assert AllHex(o) by {
      assert |o| >= 2 ==> o[1] != 'x' && o[1] != 'X';
    }
    ParseIntHexDigits(o);
    ZerosRead(d, z);
  }

  /** Leading zeros do not change the value of a run of hex digits. */
  lemma {:induction false} ZerosRead(d: string, z: nat)
    requires forall i :: 0 <= i < |d| ==> IsHexDigit(d[i])
    ensures FromBase(Repeat('0', z) + d, 16) == FromBase(d, 16)
  {
    if z > 0 {
      ZerosRead(d, z - 1);
      var e := Repeat('0', z - 1) + d;
      assert Repeat('0', z) + d == "0" + e by {
        assert Repeat('0', z) == "0" + Repeat('0', z - 1);
      }
      assert forall i :: 0 <= i < |e| ==> IsHexDigit(e[i]) by {
        forall i | 0 <= i < |e|
          ensures IsHexDigit(e[i])
        {
          if i >= z - 1 {
            assert e[i] == d[i - (z - 1)];
          }
        }
      }
      LeadingZero(e, 16);
    } else {
      assert Repeat('0', z) + d == d;
    }
  }

  /** Zeros in front of hex digits leave a string of hex digits. */
  lemma ZerosHex(d: string, z: nat)
    requires forall i :: 0 <= i < |d| ==> IsHexDigit(d[i])
    ensures forall i :: 0 <= i < z + |d| ==> IsHexDigit((Repeat('0', z) + d)[i])
  {
    var o := Repeat('0', z) + d;
    forall i | 0 <= i < |o|
      ensures IsHexDigit(o[i])
    {
      if i >= z {
        assert o[i] == d[i - z];
      }
    }
  }

  /**
    `parseInt` agrees with the direct reading on every piece `hexDump` cuts: the character column
    shows a byte as itself exactly when its slot holds two hex digits of a printable value; a lone
    final digit, or a piece that does not start with two hex digits, shows `.` whatever `parseInt`
    makes of it (white space, a sign, the `0x` prefix, a single digit, or `NaN`).
  */
  lemma AsciiCharShows(piece: string)
    requires 1 <= |piece| <= 2
    ensures ShownChar(piece) == AsciiChar(piece)
  {
    if |piece| == 2 && IsHexDigit(piece[0]) && IsHexDigit(piece[1]) {
      ParseIntHexDigits(piece);
      assert piece[..|piece| - 1] == [piece[0]];
      assert [piece[0]][..0] == [];
      assert FromBase([piece[0]], 16) == HexDigitValue(piece[0]);
      assert FromBase(piece, 16) == 16 * HexDigitValue(piece[0]) + HexDigitValue(piece[1]);
    } else {
      SmallPiece(piece);
    }
  }

  /** A piece that is not two hex digits parses, if at all, to a single digit's value. */
  lemma SmallPiece(piece: string)
    requires 1 <= |piece| <= 2
    requires !(|piece| == 2 && IsHexDigit(piece[0]) && IsHexDigit(piece[1]))
    ensures ParseIntHex(piece).None? || -16 < ParseIntHex(piece).value < 16
  {
    var t := TrimStart(piece);
    TrimStartStrips(piece);
    var v := StripPrefix(StripSign(t));
    var n := HexRun(v);
    HexRunLongest(v);
    if |piece| == 2 && !IsJsSpace(piece[0]) && piece[0] != '-' && piece[0] != '+' {
      assert t == piece;
      if IsHexDigit(piece[0]) {
        assert !IsHexDigit(piece[1]);
        assert v == piece || v == [];
      } else {
        assert v == piece;
      }
    } else if |piece| == 2 && IsJsSpace(piece[0]) {
      assert t == TrimStart(piece[1..]);
      TrimStartStrips(piece[1..]);
    }
    assert n <= 1;
    if n == 1 {
      assert v[..1] == [v[0]];
      assert FromBase(v[..1], 16) == HexDigitValue(v[0]);
    }
  }

  /** The hex column holds no newline when its chunk holds none. */
  lemma {:induction false} HexColumnNoNewline(chunk: string, n: nat)
    requires Free(chunk, '\n')
    ensures Free(HexColumn(chunk, n), '\n')
  {
    if n > 0 {
      HexColumnNoNewline(chunk, n - 1);
      var slot := Slot(chunk, n - 1);
      assert Free(slot, '\n');
      FreeAppend(HexColumn(chunk, n - 1), slot, '\n');
    }
  }

  /** The character column never holds a newline. */
  lemma {:induction false} AsciiColumnNoNewline(chunk: string, n: nat)
    ensures Free(AsciiColumn(chunk, n), '\n')
  {
    if n > 0 {
      AsciiColumnNoNewline(chunk, n - 1);
      if 2 * (n - 1) < |chunk| {
        var c := AsciiChar(Piece(chunk, n - 1));
        FreeAppend(AsciiColumn(chunk, n - 1), [c], '\n');
      }
    }
  }

  /** The offset column is made of hex digits only. */
  lemma OffsetNoNewline(k: nat)
    ensures Free(Offset(k), '\n')
  {
    var d := ToBase(16 * k, 16);
    var o := Offset(k);
    assert o == Repeat('0', |o| - |d|) + d;
    assert Free(d, '\n');
    FreeAppend(Repeat('0', |o| - |d|), d, '\n');
  }

  /** The markup around the columns holds no newline. */
  lemma MarkupNoNewline()
    ensures Free(OpenOffset, '\n') && Free(OpenBytes, '\n') && Free(OpenAscii, '\n') && Free(Close, '\n')
  {
  }

  /** A concatenation of seven parts is free of `c` when every part is. */
  lemma FreeAppendSeven(a: string, b: string, d: string, e: string, f: string, g: string, h: string, c: char)
    requires Free(a, c) && Free(b, c) && Free(d, c) && Free(e, c) && Free(f, c) && Free(g, c) && Free(h, c)
    ensures Free(a + b + d + e + f + g + h, c)
  {
    FreeAppend(a, b, c);
    FreeAppend(a + b, d, c);
    FreeAppend(a + b + d, e, c);
    FreeAppend(a + b + d + e, f, c);
    FreeAppend(a + b + d + e + f, g, c);
    FreeAppend(a + b + d + e + f + g, h, c);
  }

  /** A line's body holds no newline when the hex string holds none. */
  lemma BodyNoNewline(hex: string, k: nat)
    requires Free(hex, '\n')
    ensures Free(LineBody(hex, k), '\n')
  {
    var chunk := Chunk(hex, k);
    assert Free(chunk, '\n');
    HexColumnNoNewline(chunk, Slots);
    AsciiColumnNoNewline(chunk, Slots);
    OffsetNoNewline(k);
    MarkupNoNewline();
    FreeAppendSeven(OpenOffset, Offset(k), OpenBytes, HexColumn(chunk, Slots), OpenAscii, AsciiColumn(chunk, Slots), Close, '\n');
  }

  /** Joining bodies free of newlines gives one newline per body, the last character among them. */
  lemma {:induction false} JoinNewlines(bodies: seq<string>)
    requires forall i :: 0 <= i < |bodies| ==> Free(bodies[i], '\n')
    ensures Count(Join(bodies), '\n') == |bodies|
    ensures |bodies| > 0 ==> Join(bodies)[|Join(bodies)| - 1] == '\n'
  {
    if |bodies| > 0 {
      var prev := bodies[..|bodies| - 1];
      var last := bodies[|bodies| - 1];
      JoinNewlines(prev);
      CountAbsent(last, '\n');
      CountAppend(Join(prev), last, '\n');
      CountAppend(Join(prev) + last, "\n", '\n');
    }
  }

  /** A hex string without newlines dumps to `ceil(|hex| / 32)` lines, each ending with a newline. */
  lemma DumpLines(hex: string)
    requires Free(hex, '\n')
    ensures Count(Dump(hex), '\n') == (|hex| + 31) / 32
    ensures |hex| > 0 ==> Dump(hex)[|Dump(hex)| - 1] == '\n'
  {
    var bodies := Bodies(hex, LineCount(hex));
    forall i | 0 <= i < |bodies|
      ensures Free(bodies[i], '\n')
    {
      BodyNoNewline(hex, i);
    }
    JoinNewlines(bodies);
  }

  /**
    Every hex column has 16 slots: for a chunk of whole bytes, slot `j` is the 3 characters at
    `3 j`, holding byte `j` and a space, or three spaces past the end of the chunk. (A chunk of odd
    length, which `packet.hex()` never produces, ends in a slot of only its lone digit and a space,
    so its column is one character short; this lemma does not cover that case.)
  */
  lemma {:induction false} HexColumnSlots(chunk: string, bytes: nat, n: nat)
    requires |chunk| == 2 * bytes && bytes <= n
    ensures |HexColumn(chunk, n)| == 3 * n
    ensures forall j :: 0 <= j < n ==>
      HexColumn(chunk, n)[3 * j..3 * j + 3] == if j < bytes then chunk[2 * j..2 * j + 2] + " " else "   "
  {
    if n == bytes {
      HexColumnFull(chunk, n);
    } else {
      HexColumnSlots(chunk, bytes, n - 1);
      var prev := HexColumn(chunk, n - 1);
      var col := HexColumn(chunk, n);
      assert col == prev + "   ";
      forall j | 0 <= j < n
        ensures col[3 * j..3 * j + 3] == if j < bytes then chunk[2 * j..2 * j + 2] + " " else "   "
      {
        if j < n - 1 {
          assert col[3 * j..3 * j + 3] == prev[3 * j..3 * j + 3];
        } else {
          assert col[3 * j..] == "   ";
        }
      }
    }
  }

  /** The slots before the end of a chunk of whole bytes hold its bytes, each followed by a space. */
  lemma {:induction false} HexColumnFull(chunk: string, n: nat)
    requires 2 * n <= |chunk|
    ensures |HexColumn(chunk, n)| == 3 * n
    ensures forall j :: 0 <= j < n ==> HexColumn(chunk, n)[3 * j..3 * j + 3] == chunk[2 * j..2 * j + 2] + " "
  {
    if n > 0 {
      HexColumnFull(chunk, n - 1);
      var prev := HexColumn(chunk, n - 1);
      var last := chunk[2 * (n - 1)..2 * n] + " ";
      assert HexColumn(chunk, n) == prev + last by {
        SlotStep(chunk, n - 1);
      }
      forall j | 0 <= j < n
        ensures (prev + last)[3 * j..3 * j + 3] == chunk[2 * j..2 * j + 2] + " "
      {
        if j < n - 1 {
          SliceBefore(prev, last, 3 * j, 3 * j + 3);
        } else {
          SliceAfter(prev, last, 3 * j);
        }
      }
    }
  }

  /** A slice that lies in the first part of a concatenation. */
  lemma SliceBefore(a: string, b: string, i: nat, j: nat)
    requires i <= j <= |a|
    ensures (a + b)[i..j] == a[i..j]
  {
  }

  /** The second part of a concatenation, sliced from where the first part ends. */
  lemma SliceAfter(a: string, b: string, i: nat)
    requires i == |a|
    ensures (a + b)[i..i + |b|] == b
  {
  }

  /**
    The character column has one character per slot the chunk reaches: half the chunk's length,
    rounded up, once the slots cover the chunk.
  */
  lemma {:induction false} AsciiColumnLength(chunk: string, n: nat)
    ensures |chunk| <= 2 * n ==> |chunk| <= 2 * |AsciiColumn(chunk, n)| <= |chunk| + 1
    ensures 2 * n < |chunk| ==> |AsciiColumn(chunk, n)| == n
  {
    if n > 0 {
      AsciiColumnLength(chunk, n - 1);
    }
  }
}

=== FILE: packet_line.dfy ===
/**
  The regular expression the sniffer's Node wrapper matches each output line against
  (plugins/python-sniffer/index.js:42): the literal `Packet: src_ip=`, a lazy group of one or more
  characters, `, dst_ip=`, another lazy group, `, protocol=`, a greedy group, `, length=`, a
  greedy group of decimal digits, `, raw_data=` and a last greedy group.

  It is unanchored, so the match may start anywhere in the line; the first two groups are lazy,
  the next three greedy, and `.` matches every character but a line terminator. A backtracking
  matcher tries start positions from the left, and for each the ends of the groups in the order
  their quantifiers prefer: shortest first for the lazy groups, longest first for the greedy
  ones. The match it returns is the first that succeeds in that order.
*/
module PacketLine {
  import opened Wrappers
  import opened Text

  const Prefix := "Packet: src_ip="
  const DstSep := ", dst_ip="
  const ProtocolSep := ", protocol="
  const LengthSep := ", length="
  const RawSep := ", raw_data="

  /** The characters `.` matches. */
  predicate IsDot(c: char) {
    !IsLineTerminator(c)
  }

  /** Every character of `s[from..to]` satisfies `p`. */
  predicate AllOf(s: string, from: nat, to: nat, p: char -> bool)
    requires from <= to <= |s|
  {
    forall k {:trigger p(s[k])} :: from <= k < to ==> p(s[k])
  }

  /** The end of the run of characters satisfying `p` that starts at `from`. */
  function RunEnd(s: string, from: nat, p: char -> bool): (r: nat)
    requires from <= |s|
    ensures from <= r <= |s|
    ensures forall e :: from <= e <= |s| ==> (AllOf(s, from, e, p) <==> e <= r)
    decreases |s| - from
  {
    if from == |s| || !p(s[from]) then from
    else
      var r := RunEnd(s, from + 1, p);
      assert forall e :: from + 1 <= e <= |s| ==> (AllOf(s, from, e, p) <==> AllOf(s, from + 1, e, p));
      r
  }

  /** The least `x` in `[lo, hi)` satisfying `p`. */
  function SearchUp(lo: nat, hi: nat, p: nat -> bool): (r: Option<nat>)
    ensures r.Some? ==> lo <= r.value < hi && p(r.value) && forall y :: lo <= y < r.value ==> !p(y)
    ensures r.None? ==> forall y :: lo <= y < hi ==> !p(y)
    decreases hi - lo
  {
    if lo >= hi then None
    else if p(lo) then Some(lo)
    else SearchUp(lo + 1, hi, p)
  }

  /** The greatest `x` in `[lo, hi)` satisfying `p`. */
  function SearchDown(lo: nat, hi: nat, p: nat -> bool): (r: Option<nat>)
    ensures r.Some? ==> lo <= r.value < hi && p(r.value) && forall y :: r.value < y < hi ==> !p(y)
    ensures r.None? ==> forall y :: lo <= y < hi ==> !p(y)
    decreases hi - lo
  {
    if lo >= hi then None
    else if p(hi - 1) then Some(hi - 1)
    else SearchDown(lo, hi - 1, p)
  }

  /** The fifth group can start at `p5`: `(.+)` needs one character. */
  predicate Ok5(s: string, p5: nat) {
    p5 < |s| && IsDot(s[p5])
  }

  /** `(\d+), raw_data=(.+)` matches from `p4` with the digits ending at `e4`. */
  predicate Ok4(s: string, p4: nat, e4: nat) {
    p4 < e4 <= |s| && AllOf(s, p4, e4, IsDigit) && OccursAt(s, RawSep, e4) && Ok5(s, e4 + |RawSep|)
  }

  /** `(.+), length=` and the rest match from `p3`, the third group ending at `e3`. */
  predicate Ok3(s: string, p3: nat, e3: nat, e4: nat) {
    p3 < e3 <= |s| && AllOf(s, p3, e3, IsDot) && OccursAt(s, LengthSep, e3) && Ok4(s, e3 + |LengthSep|, e4)
  }

  /** `(.+?), protocol=` and the rest match from `p2`, the second group ending at `e2`. */
  predicate Ok2(s: string, p2: nat, e2: nat, e3: nat, e4: nat) {
    p2 < e2 <= |s| && AllOf(s, p2, e2, IsDot) && OccursAt(s, ProtocolSep, e2) && Ok3(s, e2 + |ProtocolSep|, e3, e4)
  }

  /** `(.+?), dst_ip=` and the rest match from `p1`, the first group ending at `e1`. */
  predicate Ok1(s: string, p1: nat, e1: nat, e2: nat, e3: nat, e4: nat) {
    p1 < e1 <= |s| && AllOf(s, p1, e1, IsDot) && OccursAt(s, DstSep, e1) && Ok2(s, e1 + |DstSep|, e2, e3, e4)
  }

  /** Where a match starts and where its first four groups end. */
  datatype Match = Match(start: nat, e1: nat, e2: nat, e3: nat, e4: nat)

  /** The whole pattern matches at `m.start` with the groups ending as `m` says. */
  predicate MatchAt(s: string, m: Match) {
    OccursAt(s, Prefix, m.start) && Ok1(s, m.start + |Prefix|, m.e1, m.e2, m.e3, m.e4)
  }

  /**
    `m` comes no later than `n` in the matcher's order: earlier start, then shorter lazy groups,
    then longer greedy groups.
  */
  predicate Precedes(m: Match, n: Match) {
    || m.start < n.start
    || (m.start == n.start && m.e1 < n.e1)
    || (m.start == n.start && m.e1 == n.e1 && m.e2 < n.e2)
    || (m.start == n.start && m.e1 == n.e1 && m.e2 == n.e2 && m.e3 > n.e3)
    || (m.start == n.start && m.e1 == n.e1 && m.e2 == n.e2 && m.e3 == n.e3 && m.e4 >= n.e4)
  }

  /** Digits ending at `e` are followed by `, raw_data=` and a character. */
  function Accepts4(s: string): nat -> bool {
    e => OccursAt(s, RawSep, e) && Ok5(s, e + |RawSep|)
  }

  /** A third group ending at `e` is followed by `, length=` and an accepted digit group. */
  function Accepts3(s: string): nat -> bool {
    e => OccursAt(s, LengthSep, e) && Best4(s, e + |LengthSep|).Some?
  }

  /** A second group ending at `e` is followed by `, protocol=` and an accepted rest. */
  function Accepts2(s: string): nat -> bool {
    e => OccursAt(s, ProtocolSep, e) && Best3(s, e + |ProtocolSep|).Some?
  }

  /** A first group ending at `e` is followed by `, dst_ip=` and an accepted rest. */
  function Accepts1(s: string): nat -> bool {
    e => OccursAt(s, DstSep, e) && Best2(s, e + |DstSep|).Some?
  }

  /** The pattern's literal start at `i` is followed by an accepted rest. */
  function Accepts0(s: string): nat -> bool {
    i => OccursAt(s, Prefix, i) && Best1(s, i + |Prefix|).Some?
  }

  /** The longest digit group from `p4` that the rest of the pattern accepts. */
  function Best4(s: string, p4: nat): Option<nat> {
    if p4 >= |s| then None
    else SearchDown(p4 + 1, RunEnd(s, p4, IsDigit) + 1, Accepts4(s))
  }

  /** The longest third group from `p3` that the rest of the pattern accepts, with the digit group it leaves. */
  function Best3(s: string, p3: nat): Option<(nat, nat)> {
    if p3 >= |s| then None
    else
      match SearchDown(p3 + 1, RunEnd(s, p3, IsDot) + 1, Accepts3(s))
      case None => None
      case Some(e3) => Some((e3, Best4(s, e3 + |LengthSep|).value))
  }

  /** The shortest second group from `p2` that the rest of the pattern accepts, with the group ends it leaves. */
  function Best2(s: string, p2: nat): Option<(nat, nat, nat)> {
    if p2 >= |s| then None
    else
      match SearchUp(p2 + 1, RunEnd(s, p2, IsDot) + 1, Accepts2(s))
      case None => None
      case Some(e2) =>
        var rest := Best3(s, e2 + |ProtocolSep|).value;
        Some((e2, rest.0, rest.1))
  }

  /** The shortest first group from `p1` that the rest of the pattern accepts, with the group ends it leaves. */
  function Best1(s: string, p1: nat): Option<(nat, nat, nat, nat)> {
    if p1 >= |s| then None
    else
      match SearchUp(p1 + 1, RunEnd(s, p1, IsDot) + 1, Accepts1(s))
      case None => None
      case Some(e1) =>
        var rest := Best2(s, e1 + |DstSep|).value;
        Some((e1, rest.0, rest.1, rest.2))
  }

  /** The match a backtracking matcher finds, trying start positions from the left. */
  function Find(s: string): Option<Match> {
    match SearchUp(0, |s| + 1, Accepts0(s))
    case None => None
    case Some(i) =>
      var e := Best1(s, i + |Prefix|).value;
      Some(Match(i, e.0, e.1, e.2, e.3))
  }

  /** What `Best4` finds is a digit group the rest of the pattern accepts. */
  lemma Best4Sound(s: string, p4: nat)
    ensures Best4(s, p4).Some? ==> Ok4(s, p4, Best4(s, p4).value)
  {
  }

  /** Every digit group the rest accepts is found, and none is longer than the one `Best4` picks. */
  lemma Best4Longest(s: string, p4: nat, f: nat)
    requires Ok4(s, p4, f)
    ensures Best4(s, p4).Some? && f <= Best4(s, p4).value
  {
    assert AllOf(s, p4, f, IsDigit);
    assert Accepts4(s)(f);
  }

  /** What `Best3` finds is a third group, and a digit group after it, the pattern accepts. */
  lemma Best3Sound(s: string, p3: nat)
    ensures Best3(s, p3).Some? ==> Ok3(s, p3, Best3(s, p3).value.0, Best3(s, p3).value.1)
  {
    if p3 < |s| {
      var r := SearchDown(p3 + 1, RunEnd(s, p3, IsDot) + 1, Accepts3(s));
      if r.Some? {
        var e3 := r.value;
        assert Accepts3(s)(e3);
        Best4Sound(s, e3 + |LengthSep|);
        assert AllOf(s, p3, e3, IsDot);
        assert Ok3(s, p3, e3, Best4(s, e3 + |LengthSep|).value);
      }
    }
  }

  /** Every accepted pair of third and digit groups is found; `Best3` picks the longest third group, then the longest digits. */
  lemma Best3Longest(s: string, p3: nat, e: nat, f: nat)
    requires Ok3(s, p3, e, f)
    ensures var r := Best3(s, p3);
      r.Some? && (e < r.value.0 || (e == r.value.0 && f <= r.value.1))
  {
    Best4Longest(s, e + |LengthSep|, f);
    assert AllOf(s, p3, e, IsDot);
    assert Accepts3(s)(e);
  }

  /** What `Best2` finds is an accepted choice of the second and later groups. */
  lemma Best2Sound(s: string, p2: nat)
    ensures var r := Best2(s, p2);
      r.Some? ==> Ok2(s, p2, r.value.0, r.value.1, r.value.2)
  {
    if Best2(s, p2).Some? {
      var e2 := Best2(s, p2).value.0;
      Best3Sound(s, e2 + |ProtocolSep|);
      assert AllOf(s, p2, e2, IsDot);
    }
  }

  /** Every accepted choice is found; `Best2` picks the shortest second group, then the best of the rest. */
  lemma Best2Longest(s: string, p2: nat, d: nat, e: nat, f: nat)
    requires Ok2(s, p2, d, e, f)
    ensures var r := Best2(s, p2);
      r.Some? && (r.value.0 < d || (r.value.0 == d && (e < r.value.1 || (e == r.value.1 && f <= r.value.2))))
  {
    Best3Longest(s, d + |ProtocolSep|, e, f);
    assert AllOf(s, p2, d, IsDot);
    assert Accepts2(s)(d);
  }

  /** What `Best1` finds is an accepted choice of all four group ends. */
  lemma Best1Sound(s: string, p1: nat)
    ensures var r := Best1(s, p1);
      r.Some? ==> Ok1(s, p1, r.value.0, r.value.1, r.value.2, r.value.3)
  {
    if Best1(s, p1).Some? {
      Best1Pieces(s, p1);
      var r := Best1(s, p1).value;
      Best2Sound(s, r.0 + |DstSep|);
    }
  }

  /** The first end `Best1` picks closes a run of any characters before `, dst_ip=`, and the rest is `Best2`'s. */
  lemma Best1Pieces(s: string, p1: nat)
    requires Best1(s, p1).Some?
    ensures var r := Best1(s, p1).value;
      && p1 < r.0 <= |s| && AllOf(s, p1, r.0, IsDot) && OccursAt(s, DstSep, r.0)
      && Best2(s, r.0 + |DstSep|) == Some((r.1, r.2, r.3))
  {
    var found := SearchUp(p1 + 1, RunEnd(s, p1, IsDot) + 1, Accepts1(s));
    Best1Found(s, p1);
    assert Accepts1(s)(found.value);
  }

  /** `Best1` is what the search for a first end gives: nothing, or that end with the best of the rest. */
  lemma Best1Found(s: string, p1: nat)
    requires p1 < |s|
    ensures var found := SearchUp(p1 + 1, RunEnd(s, p1, IsDot) + 1, Accepts1(s));
      found.None? ==> Best1(s, p1).None?
    ensures var found := SearchUp(p1 + 1, RunEnd(s, p1, IsDot) + 1, Accepts1(s));
      found.Some? ==>
        var b := Best2(s, found.value + |DstSep|).value;
        Best1(s, p1) == Some((found.value, b.0, b.1, b.2))
  {
  }

  /** Every accepted choice is found; `Best1` picks the shortest first group, then the best of the rest. */
  lemma Best1Longest(s: string, p1: nat, c: nat, d: nat, e: nat, f: nat)
    requires Ok1(s, p1, c, d, e, f)
    ensures var r := Best1(s, p1);
      && r.Some?
      && (r.value.0 < c || (r.value.0 == c && (r.value.1 < d || (r.value.1 == d
        && (e < r.value.2 || (e == r.value.2 && f <= r.value.3))))))
  {
    Best2Longest(s, c + |DstSep|, d, e, f);
    Best1Shortest(s, p1, c);
    LexStep(Best1(s, p1).value, Best2(s, c + |DstSep|).value, c, d, e, f);
  }

  /** Choosing a first end no later than `c`, and at `c` the best of the rest, keeps the matcher's order. */
  lemma LexStep(r: (nat, nat, nat, nat), q: (nat, nat, nat), c: nat, d: nat, e: nat, f: nat)
    requires r.0 < c || (r.0 == c && (r.1, r.2, r.3) == q)
    requires q.0 < d || (q.0 == d && (e < q.1 || (e == q.1 && f <= q.2)))
    ensures r.0 < c || (r.0 == c && (r.1 < d || (r.1 == d && (e < r.2 || (e == r.2 && f <= r.3)))))
  {
  }

  /** `Best1` ends the first group no later than any end `c` the rest accepts, and at `c` it keeps the rest `Best2` finds there. */
  lemma Best1Shortest(s: string, p1: nat, c: nat)
    requires p1 < c <= |s| && AllOf(s, p1, c, IsDot) && OccursAt(s, DstSep, c) && Best2(s, c + |DstSep|).Some?
    ensures var r := Best1(s, p1);
      r.Some? && (r.value.0 < c || (r.value.0 == c && Best2(s, c + |DstSep|).Some?
        && (r.value.1, r.value.2, r.value.3) == Best2(s, c + |DstSep|).value))
  {
    Best1AtMost(s, p1, c);
    Best1Rest(s, p1);
  }

  /** `Best1` finds a first end, and none later than `c`. */
  lemma Best1AtMost(s: string, p1: nat, c: nat)
    requires p1 < c <= |s| && AllOf(s, p1, c, IsDot) && OccursAt(s, DstSep, c) && Best2(s, c + |DstSep|).Some?
    ensures Best1(s, p1).Some? && Best1(s, p1).value.0 <= c
  {
    var hi := RunEnd(s, p1, IsDot) + 1;
    assert c < hi;
    assert Accepts1(s)(c);
    SearchUpAtMost(p1 + 1, hi, Accepts1(s), c);
  }

  /** The later ends `Best1` reports are the ones `Best2` finds after its first end. */
  lemma Best1Rest(s: string, p1: nat)
    ensures var r := Best1(s, p1);
      r.Some? ==> Best2(s, r.value.0 + |DstSep|).Some? && (r.value.1, r.value.2, r.value.3) == Best2(s, r.value.0 + |DstSep|).value
  {
  }

  /** A search upwards finds something no later than any `c` in range that satisfies the predicate. */
  lemma SearchUpAtMost(lo: nat, hi: nat, p: nat -> bool, c: nat)
    requires lo <= c < hi && p(c)
    ensures SearchUp(lo, hi, p).Some? && SearchUp(lo, hi, p).value <= c
  {
  }

  /** What `Find` finds is a match. */
  lemma FindSound(s: string)
    ensures Find(s).Some? ==> MatchAt(s, Find(s).value)
  {
    if Find(s).Some? {
      Best1Sound(s, Find(s).value.start + |Prefix|);
    }
  }

  /** Whenever the pattern matches, `Find` finds a match, and it precedes every match in the matcher's order. */
  lemma FindFirst(s: string, n: Match)
    requires MatchAt(s, n)
    ensures Find(s).Some? && Precedes(Find(s).value, n)
  {
    Best1Longest(s, n.start + |Prefix|, n.e1, n.e2, n.e3, n.e4);
    FindLeast(s, n.start);
  }

  /** `Find` starts no later than any start `i` the rest accepts, and at `i` it keeps the ends `Best1` finds there. */
  lemma FindLeast(s: string, i: nat)
    requires i <= |s| && Accepts0(s)(i)
    ensures var r := Find(s);
      r.Some? && (r.value.start < i || (r.value.start == i && Best1(s, i + |Prefix|).Some?
        && (r.value.e1, r.value.e2, r.value.e3, r.value.e4) == Best1(s, i + |Prefix|).value))
  {
  }

  /** The five captured groups. */
  datatype Groups = Groups(src: string, dst: string, protocol: string, length: string, rawData: string)

  /** The groups of a match; the last takes the whole run of `.` characters after `, raw_data=`. */
  function GroupsOf(s: string, m: Match): Groups
    requires MatchAt(s, m)
  {
    var p5 := m.e4 + |RawSep|;
    Groups(s[m.start + |Prefix|..m.e1], s[m.e1 + |DstSep|..m.e2], s[m.e2 + |ProtocolSep|..m.e3],
      s[m.e3 + |LengthSep|..m.e4], s[p5..RunEnd(s, p5, IsDot)])
  }

  /** The fourth group of a match is all digits, as `\d+` demands. */
  lemma GroupsDigits(s: string, m: Match)
    requires MatchAt(s, m)
    ensures forall i :: 0 <= i < |GroupsOf(s, m).length| ==> IsDigit(GroupsOf(s, m).length[i])
  {
    var p4 := m.e3 + |LengthSep|;
    assert AllOf(s, p4, m.e4, IsDigit);
    forall i | 0 <= i < |GroupsOf(s, m).length|
      ensures IsDigit(GroupsOf(s, m).length[i])
    {
      assert GroupsOf(s, m).length[i] == s[p4 + i];
    }
  }

  /** `String.prototype.match` with the pattern: the captured groups of the first match, or `null`. */
  function MatchLine(s: string): (r: Option<Groups>)
    ensures r.Some? <==> exists n :: MatchAt(s, n)
    ensures r.Some? ==> exists m :: MatchAt(s, m) && (forall n :: MatchAt(s, n) ==> Precedes(m, n)) && r.value == GroupsOf(s, m)
  {
    FindSound(s);
    forall n | MatchAt(s, n)
      ensures Find(s).Some? && Precedes(Find(s).value, n)
    {
      FindFirst(s, n);
    }
    match Find(s)
    case None => None
    case Some(m) => Some(GroupsOf(s, m))
  }

  /** The line a record prints as: each field after its label. */
  function Render(src: string, dst: string, protocol: string, length: string, rawData: string): string {
    Prefix + src + DstSep + dst + ProtocolSep + protocol + LengthSep + length + RawSep + rawData
  }

  /** Fields that print as a line the pattern reads back unchanged. */
  predicate Readable(src: string, dst: string, protocol: string, length: string, rawData: string) {
    && |src| > 0 && Free(src, ',') && AllOf(src, 0, |src|, IsDot)
    && |dst| > 0 && Free(dst, ',') && AllOf(dst, 0, |dst|, IsDot)
    && |protocol| > 0 && AllOf(protocol, 0, |protocol|, IsDot)
    && |length| > 0 && AllOf(length, 0, |length|, IsDigit)
    && |rawData| > 0 && Free(rawData, ',') && AllOf(rawData, 0, |rawData|, IsDot)
  }

  /** Where the fields of a rendered line sit. */
  lemma RenderLayout(src: string, dst: string, protocol: string, length: string, rawData: string)
    ensures var s := Render(src, dst, protocol, length, rawData);
      var e1 := |Prefix| + |src|;
      var e2 := e1 + |DstSep| + |dst|;
      var e3 := e2 + |ProtocolSep| + |protocol|;
      var e4 := e3 + |LengthSep| + |length|;
      && |s| == e4 + |RawSep| + |rawData|
      && s[..|Prefix|] == Prefix && s[|Prefix|..e1] == src
      && s[e1..e1 + |DstSep|] == DstSep && s[e1 + |DstSep|..e2] == dst
      && s[e2..e2 + |ProtocolSep|] == ProtocolSep && s[e2 + |ProtocolSep|..e3] == protocol
      && s[e3..e3 + |LengthSep|] == LengthSep && s[e3 + |LengthSep|..e4] == length
      && s[e4..e4 + |RawSep|] == RawSep && s[e4 + |RawSep|..] == rawData
  {
  }

  /** The match the pattern makes of a rendered line: the ends of the fields. */
  function RenderMatch(src: string, dst: string, protocol: string, length: string): Match {
    var e1 := |Prefix| + |src|;
    var e2 := e1 + |DstSep| + |dst|;
    var e3 := e2 + |ProtocolSep| + |protocol|;
    Match(0, e1, e2, e3, e3 + |LengthSep| + |length|)
  }

  /** A property of every character of a string holds across any place it is copied to. */
  lemma AllOfSlice(s: string, a: nat, b: nat, t: string, p: char -> bool)
    requires a <= b <= |s| && s[a..b] == t && AllOf(t, 0, |t|, p)
    ensures AllOf(s, a, b, p)
  {
    forall k | a <= k < b
      ensures p(s[k])
    {
      assert s[k] == t[k - a];
    }
  }

  /** A rendered line matches with every field in its own group. */
  lemma RenderMatches(src: string, dst: string, protocol: string, length: string, rawData: string)
    requires Readable(src, dst, protocol, length, rawData)
    ensures MatchAt(Render(src, dst, protocol, length, rawData), RenderMatch(src, dst, protocol, length))
  {
    var s := Render(src, dst, protocol, length, rawData);
    var m := RenderMatch(src, dst, protocol, length);
    RenderLayout(src, dst, protocol, length, rawData);
    AllOfSlice(s, |Prefix|, m.e1, src, IsDot);
    AllOfSlice(s, m.e1 + |DstSep|, m.e2, dst, IsDot);
    AllOfSlice(s, m.e2 + |ProtocolSep|, m.e3, protocol, IsDot);
    AllOfSlice(s, m.e3 + |LengthSep|, m.e4, length, IsDigit);
    var p5 := m.e4 + |RawSep|;
    assert s[p5] == rawData[0];
    assert IsDot(rawData[0]);
  }

  /** No match of a rendered line comes before the one that puts every field in its own group. */
  lemma RenderFirst(src: string, dst: string, protocol: string, length: string, rawData: string, n: Match)
    requires Readable(src, dst, protocol, length, rawData)
    requires MatchAt(Render(src, dst, protocol, length, rawData), n)
    requires Precedes(n, RenderMatch(src, dst, protocol, length))
    ensures n == RenderMatch(src, dst, protocol, length)
  {
    var s := Render(src, dst, protocol, length, rawData);
    var m := RenderMatch(src, dst, protocol, length);
    RenderLayout(src, dst, protocol, length, rawData);
    SepOutside(s, |Prefix|, m.e1, src, DstSep, n.e1);
    SepOutside(s, m.e1 + |DstSep|, m.e2, dst, ProtocolSep, n.e2);
    NoLaterLength(src, dst, protocol, length, rawData, n.e3);
    assert !IsDigit(s[m.e4]) by {
      var w := s[m.e4..m.e4 + |RawSep|];
      assert w == RawSep && s[m.e4] == w[0];
    }
  }

  /** A separator starting with a comma cannot start inside a comma-free field. */
  lemma SepOutside(s: string, a: nat, b: nat, field: string, sep: string, e: nat)
    requires a <= b <= |s| && s[a..b] == field && Free(field, ',')
    requires |sep| > 0 && sep[0] == ',' && OccursAt(s, sep, e)
    ensures e < a || b <= e
  {
    assert s[e] == ',' by {
      assert s[e..e + |sep|][0] == sep[0];
    }
    forall k | a <= k < b ensures s[k] != ',' {
      assert s[k] == field[k - a];
    }
  }

  /** In a rendered line, `, length=` occurs after the protocol field only where the renderer put it. */
  lemma NoLaterLength(src: string, dst: string, protocol: string, length: string, rawData: string, e: nat)
    requires Readable(src, dst, protocol, length, rawData)
    requires OccursAt(Render(src, dst, protocol, length, rawData), LengthSep, e)
    ensures e <= RenderMatch(src, dst, protocol, length).e3
  {
    var s := Render(src, dst, protocol, length, rawData);
    var e3 := RenderMatch(src, dst, protocol, length).e3;
    if e > e3 {
      var head := Prefix + src + DstSep + dst + ProtocolSep + protocol;
      var tail := LengthSep + length + RawSep + rawData;
      assert s == head + tail;
      assert |head| == e3;
      assert tail[e - e3..e - e3 + |LengthSep|] == s[e..e + |LengthSep|];
      LengthOnce(length, rawData, e - e3);
    }
  }

  /** After the protocol field, the only `, length=` is the one that opens the length field. */
  lemma LengthOnce(length: string, rawData: string, j: nat)
    requires |length| > 0 && AllOf(length, 0, |length|, IsDigit) && Free(rawData, ',')
    requires OccursAt(LengthSep + length + RawSep + rawData, LengthSep, j)
    ensures j == 0
  {
    var t := LengthSep + length + RawSep + rawData;
    assert t[j] == ',' && t[j + 2] == 'l' by {
      var w := t[j..j + |LengthSep|];
      assert w == LengthSep;
      assert t[j] == w[0] && t[j + 2] == w[2];
    }
    var p4 := |LengthSep|;
    var e4 := p4 + |length|;
    var p5 := e4 + |RawSep|;
    forall k | 0 < k < p4 ensures t[k] != ',' {
      assert t[k] == LengthSep[k];
    }
    forall k | p4 <= k < e4 ensures t[k] != ',' {
      assert t[k] == length[k - p4] && IsDigit(length[k - p4]);
    }
    forall k | e4 < k < p5 ensures t[k] != ',' {
      assert t[k] == RawSep[k - e4];
    }
    forall k | p5 <= k < |t| ensures t[k] != ',' {
      assert t[k] == rawData[k - p5];
    }
    assert t[e4 + 2] == RawSep[2];
  }

  /** The run of `.` characters after `, raw_data=` in a rendered line is the raw data, to the end. */
  lemma RawRunEnds(src: string, dst: string, protocol: string, length: string, rawData: string)
    requires Readable(src, dst, protocol, length, rawData)
    ensures var s := Render(src, dst, protocol, length, rawData);
      var m := RenderMatch(src, dst, protocol, length);
      && m.e4 + |RawSep| <= |s| && RunEnd(s, m.e4 + |RawSep|, IsDot) == |s|
      && s[m.e4 + |RawSep|..RunEnd(s, m.e4 + |RawSep|, IsDot)] == rawData
  {
    var s := Render(src, dst, protocol, length, rawData);
    var p5 := RenderMatch(src, dst, protocol, length).e4 + |RawSep|;
    assert s == (Prefix + src + DstSep + dst + ProtocolSep + protocol + LengthSep + length + RawSep) + rawData;
    AllOfSlice(s, p5, |s|, rawData, IsDot);
  }

  /** The first four fields of a rendered line sit between the ends its own match records. */
  lemma RenderFields(src: string, dst: string, protocol: string, length: string, rawData: string)
    ensures var s := Render(src, dst, protocol, length, rawData);
      var m := RenderMatch(src, dst, protocol, length);
      && m.start + |Prefix| <= m.e1 && m.e1 + |DstSep| <= m.e2 && m.e2 + |ProtocolSep| <= m.e3
      && m.e3 + |LengthSep| <= m.e4 && m.e4 <= |s|
      && s[m.start + |Prefix|..m.e1] == src && s[m.e1 + |DstSep|..m.e2] == dst
      && s[m.e2 + |ProtocolSep|..m.e3] == protocol && s[m.e3 + |LengthSep|..m.e4] == length
  {
    RenderLayout(src, dst, protocol, length, rawData);
  }

  /** The groups of a match are the given fields when each sits where the match says. */
  lemma GroupsAt(s: string, m: Match, g: Groups)
    requires MatchAt(s, m)
    requires s[m.start + |Prefix|..m.e1] == g.src && s[m.e1 + |DstSep|..m.e2] == g.dst
    requires s[m.e2 + |ProtocolSep|..m.e3] == g.protocol && s[m.e3 + |LengthSep|..m.e4] == g.length
    requires s[m.e4 + |RawSep|..RunEnd(s, m.e4 + |RawSep|, IsDot)] == g.rawData
    ensures GroupsOf(s, m) == g
  {
  }

  /** The groups of the renderer's own match are the printed fields. */
  lemma RenderGroups(src: string, dst: string, protocol: string, length: string, rawData: string)
    requires Readable(src, dst, protocol, length, rawData)
    ensures var s := Render(src, dst, protocol, length, rawData);
      var m := RenderMatch(src, dst, protocol, length);
      MatchAt(s, m) && GroupsOf(s, m) == Groups(src, dst, protocol, length, rawData)
  {
    var s := Render(src, dst, protocol, length, rawData);
    var m := RenderMatch(src, dst, protocol, length);
    RenderMatches(src, dst, protocol, length, rawData);
    RenderFields(src, dst, protocol, length, rawData);
    RawRunEnds(src, dst, protocol, length, rawData);
    GroupsAt(s, m, Groups(src, dst, protocol, length, rawData));
  }

  /**
    Reading back a rendered line: the pattern gives every field exactly as it was printed, so the
    printer and the matcher are inverse on readable fields.
  */
  lemma ParseRendered(src: string, dst: string, protocol: string, length: string, rawData: string)
    requires Readable(src, dst, protocol, length, rawData)
    ensures MatchLine(Render(src, dst, protocol, length, rawData)) == Some(Groups(src, dst, protocol, length, rawData))
  {
    var s := Render(src, dst, protocol, length, rawData);
    RenderGroups(src, dst, protocol, length, rawData);
    var r := MatchLine(s);
    var m :| MatchAt(s, m) && (forall n :: MatchAt(s, n) ==> Precedes(m, n)) && r.value == GroupsOf(s, m);
    RenderFirst(src, dst, protocol, length, rawData, m);
  }

  /** The length group `MatchLine` captures is all digits. */
  lemma MatchLineDigits(s: string)
    ensures MatchLine(s).Some? ==> forall i :: 0 <= i < |MatchLine(s).value.length| ==> IsDigit(MatchLine(s).value.length[i])
  {
    if MatchLine(s).Some? {
      var m :| MatchAt(s, m) && (forall n :: MatchAt(s, n) ==> Precedes(m, n)) && MatchLine(s).value == GroupsOf(s, m);
      GroupsDigits(s, m);
    }
  }
}

=== FILE: reporter.dfy ===
/**
  The network reporter's statistics (plugins/network_reporter/renderer.js:66-129): the captured
  packets are narrowed by the protocol selection and the "last N" selection, and the packets
  that remain are tallied by source, by destination and by protocol. The five busiest sources
  and destinations and the table of all protocols, busiest first, go into the report. Laying the
  report out as a PDF is not modelled.
*/
module Reporter {
  import opened Wrappers
  import opened Text
  import opened Seqs

  /** A captured packet as the reporter reads it; a field the packet lacks is the empty string. */
  datatype Packet = Packet(protocol: string, src: string, dst: string, length: nat)

  // ---------------------------------------------------------------- protocol filter

  /** The protocol selection's value that turns the filter off. */
  const AllProtocols := "all"

  /** The selection's test of one packet: its protocol, upper-cased, contains the selection upper-cased. */
  predicate HasProtocol(p: Packet, filter: string) {
    Contains(Upper(p.protocol), Upper(filter))
  }

  /** The packets whose protocol, upper-cased, contains `filter` upper-cased, in capture order. */
  function WithProtocol(packets: seq<Packet>, filter: string): (r: seq<Packet>)
    ensures |r| <= |packets|
    ensures forall p :: p in r <==> p in packets && HasProtocol(p, filter)
  {
    if |packets| == 0 then []
    else
      var rest := WithProtocol(packets[..|packets| - 1], filter);
      var p := packets[|packets| - 1];
      assert packets == packets[..|packets| - 1] + [p];
      if HasProtocol(p, filter) then rest + [p] else rest
  }

  /** One more packet at the end is kept after the others exactly when it passes. */
  lemma WithProtocolStep(s: seq<Packet>, filter: string)
    requires |s| > 0
    ensures WithProtocol(s, filter) == WithProtocol(s[..|s| - 1], filter) + (if HasProtocol(s[|s| - 1], filter) then [s[|s| - 1]] else [])
  {
  }

  /**
    The selection keeps every matching packet, duplicates included, in capture order: selecting
    from a concatenation selects from each part, and a single packet is kept exactly when its
    protocol contains the selection.
  */
  lemma {:induction false} WithProtocolKeepsOrder(a: seq<Packet>, b: seq<Packet>, filter: string)
    ensures WithProtocol(a + b, filter) == WithProtocol(a, filter) + WithProtocol(b, filter)
    ensures |b| == 1 ==>
      WithProtocol(b, filter) == if HasProtocol(b[0], filter) then b else []
  {
    if |b| == 0 {
      assert a + b == a;
    } else {
      var c, x := b[..|b| - 1], b[|b| - 1];
      WithProtocolKeepsOrder(a, c, filter);
      var tail := if HasProtocol(x, filter) then [x] else [];
      assert WithProtocol(a + b, filter) == WithProtocol(a + c, filter) + tail by {
        WithProtocolStep(a + b, filter);
        assert (a + b)[..|a + b| - 1] == a + c && (a + b)[|a + b| - 1] == x;
      }
      assert WithProtocol(b, filter) == WithProtocol(c, filter) + tail by {
        WithProtocolStep(b, filter);
      }
      AppendRegroup(WithProtocol(a, filter), WithProtocol(c, filter), tail);
    }
    if |b| == 1 {
      assert WithProtocol(b, filter) == if HasProtocol(b[0], filter) then b else [] by {
        WithProtocolStep(b, filter);
        assert b[..0] == [];
      }
    }
  }

  /** The protocol filter: `'all'` keeps every packet, any other value the packets whose protocol contains it, ignoring ASCII case. */
  function Select(packets: seq<Packet>, filter: string): seq<Packet> {
    if filter == AllProtocols then packets else WithProtocol(packets, filter)
  }

  /**
    Selecting `'all'` keeps every packet in order, and so does the empty selection, since every
    protocol (also a missing one) contains the empty string.
  */
  lemma {:induction false} SelectKeepsAll(packets: seq<Packet>, filter: string)
    requires filter == AllProtocols || filter == ""
    ensures Select(packets, filter) == packets
  {
    if filter != AllProtocols && |packets| > 0 {
      SelectKeepsAll(packets[..|packets| - 1], filter);
      ContainsTrivial(Upper(packets[|packets| - 1].protocol));
      assert packets == packets[..|packets| - 1] + [packets[|packets| - 1]];
    }
  }

  /** Any other selection keeps a packet exactly when its protocol contains the selection, either case. */
  lemma SelectMatches(packets: seq<Packet>, filter: string, p: Packet)
    requires filter != AllProtocols
    ensures p in Select(packets, filter) <==> p in packets && HasProtocol(p, filter)
  {
  }

  // ---------------------------------------------------------------- last N

  /** The "last N" selection: every packet, or the value `parseInt` read from it. */
  datatype Limit = Every | Last(n: int)

  /** The smaller of two integers. */
  function Min(a: int, b: int): int {
    if a < b then a else b
  }

  /**
    `packets.slice(-limit)`: the last `n` packets, all of them when there are fewer, and (since
    `-0` is `0`) all of them for a limit of zero; a negative limit drops that many from the front.
  */
  function Included(packets: seq<Packet>, limit: Limit): (r: seq<Packet>)
    ensures |r| <= |packets| && r == packets[|packets| - |r|..]
    ensures limit.Every? ==> r == packets
    ensures limit.Last? && limit.n >= 1 ==> r == packets[|packets| - Min(limit.n, |packets|)..]
    ensures limit == Last(0) ==> r == packets
    ensures limit.Last? && limit.n < 0 ==> r == packets[Min(-limit.n, |packets|)..]
  {
    var n := match limit case Every => |packets| case Last(n) => n;
    Slice(packets, -n, |packets|)
  }

  // ---------------------------------------------------------------- tallies

  /** One tally row: a key, how many packets carry it, and their total length. */
  datatype Entry = Entry(key: string, count: nat, bytes: nat)

  /** What a tally counts by. */
  datatype Field = Source | Destination | Protocol

  /** The value a packet is counted under: the field, or `'Unknown'` when it is empty. */
  function Label(p: Packet, f: Field): (k: string)
    ensures k != ""
  {
    var v := match f case Source => p.src case Destination => p.dst case Protocol => p.protocol;
    if v == "" then "Unknown" else v
  }

  /** `counts[key] = (counts[key] || 0) + 1` and the byte total beside it: a new key is appended, an old one counted in place. */
  function Bump(t: seq<Entry>, key: string, length: nat): seq<Entry> {
    if |t| == 0 then [Entry(key, 1, length)]
    else if t[0].key == key then [Entry(key, t[0].count + 1, t[0].bytes + length)] + t[1..]
    else [t[0]] + Bump(t[1..], key, length)
  }

  /** The tally after the packets were counted in order. */
  function Tally(packets: seq<Packet>, f: Field): seq<Entry> {
    if |packets| == 0 then []
    else
      var p := packets[|packets| - 1];
      Bump(Tally(packets[..|packets| - 1], f), Label(p, f), p.length)
  }

  /** The count recorded under `key`, zero when there is none. */
  function CountOf(t: seq<Entry>, key: string): nat {
    if |t| == 0 then 0 else if t[0].key == key then t[0].count else CountOf(t[1..], key)
  }

  /** The byte total recorded under `key`, zero when there is none. */
  function BytesOf(t: seq<Entry>, key: string): nat {
    if |t| == 0 then 0 else if t[0].key == key then t[0].bytes else BytesOf(t[1..], key)
  }

  /** The sum of the counts of all rows. */
  function SumCounts(t: seq<Entry>): nat {
    if |t| == 0 then 0 else t[0].count + SumCounts(t[1..])
  }

  /** The sum of the byte totals of all rows. */
  function SumBytes(t: seq<Entry>): nat {
    if |t| == 0 then 0 else t[0].bytes + SumBytes(t[1..])
  }

  /** Some row is keyed `key`. */
  predicate HasKey(t: seq<Entry>, key: string) {
    exists i :: 0 <= i < |t| && t[i].key == key
  }

  /** No two rows share a key. */
  predicate UniqueKeys(t: seq<Entry>) {
    forall i, j :: 0 <= i < j < |t| ==> t[i].key != t[j].key
  }

  /** Every row counts at least one packet. */
  predicate Positive(t: seq<Entry>) {
    forall i :: 0 <= i < |t| ==> t[i].count > 0
  }

  /** How many of the packets are counted under `key`. */
  function CountLabel(packets: seq<Packet>, f: Field, key: string): nat {
    if |packets| == 0 then 0
    else CountLabel(packets[..|packets| - 1], f, key) + (if Label(packets[|packets| - 1], f) == key then 1 else 0)
  }

  /** The total length of the packets counted under `key`. */
  function BytesLabel(packets: seq<Packet>, f: Field, key: string): nat {
    if |packets| == 0 then 0
    else BytesLabel(packets[..|packets| - 1], f, key) + (if Label(packets[|packets| - 1], f) == key then packets[|packets| - 1].length else 0)
  }

  /** `totalBytes`: the lengths of the packets added up. */
  function TotalBytes(packets: seq<Packet>): nat {
    if |packets| == 0 then 0 else TotalBytes(packets[..|packets| - 1]) + packets[|packets| - 1].length
  }

  /**
    Counting one packet adds one to its key's count and its length to its key's bytes and leaves
    every other key alone; a new key is added, and the keys stay unique.
  */
  lemma {:induction false} BumpCounts(t: seq<Entry>, key: string, length: nat)
    ensures forall x :: CountOf(Bump(t, key, length), x) == CountOf(t, x) + (if x == key then 1 else 0)
    ensures forall x :: BytesOf(Bump(t, key, length), x) == BytesOf(t, x) + (if x == key then length else 0)
    ensures SumCounts(Bump(t, key, length)) == SumCounts(t) + 1
    ensures SumBytes(Bump(t, key, length)) == SumBytes(t) + length
  {
    if |t| > 0 && t[0].key != key {
      BumpCounts(t[1..], key, length);
    }
  }

  /** After counting a packet the keys are the old ones and the packet's. */
  lemma {:induction false} BumpKeys(t: seq<Entry>, key: string, length: nat)
    ensures forall x :: HasKey(Bump(t, key, length), x) <==> HasKey(t, x) || x == key
  {
    var r := Bump(t, key, length);
    if |t| == 0 {
      assert r[0].key == key;
    } else if t[0].key == key {
      assert forall i :: 1 <= i < |r| ==> r[i] == t[i];
      forall x | HasKey(t, x) ensures HasKey(r, x) {
        var i :| 0 <= i < |t| && t[i].key == x;
        assert r[i].key == x;
      }
      forall x | HasKey(r, x) ensures HasKey(t, x) {
        var i :| 0 <= i < |r| && r[i].key == x;
        assert t[i].key == x;
      }
    } else {
      var rest := Bump(t[1..], key, length);
      BumpKeys(t[1..], key, length);
      assert r == [t[0]] + rest;
      forall x | HasKey(t, x) ensures HasKey(r, x) {
        var i :| 0 <= i < |t| && t[i].key == x;
        if i > 0 {
          assert t[1..][i - 1].key == x;
          assert HasKey(t[1..], x);
          var j :| 0 <= j < |rest| && rest[j].key == x;
          assert r[j + 1].key == x;
        } else {
          assert r[0].key == x;
        }
      }
      forall x | HasKey(r, x) ensures HasKey(t, x) || x == key {
        var i :| 0 <= i < |r| && r[i].key == x;
        if i > 0 {
          assert rest[i - 1].key == x;
          assert HasKey(rest, x);
          if x != key {
            var j :| 0 <= j < |t[1..]| && t[1..][j].key == x;
            assert t[j + 1].key == x;
          }
        }
      }
      assert HasKey(rest, key);
      var j :| 0 <= j < |rest| && rest[j].key == key;
      assert r[j + 1].key == key;
    }
  }

  /** Counting keeps the keys unique. */
  lemma {:induction false} BumpUnique(t: seq<Entry>, key: string, length: nat)
    requires UniqueKeys(t)
    ensures UniqueKeys(Bump(t, key, length))
  {
    var r := Bump(t, key, length);
    if |t| > 0 && t[0].key == key {
      assert forall i :: 1 <= i < |r| ==> r[i] == t[i];
    } else if |t| > 0 {
      var rest := Bump(t[1..], key, length);
      assert UniqueKeys(t[1..]);
      BumpUnique(t[1..], key, length);
      BumpKeys(t[1..], key, length);
      assert r == [t[0]] + rest;
      assert !HasKey(t[1..], t[0].key) by {
        forall k | 0 <= k < |t[1..]| ensures t[1..][k].key != t[0].key {
          assert t[1..][k] == t[k + 1];
        }
      }
      forall i | 0 <= i < |rest| ensures rest[i].key != t[0].key {
        assert HasKey(rest, rest[i].key);
      }
    }
  }

  /** Counting keeps every count positive. */
  lemma {:induction false} BumpPositive(t: seq<Entry>, key: string, length: nat)
    requires Positive(t)
    ensures Positive(Bump(t, key, length))
  {
    if |t| > 0 && t[0].key != key {
      BumpPositive(t[1..], key, length);
    }
  }

  /**
    The tally of a list of packets: the keys are exactly the values the packets are counted
    under, each once; every row counts the packets under its key and adds up their lengths; and
    the rows together count every packet once and every byte once.
  */
  lemma {:induction false} TallyCounts(packets: seq<Packet>, f: Field)
    ensures var t := Tally(packets, f);
      && UniqueKeys(t) && Positive(t)
      && (forall x :: HasKey(t, x) <==> CountLabel(packets, f, x) > 0)
      && (forall x :: CountOf(t, x) == CountLabel(packets, f, x))
      && (forall x :: BytesOf(t, x) == BytesLabel(packets, f, x))
      && SumCounts(t) == |packets| && SumBytes(t) == TotalBytes(packets)
  {
    if |packets| > 0 {
      var init := packets[..|packets| - 1];
      var p := packets[|packets| - 1];
      TallyCounts(init, f);
      var t := Tally(init, f);
      BumpCounts(t, Label(p, f), p.length);
      BumpKeys(t, Label(p, f), p.length);
      BumpUnique(t, Label(p, f), p.length);
      BumpPositive(t, Label(p, f), p.length);
      forall x | CountLabel(init, f, x) > 0 ensures HasKey(t, x) {
      }
    }
  }

  /** In a table with unique keys, the row at `i` is the one the lookup by its key finds. */
  lemma {:induction false} RowLookup(t: seq<Entry>, i: nat)
    requires UniqueKeys(t) && i < |t|
    ensures CountOf(t, t[i].key) == t[i].count && BytesOf(t, t[i].key) == t[i].bytes
  {
    if i > 0 {
      assert t[0].key != t[i].key;
      assert UniqueKeys(t[1..]);
      RowLookup(t[1..], i - 1);
    }
  }

  // ---------------------------------------------------------------- sorting

  /** Counts never rise along the rows. */
  predicate NonIncreasing(t: seq<Entry>) {
    forall i, j :: 0 <= i < j < |t| ==> t[i].count >= t[j].count
  }

  /** Where a stable descending sort puts `e` among sorted rows: after every row counting at least as much. */
  function Place(e: Entry, s: seq<Entry>): (k: nat)
    ensures k <= |s|
    ensures forall i :: 0 <= i < k ==> s[i].count >= e.count
    ensures k < |s| ==> s[k].count < e.count
  {
    if |s| == 0 || s[0].count < e.count then 0 else 1 + Place(e, s[1..])
  }

  /** `e` placed into sorted rows. */
  function Insert(e: Entry, s: seq<Entry>): seq<Entry> {
    var k := Place(e, s);
    s[..k] + [e] + s[k..]
  }

  /**
    `Array.prototype.sort` with the comparator `b.count - a.count`: since that sort is stable,
    the rows by descending count, rows of equal count in their original order. Each row is
    placed after the ones before it that count at least as much.
  */
  function SortByCount(t: seq<Entry>): seq<Entry> {
    if |t| == 0 then [] else Insert(t[|t| - 1], SortByCount(t[..|t| - 1]))
  }

  /** A row between two sorted runs, no lower than the second and no higher than the first, keeps the whole sorted. */
  lemma JoinSorted(x: seq<Entry>, e: Entry, y: seq<Entry>)
    requires NonIncreasing(x) && NonIncreasing(y)
    requires forall i :: 0 <= i < |x| ==> x[i].count >= e.count
    requires forall i :: 0 <= i < |y| ==> e.count >= y[i].count
    ensures NonIncreasing(x + [e] + y)
  {
    var r := x + [e] + y;
    forall i, j | 0 <= i < j < |r| ensures r[i].count >= r[j].count {
      if j < |x| {
        assert r[i] == x[i] && r[j] == x[j];
      } else if j == |x| {
        assert r[i] == x[i] && r[j] == e;
      } else if i < |x| {
        assert r[i] == x[i] && r[j] == y[j - |x| - 1];
        assert x[i].count >= e.count;
      } else if i == |x| {
        assert r[i] == e && r[j] == y[j - |x| - 1];
      } else {
        assert r[i] == y[i - |x| - 1] && r[j] == y[j - |x| - 1];
      }
    }
  }

  /** A run cut out of sorted rows is sorted. */
  lemma SliceSorted(s: seq<Entry>, lo: nat, hi: nat)
    requires NonIncreasing(s) && lo <= hi <= |s|
    ensures NonIncreasing(s[lo..hi])
  {
    var y := s[lo..hi];
    forall i, j | 0 <= i < j < |y| ensures y[i].count >= y[j].count {
      assert y[i] == s[lo + i] && y[j] == s[lo + j];
    }
  }

  /** Placing a row into sorted rows keeps them sorted. */
  lemma InsertSorted(e: Entry, s: seq<Entry>)
    requires NonIncreasing(s)
    ensures NonIncreasing(Insert(e, s))
  {
    var k := Place(e, s);
    var x, y := s[..k], s[k..];
    forall i | 0 <= i < |y| ensures e.count >= y[i].count {
      assert y[i] == s[k + i];
      assert s[k].count >= s[k + i].count;
    }
    forall i | 0 <= i < |x| ensures x[i].count >= e.count {
      assert x[i] == s[i];
    }
    SliceSorted(s, 0, k);
    SliceSorted(s, k, |s|);
    assert x == s[0..k] && y == s[k..|s|];
    JoinSorted(x, e, y);
  }

  /** Placing a row adds exactly that row: one more row, the same rows as a multiset besides it, and the same sums besides its own. */
  lemma InsertAdds(e: Entry, s: seq<Entry>)
    ensures |Insert(e, s)| == |s| + 1
    ensures multiset(Insert(e, s)) == multiset(s) + multiset{e}
    ensures forall x :: x in Insert(e, s) <==> x in s || x == e
    ensures SumCounts(Insert(e, s)) == SumCounts(s) + e.count
    ensures SumBytes(Insert(e, s)) == SumBytes(s) + e.bytes
  {
    var k := Place(e, s);
    var x, y := s[..k], s[k..];
    assert s == x + y;
    SumsSplit(x, [e] + y);
    SumsSplit(x, y);
    assert ([e] + y)[1..] == y;
    assert Insert(e, s) == x + ([e] + y);
  }

  /** A row placed between rows whose keys all differ from its own, in a sequence of unique keys, keeps the keys unique. */
  lemma JoinKeys(x: seq<Entry>, e: Entry, y: seq<Entry>)
    requires UniqueKeys(x + y)
    requires forall i :: 0 <= i < |x + y| ==> (x + y)[i].key != e.key
    ensures UniqueKeys(x + [e] + y)
  {
    var s := x + y;
    var r := x + [e] + y;
    forall i, j | 0 <= i < j < |r| ensures r[i].key != r[j].key {
      var a := if i < |x| then i else if i == |x| then -1 else i - 1;
      var b := if j < |x| then j else if j == |x| then -1 else j - 1;
      if a >= 0 {
        assert r[i] == s[a];
      }
      if b >= 0 {
        assert r[j] == s[b];
      }
    }
  }

  /** Placing a row whose key is new keeps the keys unique. */
  lemma InsertKeys(e: Entry, s: seq<Entry>)
    requires UniqueKeys(s)
    requires forall i :: 0 <= i < |s| ==> s[i].key != e.key
    ensures UniqueKeys(Insert(e, s))
  {
    var k := Place(e, s);
    assert s == s[..k] + s[k..];
    JoinKeys(s[..k], e, s[k..]);
  }

  /** The rows of a sequence holding only rows of a prefix carry keys other than the key of the last row, when all keys are unique. */
  lemma OtherKeys(t: seq<Entry>, s: seq<Entry>)
    requires |t| > 0 && UniqueKeys(t) && forall x :: x in s ==> x in t[..|t| - 1]
    ensures forall i :: 0 <= i < |s| ==> s[i].key != t[|t| - 1].key
  {
    var init := t[..|t| - 1];
    forall i | 0 <= i < |s| ensures s[i].key != t[|t| - 1].key {
      assert s[i] in s;
      assert s[i] in init;
      var j :| 0 <= j < |init| && init[j] == s[i];
      assert t[j] == s[i];
    }
  }

  /** Sorting rearranges the rows: as many rows, and the same rows as a multiset. */
  lemma {:induction false} SortPermutes(t: seq<Entry>)
    ensures |SortByCount(t)| == |t|
    ensures multiset(SortByCount(t)) == multiset(t)
  {
    if |t| > 0 {
      var init := t[..|t| - 1];
      var e := t[|t| - 1];
      SortPermutes(init);
      InsertAdds(e, SortByCount(init));
      assert t == init + [e];
      assert multiset(t) == multiset(init) + multiset{e};
    }
  }

  /** A row is among the sorted rows exactly when it is among the rows. */
  lemma {:induction false} SortMembers(t: seq<Entry>)
    ensures forall x :: x in SortByCount(t) <==> x in t
  {
    if |t| > 0 {
      var init := t[..|t| - 1];
      var e := t[|t| - 1];
      SortMembers(init);
      InsertAdds(e, SortByCount(init));
      assert t == init + [e];
    }
  }

  /** Sorting keeps the sums of the counts and of the byte totals. */
  lemma {:induction false} SortSums(t: seq<Entry>)
    ensures SumCounts(SortByCount(t)) == SumCounts(t) && SumBytes(SortByCount(t)) == SumBytes(t)
  {
    if |t| > 0 {
      var init := t[..|t| - 1];
      var e := t[|t| - 1];
      SortSums(init);
      InsertAdds(e, SortByCount(init));
      assert t == init + [e];
      SumsSplit(init, [e]);
    }
  }

  /** Sorting puts the rows in non-increasing count order, and rows with unique keys stay unique. */
  lemma {:induction false} SortSorted(t: seq<Entry>)
    ensures NonIncreasing(SortByCount(t))
    ensures UniqueKeys(t) ==> UniqueKeys(SortByCount(t))
  {
    if |t| > 0 {
      var init := t[..|t| - 1];
      var e := t[|t| - 1];
      var s := SortByCount(init);
      SortSorted(init);
      InsertSorted(e, s);
      if UniqueKeys(t) {
        assert UniqueKeys(init) by {
          forall i, j | 0 <= i < j < |init| ensures init[i].key != init[j].key {
            assert init[i] == t[i] && init[j] == t[j];
          }
        }
        SortMembers(init);
        OtherKeys(t, s);
        InsertKeys(e, s);
      }
    }
  }

  /** The rows of count `c`, in their order. */
  function WithCount(s: seq<Entry>, c: nat): seq<Entry> {
    if |s| == 0 then [] else WithCount(s[..|s| - 1], c) + (if s[|s| - 1].count == c then [s[|s| - 1]] else [])
  }

  /** The rows of count `c` of two runs are those of the first run followed by those of the second. */
  lemma {:induction false} WithCountAppend(a: seq<Entry>, b: seq<Entry>, c: nat)
    ensures WithCount(a + b, c) == WithCount(a, c) + WithCount(b, c)
  {
    if |b| == 0 {
      assert a + b == a;
    } else {
      WithCountAppend(a, b[..|b| - 1], c);
      assert (a + b)[..|a + b| - 1] == a + b[..|b| - 1];
    }
  }

  /** Rows that all count less than `c` hold no row of count `c`. */
  lemma {:induction false} WithCountNone(s: seq<Entry>, c: nat)
    requires forall i :: 0 <= i < |s| ==> s[i].count < c
    ensures WithCount(s, c) == []
  {
    if |s| > 0 {
      WithCountNone(s[..|s| - 1], c);
    }
  }

  /** A single row holds a row of count `c` exactly when it counts `c`. */
  lemma WithCountOne(e: Entry, c: nat)
    ensures WithCount([e], c) == (if e.count == c then [e] else [])
  {
    assert [e][..0] == [];
  }

  /** Behind the place of `e` in sorted rows, every row counts less than `e`. */
  lemma PlaceTail(e: Entry, s: seq<Entry>)
    requires NonIncreasing(s)
    ensures forall i :: 0 <= i < |s[Place(e, s)..]| ==> s[Place(e, s)..][i].count < e.count
  {
    var k := Place(e, s);
    forall i | 0 <= i < |s[k..]| ensures s[k..][i].count < e.count {
      assert s[k..][i] == s[k + i];
    }
  }

  /** Splicing `e` between two runs adds it after the rows of its count, when none of those lie in the second run. */
  lemma WithCountSplice(x: seq<Entry>, e: Entry, y: seq<Entry>, c: nat)
    requires e.count == c ==> WithCount(y, c) == []
    ensures WithCount(x + [e] + y, c) == WithCount(x + y, c) + (if e.count == c then [e] else [])
  {
    WithCountAppend(x + [e], y, c);
    WithCountAppend(x, [e], c);
    WithCountAppend(x, y, c);
    WithCountOne(e, c);
  }

  /** Placing `e` into sorted rows puts it after every row of its own count, and leaves the other counts alone. */
  lemma {:induction false} InsertWithCount(e: Entry, s: seq<Entry>, c: nat)
    requires NonIncreasing(s)
    ensures WithCount(Insert(e, s), c) == WithCount(s, c) + (if e.count == c then [e] else [])
  {
    var k := Place(e, s);
    var x, y := s[..k], s[k..];
    if e.count == c {
      PlaceTail(e, s);
      WithCountNone(y, c);
    }
    assert s == x + y;
    WithCountSplice(x, e, y, c);
  }

  /**
    The sort is stable: for every count, the rows of that count come out in the order they went
    in. With `SortSorted` this fixes the sorted rows completely.
  */
  lemma {:induction false} SortStable(t: seq<Entry>, c: nat)
    ensures WithCount(SortByCount(t), c) == WithCount(t, c)
  {
    if |t| > 0 {
      var init := t[..|t| - 1];
      SortStable(init, c);
      SortSorted(init);
      InsertWithCount(t[|t| - 1], SortByCount(init), c);
    }
  }

  /** How many rows the top lists hold. */
  const TopCount := 5

  /** `getTopN`: the `n` rows with the highest counts, highest first. */
  function TopN(t: seq<Entry>, n: nat): seq<Entry> {
    var s := SortByCount(t);
    s[..Min(n, |s|)]
  }

  /** The rows `getTopN` leaves out. */
  function Dropped(t: seq<Entry>, n: nat): seq<Entry> {
    var s := SortByCount(t);
    s[Min(n, |s|)..]
  }

  /** The top list holds `min(n, rows)` rows, highest count first. */
  lemma TopNSorted(t: seq<Entry>, n: nat)
    ensures |TopN(t, n)| == Min(n, |t|)
    ensures NonIncreasing(TopN(t, n))
  {
    var s := SortByCount(t);
    SortSorted(t);
    SortPermutes(t);
    PrefixBest(s, Min(n, |s|));
  }

  /** With the rows left out the top list makes up all the rows, and no row left out counts more than a row taken. */
  lemma TopNBest(t: seq<Entry>, n: nat)
    ensures multiset(TopN(t, n) + Dropped(t, n)) == multiset(t)
    ensures forall i, j :: 0 <= i < |TopN(t, n)| && 0 <= j < |Dropped(t, n)| ==> TopN(t, n)[i].count >= Dropped(t, n)[j].count
  {
    var s := SortByCount(t);
    SortSorted(t);
    SortPermutes(t);
    SplitSorted(s, Min(n, |s|));
  }

  /** Sorted rows cut in two: every row of the first part counts at least as much as every row of the second. */
  lemma SplitSorted(s: seq<Entry>, m: nat)
    requires NonIncreasing(s) && m <= |s|
    ensures s[..m] + s[m..] == s
    ensures forall i, j :: 0 <= i < |s[..m]| && 0 <= j < |s[m..]| ==> s[..m][i].count >= s[m..][j].count
  {
    forall i, j | 0 <= i < |s[..m]| && 0 <= j < |s[m..]| ensures s[..m][i].count >= s[m..][j].count {
      assert s[..m][i] == s[i] && s[m..][j] == s[m + j];
    }
  }

  /** The first `m` of sorted rows are sorted, and none of them counts less than a row after them. */
  lemma PrefixBest(s: seq<Entry>, m: nat)
    requires NonIncreasing(s) && m <= |s|
    ensures NonIncreasing(s[..m])
    ensures forall i, k :: 0 <= i < m <= k < |s| ==> s[i].count >= s[k].count
  {
    SliceSorted(s, 0, m);
    assert s[..m] == s[0..m];
  }

  /** The first `m` of rows with unique keys have unique keys, and a key not among them sits further on. */
  lemma PrefixKeys(s: seq<Entry>, m: nat)
    requires UniqueKeys(s) && m <= |s|
    ensures UniqueKeys(s[..m])
    ensures forall x :: HasKey(s, x) && !HasKey(s[..m], x) ==> exists k :: m <= k < |s| && s[k].key == x
  {
    forall x | HasKey(s, x) ensures HasKey(s[..m], x) || exists k :: m <= k < |s| && s[k].key == x {
      var k :| 0 <= k < |s| && s[k].key == x;
      if k < m {
        assert s[..m][k].key == x;
      }
    }
  }

  // ---------------------------------------------------------------- report

  /** What the report states: the matched and included packets, the byte total, the top lists and the protocol table. */
  datatype Report = Report(matched: nat, included: seq<Packet>, totalBytes: nat,
                           topSources: seq<Entry>, topDestinations: seq<Entry>, protocols: seq<Entry>)

  /**
    The report for one click of the generate button: none when the protocol filter leaves no
    packet (`window.capturedPackets` missing counts as no packets).
  */
  function MakeReport(captured: Option<seq<Packet>>, filter: string, limit: Limit): (r: Option<Report>)
    ensures var kept := Select(captured.GetOr([]), filter);
      && (r.Some? <==> |kept| > 0)
      && (r.Some? ==>
            && r.value.matched == |kept|
            && |r.value.included| <= |kept|
            && r.value.included == kept[|kept| - |r.value.included|..]
            && r.value.included == Included(kept, limit)
            && r.value.totalBytes == TotalBytes(r.value.included))
  {
    var kept := Select(captured.GetOr([]), filter);
    if |kept| == 0 then None
    else
      var included := Included(kept, limit);
      Some(Report(|kept|, included, TotalBytes(included),
                  TopN(Tally(included, Source), TopCount), TopN(Tally(included, Destination), TopCount),
                  SortByCount(Tally(included, Protocol))))
  }

  /**
    The sorted tally of a list of packets: busiest key first, each key once, exactly the keys the
    packets are counted under, each row counting the packets under its key and adding up their
    lengths, all rows together counting every packet and every byte once.
  */
  lemma SortedTally(packets: seq<Packet>, f: Field)
    ensures var s := SortByCount(Tally(packets, f));
      && NonIncreasing(s) && UniqueKeys(s)
      && (forall x :: HasKey(s, x) <==> CountLabel(packets, f, x) > 0)
      && (forall i :: 0 <= i < |s| ==>
            s[i].count == CountLabel(packets, f, s[i].key) > 0
            && s[i].bytes == BytesLabel(packets, f, s[i].key))
      && SumCounts(s) == |packets|
      && SumBytes(s) == TotalBytes(packets)
  {
    var t := Tally(packets, f);
    var s := SortByCount(t);
    TallyCounts(packets, f);
    SortSorted(t);
    SortMembers(t);
    SortSums(t);
    PermutedRows(t, s);
  }

  /**
    Rows that are the rows of a table with unique keys, rearranged: each is the row the table's
    lookup finds for its key, and the keys are the table's.
  */
  lemma PermutedRows(t: seq<Entry>, s: seq<Entry>)
    requires UniqueKeys(t) && forall x :: x in s <==> x in t
    ensures forall i :: 0 <= i < |s| ==> CountOf(t, s[i].key) == s[i].count && BytesOf(t, s[i].key) == s[i].bytes
    ensures forall i :: 0 <= i < |s| ==> HasKey(t, s[i].key)
    ensures forall x :: HasKey(s, x) <==> HasKey(t, x)
  {
    forall i | 0 <= i < |s|
      ensures CountOf(t, s[i].key) == s[i].count && BytesOf(t, s[i].key) == s[i].bytes
      ensures HasKey(t, s[i].key)
    {
      assert s[i] in s;
      var j :| 0 <= j < |t| && t[j] == s[i];
      RowLookup(t, j);
    }
    forall x | HasKey(t, x) ensures HasKey(s, x) {
      var j :| 0 <= j < |t| && t[j].key == x;
      assert t[j] in t;
      var i :| 0 <= i < |s| && s[i] == t[j];
    }
  }

  /**
    A report's protocol table has exactly one row per protocol among the included packets
    (`'Unknown'` standing for a missing one), busiest first; each row counts that protocol's
    packets and adds up their lengths; the rows together count every included packet and byte.
  */
  lemma ProtocolTable(captured: Option<seq<Packet>>, filter: string, limit: Limit)
    requires MakeReport(captured, filter, limit).Some?
    ensures var r := MakeReport(captured, filter, limit).value;
      var table := r.protocols;
      && NonIncreasing(table) && UniqueKeys(table)
      && (forall x :: HasKey(table, x) <==> CountLabel(r.included, Protocol, x) > 0)
      && (forall i :: 0 <= i < |table| ==>
            table[i].count == CountLabel(r.included, Protocol, table[i].key)
            && table[i].bytes == BytesLabel(r.included, Protocol, table[i].key))
      && SumCounts(table) == |r.included|
      && SumBytes(table) == r.totalBytes
  {
    var r := MakeReport(captured, filter, limit).value;
    SortedTally(r.included, Protocol);
  }

  /** Sums distribute over concatenation. */
  lemma {:induction false} SumsSplit(a: seq<Entry>, b: seq<Entry>)
    ensures SumCounts(a + b) == SumCounts(a) + SumCounts(b)
    ensures SumBytes(a + b) == SumBytes(a) + SumBytes(b)
  {
    if |a| == 0 {
      assert a + b == b;
    } else {
      SumsSplit(a[1..], b);
      assert (a + b)[0] == a[0];
      assert (a + b)[1..] == a[1..] + b;
    }
  }

  /**
    The top `n` of a tally: `n` rows, or one per key when there are fewer keys, busiest first,
    each key once, each row a key with the number of packets under it. A list shorter than `n`
    holds every key the packets are counted under.
  */
  lemma TallyTop(packets: seq<Packet>, f: Field, n: nat)
    ensures var top := TopN(Tally(packets, f), n);
      && |top| == Min(n, |Tally(packets, f)|) && NonIncreasing(top) && UniqueKeys(top)
      && (forall i :: 0 <= i < |top| ==> top[i].count == CountLabel(packets, f, top[i].key) > 0)
      && (|top| < n ==> forall x :: CountLabel(packets, f, x) > 0 ==> HasKey(top, x))
  {
    var s := SortByCount(Tally(packets, f));
    SortedTally(packets, f);
    TopNSorted(Tally(packets, f), n);
    var m := Min(n, |s|);
    PrefixBest(s, m);
    PrefixKeys(s, m);
    assert forall i :: 0 <= i < m ==> s[..m][i] == s[i];
    if m < n {
      assert s[..m] == s;
    }
  }

  /** No key left out of the top `n` of a tally counts more packets than a key taken. */
  lemma TallyTopBest(packets: seq<Packet>, f: Field, n: nat)
    ensures var top := TopN(Tally(packets, f), n);
      forall x :: CountLabel(packets, f, x) > 0 && !HasKey(top, x) ==>
        forall i :: 0 <= i < |top| ==> top[i].count >= CountLabel(packets, f, x)
  {
    var s := SortByCount(Tally(packets, f));
    SortedTally(packets, f);
    var m := Min(n, |s|);
    PrefixBest(s, m);
    PrefixKeys(s, m);
    assert forall i :: 0 <= i < m ==> s[..m][i] == s[i];
  }

  /**
    A report's top lists hold five rows each, or every source (or destination) when there are
    fewer, busiest first, each row a source (or destination) of the included packets with the
    number of packets it sent (or received), and no source (or destination) left out sent (or
    received) more than one listed.
  */
  lemma TopLists(captured: Option<seq<Packet>>, filter: string, limit: Limit, f: Field)
    requires MakeReport(captured, filter, limit).Some? && f != Protocol
    ensures var r := MakeReport(captured, filter, limit).value;
      var top := if f == Source then r.topSources else r.topDestinations;
      && |top| == Min(TopCount, |Tally(r.included, f)|) && NonIncreasing(top) && UniqueKeys(top)
      && (forall i :: 0 <= i < |top| ==> top[i].count == CountLabel(r.included, f, top[i].key) > 0)
      && (|top| < TopCount ==> forall x :: CountLabel(r.included, f, x) > 0 ==> HasKey(top, x))
      && forall x :: CountLabel(r.included, f, x) > 0 && !HasKey(top, x) ==>
           forall i :: 0 <= i < |top| ==> top[i].count >= CountLabel(r.included, f, x)
  {
    var r := MakeReport(captured, filter, limit).value;
    TallyTop(r.included, f, TopCount);
    TallyTopBest(r.included, f, TopCount);
  }
}

=== FILE: seqs.dfy ===
/** Sequence helpers shared by the layout engine and the plugin models. */
module Seqs {

  /** No element occurs twice. */
  predicate Distinct<T(==)>(s: seq<T>) {
    forall i, j :: 0 <= i < j < |s| ==> s[i] != s[j]
  }

  /** Concatenation regroups: `(front + rest) + tail` is `front + (rest + tail)`. */
  lemma AppendRegroup<T>(front: seq<T>, rest: seq<T>, tail: seq<T>)
    ensures (front + rest) + tail == front + (rest + tail)
  {
  }

  /** Position of the first occurrence of `x` (JavaScript's `indexOf` when the element is present). */
  function IndexOf<T(==)>(s: seq<T>, x: T): (i: nat)
    requires x in s
    ensures i < |s| && s[i] == x
    ensures x !in s[..i]
  {
    if s[0] == x then 0
    else
      var j := IndexOf(s[1..], x);
      assert s[..1 + j] == [s[0]] + s[1..][..j];
      1 + j
  }

  /** `s` with every occurrence of `x` removed, the rest kept in order. */
  function Without<T(==, !new)>(s: seq<T>, x: T): (r: seq<T>)
    ensures forall y :: y in r <==> y in s && y != x
    ensures |r| <= |s|
  {
    if |s| == 0 then []
    else (if s[0] == x then [] else [s[0]]) + Without(s[1..], x)
  }

  /** Removing an absent element changes nothing. */
  lemma {:induction false} WithoutAbsent<T(!new)>(s: seq<T>, x: T)
    requires x !in s
    ensures Without(s, x) == s
  {
    if |s| > 0 {
      WithoutAbsent(s[1..], x);
      assert s == [s[0]] + s[1..];
    }
  }

  /** In a duplicate-free sequence, removing `x` splices out exactly its one position. */
  lemma {:induction false} WithoutSplices<T(!new)>(s: seq<T>, x: T)
    requires Distinct(s) && x in s
    ensures Without(s, x) == s[..IndexOf(s, x)] + s[IndexOf(s, x) + 1..]
  {
    if s[0] == x {
      assert x !in s[1..];
      WithoutAbsent(s[1..], x);
    } else {
      assert Distinct(s[1..]);
      WithoutSplices(s[1..], x);
      var j := IndexOf(s[1..], x);
      assert s[..1 + j] == [s[0]] + s[1..][..j];
      assert s[1 + j + 1..] == s[1..][j + 1..];
    }
  }

  /** Removing an element keeps a sequence duplicate-free. */
  lemma {:induction false} WithoutDistinct<T(!new)>(s: seq<T>, x: T)
    requires Distinct(s)
    ensures Distinct(Without(s, x))
  {
    if |s| > 0 {
      assert Distinct(s[1..]);
      WithoutDistinct(s[1..], x);
      assert s[0] !in s[1..];
    }
  }

  /**
    `Array.prototype.slice(from, to)` on a sequence: a negative bound counts from the end, a bound
    past the end is the end, and crossed bounds give the empty slice.
  */
  function Slice<T>(s: seq<T>, from: int, to: int): (r: seq<T>)
    ensures 0 <= from <= to <= |s| ==> r == s[from..to]
    ensures from >= to && 0 <= to ==> r == []
  {
    var a := if from < 0 then (if |s| + from < 0 then 0 else |s| + from) else (if from > |s| then |s| else from);
    var b := if to < 0 then (if |s| + to < 0 then 0 else |s| + to) else (if to > |s| then |s| else to);
    if a < b then s[a..b] else []
  }
}

=== FILE: sniffer.dfy ===
/**
  The Python sniffer's packet handling (plugins/python-sniffer/sniffer.py): protocol names, the
  application-protocol guess from well-known ports, the IPv4 header fields read from a received
  packet (the header of section 3.1 of RFC 791, the ports of section 3.1 of RFC 793 and of the
  UDP header of RFC 768), and the line printed for each packet.
*/
module Sniffer {
  import opened Wrappers
  import opened Text

  /** An octet of a received packet. */
  newtype Byte = b: int | 0 <= b < 256

  /** The protocol numbers with a name of their own. */
  predicate Named(n: nat) {
    n == 1 || n == 2 || n == 6 || n == 17
  }

  /** The text `get_protocol_name` puts in front of an unnamed protocol's number. */
  const UnknownOpen := "Unknown("

  /**
    `get_protocol_name`: ICMP, IGMP, TCP and UDP by number, and `Unknown(n)` with the number in
    decimal for every other protocol.
  */
  function ProtocolName(n: nat): (r: string)
    ensures Named(n) <==> !(|r| > |UnknownOpen| && r[..|UnknownOpen|] == UnknownOpen)
    ensures n == 1 ==> r == "ICMP"
    ensures n == 2 ==> r == "IGMP"
    ensures n == 6 ==> r == "TCP"
    ensures n == 17 ==> r == "UDP"
    ensures !Named(n) ==> r == UnknownOpen + ToBase(n, 10) + ")"
  {
    if n == 1 then "ICMP"
    else if n == 2 then "IGMP"
    else if n == 6 then "TCP"
    else if n == 17 then "UDP"
    else UnknownOpen + ToBase(n, 10) + ")"
  }

  /** Different protocols get different names: the number can be read back from the name. */
  lemma ProtocolNameInjective(n: nat, m: nat)
    ensures ProtocolName(n) == ProtocolName(m) ==> n == m
  {
    if ProtocolName(n) == ProtocolName(m) && !Named(n) && !Named(m) {
      var r := ProtocolName(n);
      assert ToBase(n, 10) == r[|UnknownOpen|..|r| - 1];
      assert ToBase(m, 10) == r[|UnknownOpen|..|r| - 1];
      ToBaseInjective(n, m, 10);
    }
  }

  /** One of the two ports is `port`; an absent port (Python's `None`) equals no number. */
  predicate HasPort(srcPort: Option<nat>, dstPort: Option<nat>, port: nat) {
    srcPort == Some(port) || dstPort == Some(port)
  }

  /**
    `get_high_level_protocol`: TCP traffic on port 80 or 443 is HTTP, UDP traffic on port 53 is
    DNS before port 67 or 68 makes it DHCP, ICMP is ICMP, and every other protocol keeps its
    name from `get_protocol_name`.
  */
  function HighLevelProtocol(protocol: nat, srcPort: Option<nat>, dstPort: Option<nat>): (r: string)
    ensures r == "HTTP" <==> protocol == 6 && (HasPort(srcPort, dstPort, 80) || HasPort(srcPort, dstPort, 443))
    ensures r == "TCP" <==> protocol == 6 && !HasPort(srcPort, dstPort, 80) && !HasPort(srcPort, dstPort, 443)
    ensures r == "DNS" <==> protocol == 17 && HasPort(srcPort, dstPort, 53)
    ensures r == "DHCP" <==>
      protocol == 17 && !HasPort(srcPort, dstPort, 53) && (HasPort(srcPort, dstPort, 67) || HasPort(srcPort, dstPort, 68))
    ensures r == "UDP" <==>
      protocol == 17 && !HasPort(srcPort, dstPort, 53) && !HasPort(srcPort, dstPort, 67) && !HasPort(srcPort, dstPort, 68)
    ensures r == "ICMP" <==> protocol == 1
    ensures protocol != 1 && protocol != 6 && protocol != 17 ==> r == ProtocolName(protocol)
  {
    if protocol == 6 then
      if HasPort(srcPort, dstPort, 80) || HasPort(srcPort, dstPort, 443) then "HTTP" else "TCP"
    else if protocol == 17 then
      if HasPort(srcPort, dstPort, 53) then "DNS"
      else if HasPort(srcPort, dstPort, 67) || HasPort(srcPort, dstPort, 68) then "DHCP"
      else "UDP"
    else if protocol == 1 then "ICMP"
    else ProtocolName(protocol)
  }

  /** The fields the sniffer reads from a packet's IPv4 header and, for TCP and UDP, its transport header. */
  datatype Header = Header(protocol: Byte, src: string, dst: string, srcPort: Option<nat>, dstPort: Option<nat>)

  /** `socket.inet_ntoa`: four octets in decimal, separated by dots. */
  function Dotted(a: seq<Byte>): string
    requires |a| == 4
  {
    ToBase(a[0] as nat, 10) + ("." + (ToBase(a[1] as nat, 10) + ("." + (ToBase(a[2] as nat, 10) + ("." + ToBase(a[3] as nat, 10))))))
  }

  /** The version field: the high four bits of the first octet. */
  function Version(packet: seq<Byte>): nat
    requires |packet| > 0
  {
    packet[0] as nat / 16
  }

  /** The header length in octets: the low four bits of the first octet, in 32-bit words. */
  function HeaderLength(packet: seq<Byte>): nat
    requires |packet| > 0
  {
    packet[0] as nat % 16 * 4
  }

  /** A 16-bit field in network byte order (`struct.unpack('!H', ...)`). */
  function Word(packet: seq<Byte>, at: nat): nat
    requires at + 2 <= |packet|
  {
    packet[at] as nat * 256 + packet[at + 1] as nat
  }

  /** Packets the receive loop skips: shorter than a minimal header, not version 4, or shorter than their stated header. */
  predicate Dropped(packet: seq<Byte>) {
    |packet| < 20 || Version(packet) != 4 || |packet| < HeaderLength(packet)
  }

  /**
    The header fields of a received packet (plugins/python-sniffer/sniffer.py:103-119), or `None`
    for a packet the loop skips. The ports are read from the first four octets after the stated
    header length, for TCP and UDP only, when the packet holds the 8 octets a UDP header takes.
  */
  function ParseHeader(packet: seq<Byte>): (r: Option<Header>)
    ensures r.None? <==> Dropped(packet)
    ensures r.Some? ==> r.value.protocol == packet[9]
    ensures r.Some? ==> r.value.src == Dotted(packet[12..16]) && r.value.dst == Dotted(packet[16..20])
    ensures r.Some? ==> r.value.srcPort.Some? == r.value.dstPort.Some?
    ensures r.Some? ==>
      (r.value.srcPort.Some? <==> (packet[9] == 6 || packet[9] == 17) && HeaderLength(packet) + 8 <= |packet|)
    ensures r.Some? && r.value.srcPort.Some? ==>
      && r.value.srcPort.value == Word(packet, HeaderLength(packet))
      && r.value.dstPort.value == Word(packet, HeaderLength(packet) + 2)
  {
    if Dropped(packet) then None
    else
      var ihl := HeaderLength(packet);
      var protocol := packet[9];
      var src := Dotted(packet[12..16]);
      var dst := Dotted(packet[16..20]);
      if (protocol == 6 || protocol == 17) && |packet| >= ihl + 8 then
        Some(Header(protocol, src, dst, Some(Word(packet, ihl)), Some(Word(packet, ihl + 2))))
      else
        Some(Header(protocol, src, dst, None, None))
  }

  /**
    A packet as section 3.1 of RFC 791 lays it out, reduced to what the sniffer reads: version 4,
    a header of 5 words without options, the protocol at octet 9, the source and destination
    addresses at octets 12 and 16, then the payload. The fields the sniffer ignores are zero,
    apart from a time to live of 64.
  */
  function Ipv4Packet(protocol: Byte, src: seq<Byte>, dst: seq<Byte>, payload: seq<Byte>): (p: seq<Byte>)
    requires |src| == 4 && |dst| == 4
    ensures |p| == 20 + |payload|
  {
    [0x45, 0, 0, 0, 0, 0, 0, 0, 64, protocol, 0, 0] + src + dst + payload
  }

  /**
    Reading back a packet laid out by `Ipv4Packet` recovers the protocol and the addresses, and for
    TCP and UDP with a full 8-octet transport header the two ports at the start of the payload.
  */
  lemma ParseIpv4Packet(protocol: Byte, src: seq<Byte>, dst: seq<Byte>, payload: seq<Byte>)
    requires |src| == 4 && |dst| == 4
    ensures var ports := (protocol == 6 || protocol == 17) && |payload| >= 8;
      ParseHeader(Ipv4Packet(protocol, src, dst, payload)) == Some(Header(protocol, Dotted(src), Dotted(dst),
        if ports then Some(Word(payload, 0)) else None, if ports then Some(Word(payload, 2)) else None))
  {
    var p := Ipv4Packet(protocol, src, dst, payload);
    assert p[0] == 0x45 && p[9] == protocol;
    assert HeaderLength(p) == 20 && Version(p) == 4;
    assert p[12..16] == src && p[16..20] == dst;
    if |payload| >= 2 {
      assert p[20] == payload[0] && p[21] == payload[1];
    }
    if |payload| >= 4 {
      assert p[22] == payload[2] && p[23] == payload[3];
    }
  }

  /** The lower-case hex digits of an octet, high digit first. */
  function HexByte(b: Byte): string {
    [DigitChar(b as nat / 16), DigitChar(b as nat % 16)]
  }

  /** `bytes.hex()`: two lower-case hex digits per octet. */
  function Hex(bytes: seq<Byte>): (r: string)
    ensures |r| == 2 * |bytes|
  {
    if |bytes| == 0 then "" else Hex(bytes[..|bytes| - 1]) + HexByte(bytes[|bytes| - 1])
  }

  /**
    The line printed for every packet the receive loop keeps (plugins/python-sniffer/sniffer.py:122),
    with no filter set: addresses, protocol guess, packet length and the whole packet in hex.
  */
  function PrintLine(packet: seq<Byte>): (r: Option<string>)
    ensures r.Some? <==> !Dropped(packet)
  {
    match ParseHeader(packet)
    case None => None
    case Some(h) =>
      var protocol := HighLevelProtocol(h.protocol as nat, h.srcPort, h.dstPort);
      Some("Packet: src_ip=" + h.src + ", dst_ip=" + h.dst + ", protocol=" + protocol
        + ", length=" + ToBase(|packet|, 10) + ", raw_data=" + Hex(packet))
  }

  /** The octet at each position of a packet is the pair of hex digits at twice that position. */
  lemma {:induction false} HexAt(bytes: seq<Byte>, i: nat)
    requires i < |bytes|
    ensures Hex(bytes)[2 * i..2 * i + 2] == HexByte(bytes[i])
  {
    var n := |bytes| - 1;
    var prev := Hex(bytes[..n]);
    assert Hex(bytes) == prev + HexByte(bytes[n]);
    if i < n {
      HexAt(bytes[..n], i);
      assert Hex(bytes)[2 * i..2 * i + 2] == prev[2 * i..2 * i + 2];
    }
  }

  /** The two digits of an octet read back, in base 16, as the octet. */
  lemma HexByteValue(b: Byte)
    ensures FromBase(HexByte(b), 16) == b as nat
  {
    var s := HexByte(b);
    assert s[..1] == [s[0]];
    assert [s[0]][..0] == [];
    assert FromBase(s[..1], 16) == HexDigitValue(s[0]) == b as nat / 16;
    assert FromBase(s, 16) == FromBase(s[..1], 16) * 16 + HexDigitValue(s[1]);
  }

  /** `c` is a decimal digit or lower-case hex letter, so `Hex` and `ToBase` output holds no punctuation. */
  predicate DigitOrHexLetter(c: char) {
    IsHexDigit(c) && c != 'A' && c != 'B' && c != 'C' && c != 'D' && c != 'E' && c != 'F'
  }

  /** Every character of a hex dump is a lower-case hex digit. */
  lemma {:induction false} HexDigits(bytes: seq<Byte>)
    ensures forall i :: 0 <= i < |Hex(bytes)| ==> DigitOrHexLetter(Hex(bytes)[i])
  {
    if |bytes| > 0 {
      HexDigits(bytes[..|bytes| - 1]);
    }
  }

  /** Splitting at the first dot: a dot-free head is determined by the string. */
  lemma DotSplit(x1: string, r1: string, x2: string, r2: string)
    requires Free(x1, '.') && Free(x2, '.')
    requires x1 + "." + r1 == x2 + "." + r2
    ensures x1 == x2 && r1 == r2
  {
    var s := x1 + "." + r1;
    assert s[|x1|] == '.' && s[|x2|] == '.';
    assert x1 == s[..|x1|] == x2;
    assert r1 == s[|x1| + 1..] == r2;
  }

  /** A decimal number holds no dot. */
  lemma DecimalNoDot(n: nat)
    ensures Free(ToBase(n, 10), '.')
  {
  }

  /** Different addresses print differently: `inet_ntoa` is injective. */
  lemma DottedInjective(a: seq<Byte>, b: seq<Byte>)
    requires |a| == 4 && |b| == 4
    requires Dotted(a) == Dotted(b)
    ensures a == b
  {
    forall i | 0 <= i < 4
      ensures Free(ToBase(a[i] as nat, 10), '.') && Free(ToBase(b[i] as nat, 10), '.')
    {
      DecimalNoDot(a[i] as nat);
      DecimalNoDot(b[i] as nat);
    }
    var a3 := ToBase(a[2] as nat, 10) + ("." + ToBase(a[3] as nat, 10));
    var b3 := ToBase(b[2] as nat, 10) + ("." + ToBase(b[3] as nat, 10));
    var a2 := ToBase(a[1] as nat, 10) + ("." + a3);
    var b2 := ToBase(b[1] as nat, 10) + ("." + b3);
    DotSplitNested(ToBase(a[0] as nat, 10), a2, ToBase(b[0] as nat, 10), b2);
    DotSplitNested(ToBase(a[1] as nat, 10), a3, ToBase(b[1] as nat, 10), b3);
    DotSplitNested(ToBase(a[2] as nat, 10), ToBase(a[3] as nat, 10), ToBase(b[2] as nat, 10), ToBase(b[3] as nat, 10));
    forall i | 0 <= i < 4
      ensures a[i] == b[i]
    {
      ToBaseInjective(a[i] as nat, b[i] as nat, 10);
    }
  }

  /** `DotSplit` for the right-nested form `Dotted` builds. */
  lemma DotSplitNested(x1: string, r1: string, x2: string, r2: string)
    requires Free(x1, '.') && Free(x2, '.')
    requires x1 + ("." + r1) == x2 + ("." + r2)
    ensures x1 == x2 && r1 == r2
  {
    assert x1 + ("." + r1) == x1 + "." + r1;
    assert x2 + ("." + r2) == x2 + "." + r2;
    DotSplit(x1, r1, x2, r2);
  }
}

=== FILE: text.dfy ===
/**
  String helpers the plugin models share: the character classes JavaScript's `trim`, `parseInt`
  and regular expressions use, ASCII case mapping, substring search (`includes`), and numbers
  written in base 10 or 16. A JavaScript string is taken as a sequence of `char`s.
*/
module Text {

  /** `0`-`9`: the regular-expression class `\d`. */
  predicate IsDigit(c: char) {
    '0' <= c <= '9'
  }

  /** A digit of base 16, either case. */
  predicate IsHexDigit(c: char) {
    IsDigit(c) || 'a' <= c <= 'f' || 'A' <= c <= 'F'
  }

  /** The value of a base-16 digit. */
  function HexDigitValue(c: char): (v: nat)
    requires IsHexDigit(c)
    ensures v < 16
    ensures IsDigit(c) <==> v < 10
  {
    if IsDigit(c) then c as nat - '0' as nat
    else if 'a' <= c <= 'f' then c as nat - 'a' as nat + 10
    else c as nat - 'A' as nat + 10
  }

  /** The line terminators of ECMAScript: the characters `.` does not match in a regular expression. */
  predicate IsLineTerminator(c: char) {
    c == '\n' || c == '\r' || c == '\U{2028}' || c == '\U{2029}'
  }

  /**
    The white space and line terminators that `String.prototype.trim` strips and `parseInt` skips
    (ECMAScript's StrWhiteSpaceChar), with the space separators of Unicode category Zs listed.
  */
  predicate IsJsSpace(c: char) {
    || IsLineTerminator(c)
    || c == '\t' || c == '\U{B}' || c == '\U{C}' || c == ' ' || c == '\U{A0}' || c == '\U{FEFF}'
    || c == '\U{1680}' || '\U{2000}' <= c <= '\U{200A}' || c == '\U{202F}' || c == '\U{205F}' || c == '\U{3000}'
  }

  /** Every character satisfies `IsJsSpace`. */
  predicate AllSpace(s: string) {
    forall i :: 0 <= i < |s| ==> IsJsSpace(s[i])
  }

  /** `s` without its leading white space. */
  function TrimStart(s: string): string {
    if |s| > 0 && IsJsSpace(s[0]) then TrimStart(s[1..]) else s
  }

  /** `s` without its trailing white space. */
  function TrimEnd(s: string): string {
    if |s| > 0 && IsJsSpace(s[|s| - 1]) then TrimEnd(s[..|s| - 1]) else s
  }

  /** `String.prototype.trim`: white space removed from both ends. */
  function Trim(s: string): string {
    TrimEnd(TrimStart(s))
  }

  /** `TrimStart` drops exactly the white-space prefix: what is left is a suffix not starting with white space. */
  lemma {:induction false} TrimStartStrips(s: string)
    ensures var r := TrimStart(s);
      && |r| <= |s| && r == s[|s| - |r|..] && AllSpace(s[..|s| - |r|])
      && (|r| > 0 ==> !IsJsSpace(r[0]))
  {
    if |s| > 0 && IsJsSpace(s[0]) {
      TrimStartStrips(s[1..]);
      var r := TrimStart(s[1..]);
      assert s[..|s| - |r|] == [s[0]] + s[1..][..|s| - 1 - |r|];
    }
  }

  /** `TrimEnd` drops exactly the white-space suffix: what is left is a prefix not ending with white space. */
  lemma {:induction false} TrimEndStrips(s: string)
    ensures var r := TrimEnd(s);
      && |r| <= |s| && r == s[..|r|] && AllSpace(s[|r|..])
      && (|r| > 0 ==> !IsJsSpace(r[|r| - 1]))
  {
    if |s| > 0 && IsJsSpace(s[|s| - 1]) {
      TrimEndStrips(s[..|s| - 1]);
      var r := TrimEnd(s[..|s| - 1]);
      assert s[|r|..] == s[..|s| - 1][|r|..] + [s[|s| - 1]];
    }
  }

  /**
    `trim` removes exactly a white-space prefix and a white-space suffix: `s` is the result with
    some white space around it, and the result neither starts nor ends with white space.
  */
  lemma TrimSplits(s: string)
    ensures var r := Trim(s);
      exists a, b :: 0 <= a <= b <= |s| && r == s[a..b] && AllSpace(s[..a]) && AllSpace(s[b..])
    ensures |Trim(s)| > 0 ==> !IsJsSpace(Trim(s)[0]) && !IsJsSpace(Trim(s)[|Trim(s)| - 1])
  {
    var t := TrimStart(s);
    TrimStartStrips(s);
    TrimEndStrips(t);
    var r := TrimEnd(t);
    var a := |s| - |t|;
    var b := a + |r|;
    assert r == s[a..b];
    assert s[b..] == t[|r|..];
  }

  /** A string without white space at either end is its own trim. */
  lemma TrimTrimmed(s: string)
    requires |s| > 0 ==> !IsJsSpace(s[0]) && !IsJsSpace(s[|s| - 1])
    ensures Trim(s) == s
  {
  }

  /** `s` does not hold `c`. */
  predicate Free(s: string, c: char) {
    forall i :: 0 <= i < |s| ==> s[i] != c
  }

  /** A concatenation is free of `c` when both parts are. */
  lemma FreeAppend(a: string, b: string, c: char)
    requires Free(a, c) && Free(b, c)
    ensures Free(a + b, c)
  {
  }

  /** The number of times `c` occurs in `s`. */
  function Count(s: string, c: char): nat {
    if |s| == 0 then 0 else Count(s[..|s| - 1], c) + (if s[|s| - 1] == c then 1 else 0)
  }

  /** Counting distributes over concatenation. */
  lemma {:induction false} CountAppend(a: string, b: string, c: char)
    ensures Count(a + b, c) == Count(a, c) + Count(b, c)
  {
    if |b| == 0 {
      assert a + b == a;
    } else {
      CountAppend(a, b[..|b| - 1], c);
      assert (a + b)[..|a + b| - 1] == a + b[..|b| - 1];
    }
  }

  /** A string free of `c` counts none. */
  lemma {:induction false} CountAbsent(s: string, c: char)
    requires Free(s, c)
    ensures Count(s, c) == 0
  {
    if |s| > 0 {
      CountAbsent(s[..|s| - 1], c);
    }
  }

  /** ASCII lower case; every other character is kept. */
  function LowerChar(c: char): char {
    if 'A' <= c <= 'Z' then (c as int + 32) as char else c
  }

  /** ASCII upper case; every other character is kept. */
  function UpperChar(c: char): char {
    if 'a' <= c <= 'z' then (c as int - 32) as char else c
  }

  /** `toLowerCase` restricted to ASCII letters. */
  function Lower(s: string): (r: string)
    ensures |r| == |s| && forall i :: 0 <= i < |s| ==> r[i] == LowerChar(s[i])
  {
    seq(|s|, i requires 0 <= i < |s| => LowerChar(s[i]))
  }

  /** `toUpperCase` restricted to ASCII letters. */
  function Upper(s: string): (r: string)
    ensures |r| == |s| && forall i :: 0 <= i < |s| ==> r[i] == UpperChar(s[i])
  {
    seq(|s|, i requires 0 <= i < |s| => UpperChar(s[i]))
  }

  /** Lower-casing twice is lower-casing once, and so for upper case. */
  lemma CaseIdempotent(s: string)
    ensures Lower(Lower(s)) == Lower(s)
    ensures Upper(Upper(s)) == Upper(s)
  {
  }

  /** Two characters are equal up to ASCII case exactly when their upper-case forms are. */
  lemma UpperLowerAgree(c: char, d: char)
    ensures UpperChar(c) == UpperChar(d) <==> LowerChar(c) == LowerChar(d)
  {
  }

  /** `sub` occurs in `s` at position `i`. */
  predicate OccursAt(s: string, sub: string, i: int) {
    0 <= i && i + |sub| <= |s| && s[i..i + |sub|] == sub
  }


  /** `includes` decided by scanning the start positions from `from` on. */
  function ContainsFrom(s: string, sub: string, from: nat): (r: bool)
    ensures r <==> exists i :: from <= i && OccursAt(s, sub, i)
    decreases |s| + 1 - from
  {
    if from + |sub| > |s| then false
    else if s[from..from + |sub|] == sub then
      assert OccursAt(s, sub, from);
      true
    else
      assert forall i :: from <= i && OccursAt(s, sub, i) ==> i == from || from + 1 <= i;
      ContainsFrom(s, sub, from + 1)
  }

  /** `String.prototype.includes`: `sub` occurs somewhere in `s` (the empty string occurs everywhere). */
  function Contains(s: string, sub: string): (r: bool)
    ensures r <==> exists i :: OccursAt(s, sub, i)
  {
    ContainsFrom(s, sub, 0)
  }

  /** The empty string is contained in every string, and a string contains itself. */
  lemma ContainsTrivial(s: string)
    ensures Contains(s, "") && Contains(s, s)
  {
    assert OccursAt(s, "", 0);
    assert OccursAt(s, s, 0);
  }

  /** The digits of base `b` in order: `0`-`9` then the lower-case `a`-`f`. */
  function DigitChar(d: nat): (c: char)
    requires d < 16
    ensures IsHexDigit(c) && HexDigitValue(c) == d
    ensures c != 'A' && c != 'B' && c != 'C' && c != 'D' && c != 'E' && c != 'F'
  {
    if d < 10 then ('0' as int + d) as char else ('a' as int + d - 10) as char
  }

  /**
    `n` written in base `b` (10 or 16) with the fewest digits, lower-case letters: Python's `str`
    of a non-negative int, JavaScript's `toString(b)` of a non-negative integer.
  */
  function ToBase(n: nat, b: nat): (r: string)
    requires b == 10 || b == 16
    ensures |r| > 0
    ensures forall i :: 0 <= i < |r| ==> IsHexDigit(r[i]) && HexDigitValue(r[i]) < b
    ensures forall i :: 0 <= i < |r| ==> r[i] != 'A' && r[i] != 'B' && r[i] != 'C' && r[i] != 'D' && r[i] != 'E' && r[i] != 'F'
    ensures n >= b ==> r[0] != '0'
    ensures n < b ==> r == [DigitChar(n)]
  {
    if n < b then [DigitChar(n)] else ToBase(n / b, b) + [DigitChar(n % b)]
  }

  /** The value of digits in base `b`, most significant first. */
  function FromBase(s: string, b: nat): nat
    requires forall i :: 0 <= i < |s| ==> IsHexDigit(s[i])
  {
    if |s| == 0 then 0 else FromBase(s[..|s| - 1], b) * b + HexDigitValue(s[|s| - 1])
  }

  /** Reading back what `ToBase` writes gives the number. */
  lemma {:induction false} ToBaseRoundTrip(n: nat, b: nat)
    requires b == 10 || b == 16
    ensures FromBase(ToBase(n, b), b) == n
  {
    if n >= b {
      ToBaseRoundTrip(n / b, b);
      var s := ToBase(n, b);
      assert s[..|s| - 1] == ToBase(n / b, b);
      assert HexDigitValue(s[|s| - 1]) == n % b;
      assert FromBase(s, b) == (n / b) * b + n % b;
    }
  }

  /** Distinct numbers are written differently: `ToBase` is injective. */
  lemma ToBaseInjective(n: nat, m: nat, b: nat)
    requires b == 10 || b == 16
    ensures ToBase(n, b) == ToBase(m, b) ==> n == m
  {
    ToBaseRoundTrip(n, b);
    ToBaseRoundTrip(m, b);
  }

  /** Prepending a zero digit does not change the value. */
  lemma {:induction false} LeadingZero(s: string, b: nat)
    requires forall i :: 0 <= i < |s| ==> IsHexDigit(s[i])
    ensures FromBase("0" + s, b) == FromBase(s, b)
  {
    if |s| > 0 {
      LeadingZero(s[..|s| - 1], b);
      assert ("0" + s)[..|s|] == "0" + s[..|s| - 1];
    }
  }
}

=== FILE: virtual_scroll.dfy ===
/**
  The packet visualizer's virtual scrolling (plugins/packet-visualizer/renderer.js:112-154): of
  the current packet list only the rows near the scrolled-to window are rendered, with spacer
  rows above and below standing in for the rest so the table keeps its full height.
*/
module VirtualScroll {
  import opened Seqs

  /** Height of one table row in pixels. */
  const RowHeight := 45

  /** Rows rendered beyond each end of the visible window. */
  const BufferSize := 10

  /** `Math.floor`. */
  function Floor(x: real): int {
    x.Floor
  }

  /** `Math.ceil`: the least integer not below `x`. */
  function Ceil(x: real): (c: int)
    ensures c as real >= x && (c - 1) as real < x
  {
    -((-x).Floor)
  }

  /** What `renderVirtual` puts into the table body: the rendered rows and the two spacer heights. */
  datatype Window<T> = Window(start: int, end: int, rows: seq<T>, paddingTop: int, paddingBottom: int)

  /** The first row the viewport shows, the row at the top edge. */
  function FirstVisible(scrollTop: real): int {
    Floor(scrollTop / RowHeight as real)
  }

  /** One past the last row the viewport shows, the row the bottom edge reaches into. */
  function EndVisible(scrollTop: real, height: real): int {
    Ceil((scrollTop + height) / RowHeight as real)
  }

  /**
    The window `renderVirtual` computes for a scroll position and viewport height: the visible
    rows widened by 10 on each side, clipped below at 0 and above at the packet count.
  */
  function Render<T>(packets: seq<T>, scrollTop: real, height: real): (w: Window<T>)
    ensures w.start >= 0 && w.start >= FirstVisible(scrollTop) - BufferSize
    ensures w.start == 0 || w.start == FirstVisible(scrollTop) - BufferSize
    ensures w.end <= |packets| && w.end <= EndVisible(scrollTop, height) + BufferSize
    ensures w.end == |packets| || w.end == EndVisible(scrollTop, height) + BufferSize
    ensures w.start <= w.end ==> w.rows == packets[w.start..w.end]
    ensures w.paddingTop == RowHeight * w.start && w.paddingBottom == RowHeight * (|packets| - w.end)
    ensures w.start <= w.end ==> w.paddingTop + RowHeight * |w.rows| + w.paddingBottom == RowHeight * |packets|
    ensures w.end < w.start && 0 <= w.end ==> w.rows == []
  {
    var start := FirstVisible(scrollTop) - BufferSize;
    var start := if start < 0 then 0 else start;
    var end := EndVisible(scrollTop, height) + BufferSize;
    var end := if end > |packets| then |packets| else end;
    Window(start, end, Slice(packets, start, end), start * RowHeight, (|packets| - end) * RowHeight)
  }

  /** A viewport of non-negative height starts no lower than it ends. */
  lemma VisibleOrdered(scrollTop: real, height: real)
    requires height >= 0.0
    ensures FirstVisible(scrollTop) <= EndVisible(scrollTop, height)
  {
    var x := scrollTop / RowHeight as real;
    var y := (scrollTop + height) / RowHeight as real;
    assert x <= y;
    assert Floor(x) as real <= x;
  }

  /**
    Every row the viewport shows is rendered, at its own position: row `i` on screen is the entry
    `i - start` of the rendered rows, and below the top spacer it sits at the height it would have
    in the full table.
  */
  lemma VisibleRendered<T>(packets: seq<T>, scrollTop: real, height: real, i: int)
    requires 0 <= i < |packets| && FirstVisible(scrollTop) <= i < EndVisible(scrollTop, height)
    ensures var w := Render(packets, scrollTop, height);
      && w.start <= i < w.end && w.rows[i - w.start] == packets[i]
      && w.paddingTop + RowHeight * (i - w.start) == RowHeight * i
  {
    var w := Render(packets, scrollTop, height);
    assert w.start <= i < w.end;
  }

  /**
    For a scroll position and height the browser reports (both non-negative), the window holds
    at most the rows the viewport touches and the two buffers of 10.
  */
  lemma WindowBounded<T>(packets: seq<T>, scrollTop: real, height: real)
    requires scrollTop >= 0.0 && height >= 0.0
    ensures var w := Render(packets, scrollTop, height);
      |w.rows| <= EndVisible(scrollTop, height) - FirstVisible(scrollTop) + 2 * BufferSize
  {
    VisibleOrdered(scrollTop, height);
    assert FirstVisible(scrollTop) >= 0;
  }

  /**
    A viewport left scrolled past the end of a list that has since shrunk renders no row: the top
    spacer alone is taller than the whole list and the bottom one is empty.
  */
  lemma ScrolledPast<T>(packets: seq<T>, scrollTop: real, height: real)
    requires height >= 0.0
    requires FirstVisible(scrollTop) - BufferSize > |packets|
    ensures var w := Render(packets, scrollTop, height);
      w.rows == [] && w.paddingBottom == 0 && w.paddingTop > RowHeight * |packets|
  {
    VisibleOrdered(scrollTop, height);
  }
}

=== FILE: wrappers.dfy ===
/** Small failure-compatible wrapper used throughout the model. */
module Wrappers {

  /** A value that may be absent: JavaScript's `null`/`undefined`, Python's `None`. */
  datatype Option<+T> = None | Some(value: T) {

    /** The wrapped value, or `default` when absent. */
    function GetOr(default: T): T {
      match this
      case Some(v) => v
      case None => default
    }
  }
}
